=== FILE: README.md ===
# radiation, modelled in Dafny

radiation is a mutation-testing tool for Python projects. It parses each
source file, walks the syntax tree, and asks a fixed list of mutators for
small edits at every node: swap `+` for `-`, flip `and`/`or`, change a
constant, switch a comparison, negate a condition. Each edit is a
*mutation*. A mutation carries the rebuilt module tree, the replacement
node and the source span it replaces. Filters can drop mutations: one keeps
only mutations that touch lines a diff adds, another caps the number per
line. The test suite runs once against each surviving mutation. The
command line reports the mutations the tests did not kill, and those that
timed out, each with a window of the mutated file.

This project models that core as pure functions over immutable data:

- the tree walk and its mutators;
- splicing a mutation back into the source text;
- the patch and line-limit filters;
- file search and filtering in the `Radiation` driver;
- the configuration readers and the `cli`/`run` pipeline of the command line.

It then proves what these functions promise about each other.

Modelling choices:

- **Syntax trees.** A Python tree is `Ast.Node(kind, attrs, fields)`.
  - The attributes are the four position attributes. Each is present, absent, or `None`.
  - A field is a sub-tree, a list of sub-trees, an operator, or an atom.
  - Nodes that a mutator builds carry `FreshAttrs`: start positions are missing and end positions are `None`, as with a fresh Python node.
- **Parameters for what is not modelled.**
  - Rendering a node back to text (`astunparse.unparse`, from the third-party `astunparse` package) is the parameter `render`.
  - The parsed diff is the parameter `diffOf`.
  - Running the tests is the parameter `test`.
  - The file system and the TOML/INI parsers are the record `CliConfig.Files`.
  - The mutations found on disk are the parameter `ms`.
- **Numbers and text.** Durations are `real` seconds. Text is `seq<char>`.
- **Module substitutions.** The tree walk, the comparison and inversion mutators and the line-limit filter are modelled from the `antigen` package: `antigen/gen.py`, `antigen/mutators/compare.py`, `antigen/mutators/invert.py` and `antigen/filters/line_limit.py`. `radiation/gen.py`, `radiation/mutators/compare.py`, `radiation/mutators/invert.py` and `radiation/filters/line_limit.py` are not part of this model.
- **The inversion mutator.** `antigen/mutators/invert.py` negates every condition, comparison tests included, as tests/test_antigen/test_mutators/test_invert.py:30-38 expects.
  - `Inversion.Invert` follows that code, and the catalogue registers it.
  - tests/test_radiation/test_mutators/test_invert.py:48-71 expects radiation's inversion to leave comparison-tested conditionals alone. That variant is `Inversion.InvertSkippingComparisons`, and `Catalogue.SkippingMutators` is the catalogue built with it (see Findings).

Python semantics that the model writes out explicitly:

- `str.splitlines` breaks on the full set of line-break characters, and `\r\n` counts as one break.
- Slicing and negative indexing are clamped. An index past the end raises `IndexError`.
- `int()` accepts surrounding whitespace, a sign, and single underscores between digits. Only the ASCII digits are digits here (see Left out).
- `int(float)` truncates toward zero.
- `pathlib`:
  - `relative_to` raises `ValueError` for a path outside the root;
  - `.parents` and `.suffix` follow pathlib's rules;
  - `/` with an absolute right-hand side gives the right-hand side.
- `os.path.join`.

## Model

| member | source | states |
|---|---|---|
| Contexts.GetContext | radiation/context.py:6-17 | Each of the four positions is the node's own attribute when it has one, otherwise the parent's; the file is the parent's and `extra` is dropped |
| Contexts.PositionedIgnoresParent | radiation/context.py:9-16 | A node carrying all four positions gets the same span under any parent |
| Contexts.UnpositionedInherits | radiation/context.py:9-16 | A node with no position attributes inherits the parent's whole span |
| Contexts.FreshNodeContext | radiation/context.py:9-16 | A mutator-built node keeps the parent's start line and column and gets `None` end positions |
| Contexts.GetContextIdempotent | radiation/context.py:6-17 | Deriving a node's context from its own context changes nothing |
| Types.StatusTextInjective | radiation/types.py:6 | The three result statuses have distinct texts, so the text identifies the status |
| Types.NewTestsResult | radiation/types.py:9-13 | A tests result keeps its duration and status, and its output defaults to absent |
| Types.NewContext | radiation/types.py:29-33 | A context keeps its file and node span, and `extra` defaults to `None` |
| Mutations.FromNode | radiation/mutation.py:18-20 | A mutation built from a node has that node as both tree and replacement |
| Mutations.Mutation.WithTree | radiation/mutation.py:22-23 | Replacing the tree leaves the replacement node and the context untouched |
| Mutations.EndLine | radiation/mutation.py:30 | A missing or zero end line falls back to the start line |
| Mutations.Tail | radiation/mutation.py:34 | The text after the end column is a suffix of the line, and the whole line when the end column is `None` |
| Mutations.SpliceLines | radiation/mutation.py:27-40 | `IndexError` exactly when the start or end line is outside Python's index range; for a span inside the file, the lines before and after are kept, and the start line becomes prefix + rendering + tail |
| Mutations.SpliceOriginalText | radiation/mutation.py:33-40 | Splicing a one-line span's own text back in gives the original lines |
| Mutations.SplicedLineUnbroken | radiation/mutation.py:36-40 | The spliced line contains no line feed when its inputs contain none |
| Mutations.SpliceKeepsLinesUnbroken | radiation/mutation.py:36-40 | Splicing into line-feed-free lines yields line-feed-free lines |
| Mutations.ApplyMutationOnString | radiation/mutation.py:26-42 | The text splice fails, with `IndexError`, exactly when the line splice fails |
| Mutations.ApplyKeepsOtherLines | radiation/mutation.py:26-42 | For a span inside the file, the result splits on line feeds into exactly the spliced lines |
| Mutations.SpliceOneLineExample | tests/test_radiation/test_mutation.py:14-43 | `5 - 3` on line 2 becomes `(5 * 3)` and the other lines stay |
| Mutations.SpliceMultiLineExample | tests/test_radiation/test_mutation.py:45-74 | A span over two lines collapses into one line holding the rendering |
| Strings.SplitLinesUnbroken | radiation/mutation.py:27 | No piece of `splitlines` contains a line-break character |
| Strings.JoinSplitLines | radiation/mutation.py:27 | Text whose only breaks are line feeds, not ending in one, is rebuilt by joining its lines with `\n` |
| Strings.SplitLinesJoin | radiation/mutation.py:27 | Splitting break-free lines joined by `\n` gives them back when the last one is non-empty |
| Strings.SplitLinesExamples | radiation/mutation.py:27 | `\r\n` is one break, `\n\r` is two, form feed breaks, and a final break adds no empty line |
| Strings.StripNewlines | radiation/mutation.py:38 | The stripped rendering neither starts nor ends with a line feed |
| Strings.Strip | radiation_cli/config.py:66 | The stripped text neither starts nor ends with whitespace |
| Strings.SplitJoin | radiation/mutation.py:42 | Splitting on a separator undoes joining with it when no part contains it |
| Strings.JoinSplit | radiation_cli/config.py:66 | Joining the pieces of a split with the separator gives the text back |
| Strings.IntToStringRoundTrip | radiation_cli/config.py:44 | `int()` reads back every integer's decimal text |
| Strings.ParseDigits | radiation_cli/config.py:44 | `int()` of a digit string is its decimal value |
| Strings.NotANumber | radiation_cli/config.py:44 | Stripped text whose first character is neither a digit nor a sign is refused by `int()` |
| Strings.NoRunRefused | radiation_cli/config.py:44 | Stripped unsigned text that is not digits with single underscores between them is refused by `int()` |
| Strings.RunOfDigits | radiation_cli/config.py:44 | Plain digits form a run worth their decimal value |
| Strings.RunStartsWithDigit | radiation_cli/config.py:44 | Digits with underscores between them always start with a digit |
| Strings.UnsignedRun | radiation_cli/config.py:44 | A run without sign or whitespace reads as its value, underscores skipped |
| Strings.UnderscoreAccepted | radiation_cli/config.py:44 | `int("1_000")` is 1000 |
| Strings.UnderscoresRefused | radiation_cli/config.py:44 | `1__0`, `_1` and `1_` are refused |
| Seqs.Slice | radiation/mutation.py:37-39 | Python slicing clamps both bounds and yields the elements between them |
| Seqs.At | radiation/mutation.py:33-34 | Indexing succeeds exactly for `-len <= i < len`, and a negative index counts from the end |
| Seqs.TakeDrop | radiation/mutation.py:33-34 | `s[:k] + s[k:]` is `s` for every integer `k` |
| Paths.Parse | radiation/radiation.py:81 | `Path(text)` is absolute exactly when the text starts with `/`, and keeps only non-empty, non-`.` parts |
| Paths.ParseToString | radiation/filters/patch.py:31 | `Path(str(p))` is `p` |
| Paths.Join | radiation/radiation.py:82 | `a / b` is `b` when `b` is absolute, else `a`'s parts followed by `b`'s |
| Paths.RelativeTo | radiation/filters/patch.py:31 | `relative_to` succeeds exactly for a path under the root, and the root joined with the result is the path |
| Paths.Parents | radiation_cli/utils.py:13 | `.parents` lists every proper ancestor, nearest first |
| Paths.Suffix | radiation_cli/config.py:97 | A non-empty suffix is a dot followed by the name's last dot-free part, and is shorter than the name |
| Paths.Parent | radiation_cli/config.py:57 | The parent joined with the name gives the path back |
| Paths.ParentOfChild | radiation_cli/config.py:119 | The parent of `root / name` is `root` |
| Ast.PlugStepElsewhere | antigen/gen.py:24-25 | Replacing one child slot of a copied node leaves every other field as it was |
| Gen.RunMutatorsAppend | antigen/gen.py:38-39 | Running two mutator lists in turn concatenates their mutations |
| Gen.LiftReplacesOneSlot | antigen/gen.py:24-26 | A lifted mutation keeps its replacement and context, and its tree is the node with the child's tree in one slot |
| Gen.LiftAppend | antigen/gen.py:21-26 | Lifting distributes over concatenation |
| Gen.OwnMutationsLast | antigen/gen.py:38-39 | A node's own mutations come last, after every sub-tree's |
| GenSpec.Plug | antigen/gen.py:24-37 | Plugging a tree at a valid path puts that tree at that path |
| GenSpec.PlugSame | antigen/gen.py:24-37 | Plugging the sub-tree already at a path gives the node back |
| GenSpec.VisitsWellFormed | antigen/gen.py:17-37 | Every visited node is the sub-tree found at its recorded path |
| GenSpec.GenMatchesVisits | antigen/gen.py:13-39 | The recursive generator equals a flat reference: for each visited node in post-order, its mutators' results, each plugged back at that node's path |
| GenSpec.GenOrigin | antigen/gen.py:13-39 | Every generated mutation is some mutator's mutation of a visited node, plugged into the tree at that node's path |
| GenSpec.GenIdentity | antigen/gen.py:13-39 | With a mutator that returns each node unchanged, there is one mutation per visited node, and each keeps the original tree |
| GenExamples.SumVisits | antigen/gen.py:17-39 | `a + 6 * 3` is visited left operand, inner operands, inner product, then the sum, and operators are skipped |
| GenExamples.ChainVisits | antigen/gen.py:27-39 | A comparison chain visits its left side and each comparator, but not the operator list |
| GenExamples.IdentityCounts | tests/test_radiation/test_gen.py:28-162 | The identity mutator yields five mutations for the sum and four for the chain, each carrying the whole tree |
| BinOps.Switch | radiation/mutators/binops.py:8-18 | Exactly `+ - * / //` have a replacement, and it always differs from the operator |
| BinOps.SwitchBinOps | radiation/mutators/binops.py:21-25 | At most one mutation, and one exactly for a binary operation whose operator has a replacement |
| BinOps.SwitchBinOpsOf | radiation/mutators/binops.py:21-25 | The mutation is a fresh node with the same operands and the switched operator |
| BinOps.SwitchBinOpsTwice | radiation/mutators/binops.py:8-12 | Switching `+ - * /` twice restores the operator |
| BinOps.FloorDivNotRecovered | radiation/mutators/binops.py:11-13 | `//` switches to `/`, whose switch is `*`, so it is not restored |
| BoolOps.Switch | radiation/mutators/boolops.py:8-15 | `and` and `or` swap |
| BoolOps.SwitchBoolOps | radiation/mutators/boolops.py:18-22 | One mutation exactly for a boolean operation |
| BoolOps.SwitchBoolOpsOf | radiation/mutators/boolops.py:18-22 | The mutation keeps the operand list and swaps the operator |
| BoolOps.SwitchBoolOpsTwice | radiation/mutators/boolops.py:8-11 | Switching twice restores the operation |
| UnaryOps.Switch | radiation/mutators/unaryops.py:8-15 | Unary `+` and `-` swap, and no other operator has a replacement |
| UnaryOps.SwitchUnaryOps | radiation/mutators/unaryops.py:18-22 | At most one mutation, and one exactly for a unary operation other than `not` |
| UnaryOps.SwitchUnaryOpsOf | radiation/mutators/unaryops.py:18-22 | `~x` yields `x` itself, `+x` and `-x` yield a fresh node with the other sign, and `not x` yields nothing |
| UnaryOps.SwitchUnaryOpsTwice | radiation/mutators/unaryops.py:8-11 | Switching a sign twice restores it |
| Constants.Wrap | radiation/mutators/constants.py:10 | The wrapped string holds the original between three characters on each side, so it always differs |
| Constants.WrapBytes | radiation/mutators/constants.py:12 | The same for byte strings |
| Constants.IntReplacements | radiation/mutators/constants.py:14-15 | The replacements are exactly `{0, 1, v-1, v+1}` without `v`, ascending, two to four of them |
| Constants.IntReplacementsSorted | radiation/mutators/constants.py:14-15 | Any ascending list of that set is the replacement list, so the order is the sorted one |
| Constants.ModifyConstants | radiation/mutators/constants.py:8-16 | Anything but a constant yields nothing |
| Constants.ModifyConstantsOf | radiation/mutators/constants.py:8-16 | A string or byte string yields its wrapping, an integer yields one fresh constant per replacement in order, every mutation differs from the original, and `None`/booleans yield nothing |
| Constants.IntReplacementsExamples | tests/test_antigen/test_mutators/test_constants.py:12-35 | 5 gives 0, 1, 4, 6; 1 gives 0, 2; 0 gives -1, 1; 2 gives 0, 1, 3 |
| Comparisons.Negation | antigen/mutators/compare.py:9-20 | The last replacement of each operator differs from it and keeps it an ordering or not |
| Comparisons.NegationComplements | antigen/mutators/compare.py:12-17 | On integers, the negated comparison holds exactly when the original does not |
| Comparisons.NegationInvolution | antigen/mutators/compare.py:9-20 | Negating twice restores the operator |
| Comparisons.ReplacementsTable | antigen/mutators/compare.py:9-20 | Orderings have two replacements and the rest one; none is the operator itself; the last is the negation |
| Comparisons.SetOpOnlyThere | antigen/mutators/compare.py:32-33 | The copy differs from the node only in the one operator slot |
| Comparisons.SwitchCompareOps | antigen/mutators/compare.py:28-34 | Anything but a comparison yields nothing |
| Comparisons.SwitchCompareOpsAt | antigen/mutators/compare.py:28-34 | The mutations come position by position, and within a position in table order; each changes only its own slot |
| Comparisons.SwitchCompareOpsCount | antigen/mutators/compare.py:28-34 | One mutation per operator, plus one more per ordering operator |
| Comparisons.ChainExample | tests/test_antigen/test_mutators/test_compare.py:44-66 | `x > y == z` yields `>=`, `<=` at the first slot, then `!=` at the second |
| Inversion.Invert | antigen/mutators/invert.py:13-19 | One mutation exactly for `if` expressions, `if` statements and `while` loops |
| Inversion.InvertOf | antigen/mutators/invert.py:13-19 | The mutation wraps the test in `not`, keeps body and else-branch, and takes its span from the test |
| Inversion.InvertUndone | antigen/mutators/invert.py:9-19 | Unwrapping the `not` gives back the node's fields; the new tree holds the replacement in its test slot |
| Inversion.NegationNotSwitched | antigen/mutators/invert.py:9-10 | The `not` that inversion adds is not an operator the unary mutator changes |
| Inversion.NameTestExample | tests/test_radiation/test_mutators/test_invert.py:17-45 | `5 if condition else 3` gets `not condition`, with the span of `condition` |
| Inversion.ComparisonTestExample | antigen/mutators/invert.py:13-19 | As written, `5 if 5 < 3 else 3` is inverted too |
| Inversion.InvertSkippingComparisons | tests/test_radiation/test_mutators/test_invert.py:48-71 | A conditional whose test is a comparison yields nothing; every other node yields what the inversion yields |
| Inversion.ComparisonTestDiscrepancy | tests/test_radiation/test_mutators/test_invert.py:48-55 | On `5 if 5 < 3 else 3` the code as written yields one mutation where the tests expect none |
| Catalogue.BuiltinMutators | radiation/mutators/__init__.py:15-26 | Six built-in mutators, each silent outside its own class of node; the last one inverts every conditional, comparison tests included |
| Catalogue.BuiltinOrder | radiation/mutators/__init__.py:15-22 | The built-in mutations of a node are the binary, boolean, constant, unary, comparison and inversion mutations, in that order |
| Catalogue.OnlyOwnMutatorFires | radiation/mutators/__init__.py:15-22 | Each kind of node is mutated only by its own mutator, and other kinds by none |
| Catalogue.SilentElsewhere | radiation/mutators/__init__.py:15-22 | Other node kinds, `None` and booleans get no built-in mutation |
| Catalogue.BuiltinOnConditional | radiation/mutators/__init__.py:15-22 | Every conditional, whatever its test, gets exactly one mutation, its inversion |
| Catalogue.BuiltinOnSum | radiation/mutators/__init__.py:15-22 | `l + r` gets exactly one mutation, `l - r` |
| Catalogue.SkippingMutators | tests/test_radiation/test_mutators/test_invert.py:48-71 | The catalogue radiation's tests describe: the first five mutators act as the built-in ones, and the inversion gives nothing for a comparison-tested conditional |
| Catalogue.SkippingOnConditional | tests/test_radiation/test_mutators/test_invert.py:48-71 | Under that catalogue a comparison-tested conditional gets nothing, and every other node gets what the built-in catalogue gives it |
| LineLimit.New | antigen/filters/line_limit.py:12-15 | A new filter has its limit and has counted nothing |
| LineLimit.Default | antigen/filters/line_limit.py:14 | The default limit is 2 |
| LineLimit.Call | antigen/filters/line_limit.py:17-19 | Accepts exactly when fewer than `limit` mutations were seen on this file and line; counts this one there and nowhere else |
| LineLimit.RunCounts | antigen/filters/line_limit.py:17-19 | After a run, each file and line has counted its earlier calls plus the run's calls there, and the limit is unchanged |
| LineLimit.RunOnOneKey | antigen/filters/line_limit.py:17-19 | On one line, the j-th mutation is accepted exactly when earlier calls plus j stay below the limit |
| LineLimit.FreshRunOnOneKey | antigen/filters/line_limit.py:12-19 | A fresh filter accepts the first `limit` mutations of a line and rejects the rest |
| LineLimit.RejectedStaysRejected | antigen/filters/line_limit.py:17-19 | Once a line is rejected, every later mutation on that line is rejected |
| LineLimit.SameKeySameVerdict | antigen/filters/line_limit.py:18 | Only the file and start line matter to the verdict |
| LineLimit.DefaultLimitExample | tests/test_radiation/test_filters/test_line_limit.py:120-130 | With the default limit, a third mutation on a line is refused and another line is unaffected |
| Patch.InDiffIff | radiation/filters/patch.py:15-23 | A mutation is in a diff exactly when some added line falls between its start line and end line |
| Patch.OnlyAdditionsCount | radiation/filters/patch.py:22 | Removed and context lines never let a mutation through |
| Patch.Widening | radiation/filters/patch.py:16-23 | A wider span keeps every mutation a narrower one lets through |
| Patch.PatchFilter | radiation/filters/patch.py:30-40 | Fails with `ValueError` exactly for a file outside the project root |
| Patch.FirstDeciderDecides | radiation/filters/patch.py:33-38 | The first diff with a header, changes and this file's path gives the verdict, whatever follows |
| Patch.NoDeciderRejects | radiation/filters/patch.py:33-40 | With no diff for the file, the mutation is rejected |
| Patch.FirstMatchIff | radiation/filters/patch.py:33-40 | The loop accepts exactly when the first deciding diff accepts |
| Patch.PatchFilterVerdict | radiation/filters/patch.py:30-40 | For a file under the root, the verdict is whether the first deciding diff for its relative path accepts |
| Patch.PatchFilterExamples | tests/test_radiation/test_filters/test_patch.py:126-155 | In-patch, out-of-patch, multi-line, hunkless and other-file cases |
| Radiation.InitialContext | radiation/radiation.py:20-29 | Fails for an empty body; otherwise spans from the first statement's start to the last statement's end |
| Radiation.OneStatementContext | radiation/radiation.py:20-29 | For a one-statement module this is the statement's own context |
| Radiation.AssertRelativeIff | radiation/radiation.py:48-49 | Fails with "paths must be relative" exactly when some path starts with `/` |
| Radiation.GlobList | radiation/radiation.py:66 | One glob becomes a one-element list, and a list stays as given |
| Radiation.ExcludeList | radiation/radiation.py:67 | A non-empty `exclude` wins, else `excludes`, else nothing |
| Radiation.JoinText | radiation/radiation.py:74 | Joining an absolute glob gives it unchanged; a relative one follows the root |
| Radiation.FindFilesSpec | radiation/radiation.py:59-76 | Refuses an absolute glob or exclude; otherwise searches one root-prefixed pattern per glob and excludes one path per exclude, each under the root |
| Radiation.FindFilesRefusals | tests/test_radiation/test_radiation.py:122-141 | An absolute include or exclude is refused |
| Radiation.FindFilesExample | radiation/radiation.py:59-76 | Two globs and an empty `exclude` search both globs and fall back to `excludes` |
| Radiation.ApplyFilter | radiation/radiation.py:94 | The patch filter fails outside the root and keeps its state; the line cap never fails, keeps its limit and accepts exactly below it |
| Radiation.AllAccepted | radiation/radiation.py:94 | An accepted mutation was accepted by every filter in turn |
| Radiation.AllAcceptRejected | radiation/radiation.py:94 | A rejected mutation was accepted by every filter before one that rejects it, and no later filter was consulted |
| Radiation.FilterAllIsSelection | radiation/radiation.py:89-95 | Filtering keeps a subsequence of the mutations in their order |
| Radiation.NoFiltersKeepAll | radiation/radiation.py:94 | With no filters every mutation is kept |
| Radiation.LoneLimiter | radiation/radiation.py:89-95 | A lone line cap keeps exactly what its own run accepts |
| Radiation.ResolvePath | radiation/radiation.py:81-82 | An absolute path is kept; a relative one is placed under the project root and reads back relative to it |
| Radiation.EmptyModule | radiation/radiation.py:86-87 | An empty module yields nothing and leaves the filters as they were |
| Radiation.UnfilteredModule | radiation/radiation.py:81-95 | Without filters, the result is the tree walk from the module's initial context at the resolved path |
| Radiation.DefaultLimitKeepsTwo | radiation/radiation.py:89-95 | Under the default cap, a module whose mutations all share one line keeps the first two |
| CliUtils.IsRelativeTo | radiation_cli/utils.py:10-13 | Fails with an assertion exactly when either path is relative |
| CliUtils.IsRelativeToStrictAncestor | radiation_cli/utils.py:10-13 | For absolute paths, true exactly when the parent is a proper ancestor |
| CliUtils.NotRelativeToItself | radiation_cli/utils.py:13 | No path is relative to itself |
| CliUtils.GetMutationLoc | radiation_cli/utils.py:16-20 | No mutation gives the empty text; a file outside the root fails with `ValueError`, and nothing else fails |
| CliUtils.MutationLocReadsBack | radiation_cli/utils.py:16-20 | The location splits at its last colon into the relative path and the start line, both read back |
| CliUtils.RowsShowTheirLines | radiation_cli/utils.py:29-41 | Every printed row shows its own file line, numbers are consecutive, and only the mutated line is bold |
| CliUtils.WindowAroundLine | radiation_cli/utils.py:31-41 | The window runs from `max(1, line - n)` to `min(len, line + n)`, holds the mutated line, and has at most `2n + 1` rows |
| CliUtils.WindowExamples | tests/test_radiation_cli/test_utils.py:28-84 | Windows around line 5 of a seven-line file with two and three context lines, and at the start of the file |
| CliConfig.Defaults | radiation_cli/config.py:11-19 | Default include `["."]`, `pytest`, `tests`, and no timeout, diff command or limit |
| CliConfig.Get | radiation_cli/config.py:33 | `dict.get`, and `parser.get` with `fallback=None` (line 82), find exactly the present keys and give `None` for a missing one |
| CliConfig.GetNestedWalk | radiation_cli/config.py:31-36 | A dotted key walks the tables one dot-free key at a time |
| CliConfig.GetNestedStep | radiation_cli/config.py:35-36 | A dotted key splits at its first dot and a missing head stands for an empty table |
| CliConfig.MissingHead | radiation_cli/config.py:36 | A missing head gives `None` |
| CliConfig.TwoLevels | radiation_cli/config.py:31-36 | `head.key` finds the key inside the head table |
| CliConfig.NothingInEmptyTable | radiation_cli/config.py:31-36 | Every key is absent from an empty table |
| CliConfig.NotATable | radiation_cli/config.py:36 | Walking into a non-table value raises `AttributeError` |
| CliConfig.PyprojectSection | tests/test_radiation_cli/test_config.py:104-128 | `tool.radiation` is found beside other tools and keys |
| CliConfig.TomlParseList | radiation_cli/config.py:39-40 | A string becomes a one-element list, and anything else is kept |
| CliConfig.TomlParseListIdempotent | radiation_cli/config.py:39-40 | Applying it twice is applying it once |
| CliConfig.CfgParseList | radiation_cli/config.py:65-66 | Every item is stripped, non-empty and free of line feeds |
| CliConfig.CfgListRoundTrip | radiation_cli/config.py:65-66 | Stripped items written one per line read back as themselves |
| CliConfig.LeadingBlankLine | radiation_cli/config.py:65-66 | A leading blank line, the usual INI layout, is ignored |
| CliConfig.CfgParseListExample | tests/test_radiation_cli/test_config.py:42-62 | `"\n*.py\nmydir/"` reads as `["*.py", "mydir/"]` |
| CliConfig.IntOf | radiation_cli/config.py:44 | `int()` of a value: integers as themselves; text fails exactly when it is not a number; lists and tables fail |
| CliConfig.Truncate | radiation_cli/config.py:44 | `int()` of a float truncates toward zero |
| CliConfig.ParseLimit | radiation_cli/config.py:43-44 | An absent or falsy value, or `"none"`, is no limit; any other value is its `int()`, errors included |
| CliConfig.LimitTextRoundTrip | radiation_cli/config.py:43-44 | A limit written as decimal text reads back as itself |
| CliConfig.LimitNumber | radiation_cli/config.py:43-44 | A zero limit is no limit; any other integer is kept |
| CliConfig.NoLimitWords | radiation_cli/config.py:44 | `"none"` and the empty text are no limit |
| CliConfig.LimitNotANumber | radiation_cli/config.py:44 | Other words raise `ValueError` |
| CliConfig.LimitFloats | radiation_cli/config.py:44 | 2.5 and -2.5 truncate to 2 and -2 |
| CliConfig.FloatOfInt | radiation_cli/config.py:81 | `getfloat` reads every integer's decimal text as that number |
| CliConfig.FloatFraction | radiation_cli/config.py:81 | `getfloat` reads `whole.frac` as its decimal value |
| CliConfig.OneAndAHalf | radiation_cli/config.py:81 | `"1.5"` reads as 1.5 |
| CliConfig.NotAFloat | radiation_cli/config.py:81 | Text that does not start with a digit, sign or point is refused |
| CliConfig.FloatWord | radiation_cli/config.py:81 | `"soon"` is refused |
| CliConfig.Required | radiation_cli/config.py:54-56 | A required key is its value, and a missing one raises `KeyError` naming it |
| CliConfig.OptionalSeconds | radiation_cli/config.py:58 | A missing timeout is `None` and a number is its value in seconds |
| CliConfig.Includes | radiation_cli/config.py:54 | A single include string becomes a one-element list, and a list of strings is kept as it is; nothing else is accepted |
| CliConfig.TomlConfig | radiation_cli/config.py:53-61 | The first of `include`, `run_command`, `tests_dir` that is missing raises `KeyError` naming it; with all three present, a `line_limit` that `int()` refuses raises that error; a built config takes its include globs, commands, directory, timeout, diff command and limit from the section, and its root from the file |
| CliConfig.ReadToml | radiation_cli/config.py:47-62 | The config's root is the file's directory |
| CliConfig.ReadTomlFirstFound | radiation_cli/config.py:51-61 | The first section present and truthy decides, and earlier missing or empty ones are skipped |
| CliConfig.ReadTomlNone | radiation_cli/config.py:62 | With no section present, nothing is read |
| CliConfig.RadiationBeforeSettings | radiation_cli/config.py:22 | A truthy `[radiation]` wins over `[settings]` |
| CliConfig.OptionText | radiation_cli/config.py:77-79 | `parser.get` finds exactly the present options, and a missing one raises `NoOptionError` |
| CliConfig.FallbackSeconds | radiation_cli/config.py:81 | A missing timeout is `None`; a present one must read as a float |
| CliConfig.CfgConfig | radiation_cli/config.py:76-86 | A missing `include` raises `NoOptionError`; a built config takes its include lines, commands, directory, `getfloat` timeout, diff command and limit from the section, and its root from the file |
| CliConfig.ReadCfg | radiation_cli/config.py:69-87 | No known section gives nothing; a config's root is the file's directory |
| CliConfig.ReadCfgFirstFound | radiation_cli/config.py:74-86 | The first section present decides |
| CliConfig.ValidatePathSuffix | radiation_cli/config.py:96-100 | Refuses with `BadParameter` exactly a non-empty path whose suffix is neither `.toml` nor `.cfg` |
| CliConfig.CfgSuffixAccepted | tests/test_radiation_cli/test_config.py:130-147 | `custom_name.cfg` is accepted |
| CliConfig.UnknownSuffixRefused | tests/test_radiation_cli/test_config.py:150-163 | `custom_name.bla` is refused |
| CliConfig.DotFileRefused | radiation_cli/config.py:96-100 | `.cfg` has no suffix in pathlib's sense, so it is refused |
| CliConfig.ReadBySuffix | radiation_cli/config.py:106 | An unknown suffix raises `KeyError`, and a config's root is the file's directory |
| CliConfig.ReadConfig | radiation_cli/config.py:103-112 | A bad suffix raises `BadParameter`; a file without the expected sections raises the "Cannot find expected sections" error; a config's root is the file's directory |
| CliConfig.ReadConfigured | radiation_cli/config.py:106-112 | A found config is returned, a read error passes through, and nothing found is an error |
| CliConfig.InRoot | radiation_cli/config.py:119 | A default file's parent is the root |
| CliConfig.TryFiles | radiation_cli/config.py:118-125 | Whatever is found, the config's root is the searched root |
| CliConfig.SkippedFiles | radiation_cli/config.py:118-123 | Absent files, and files without the sections, are passed over |
| CliConfig.NoConfigFile | radiation_cli/config.py:125 | When no default file applies, the defaults for the root are used |
| CliConfig.CfgFileFirst | radiation_cli/config.py:24-28 | A `.radiation.cfg` with a known section wins over the TOML files |
| CliConfig.DefaultSuffixes | radiation_cli/config.py:24-28 | The default files have suffixes `.cfg`, `.toml` and `.toml` |
| CliConfig.ReadDefaultConfig | radiation_cli/config.py:115-125 | The config's root is the given root, or the working directory when none is given |
| CliMain.OverrideConfig | radiation_cli/main.py:24-26 | Each given option replaces its field, absent options keep the config's value, and the root is never overridden |
| CliMain.NoOverridesKeep | radiation_cli/main.py:25 | No options keep the config unchanged |
| CliMain.OverrideIdempotent | radiation_cli/main.py:24-26 | Overriding twice with the same options is overriding once |
| CliMain.OverrideTwice | radiation_cli/main.py:24-26 | Two overrides in a row are one override where the later options win |
| CliMain.OverrideWins | radiation_cli/main.py:24-26 | When every option is given, the base config matters only for its root |
| CliMain.ConfigFileOption | radiation_cli/main.py:40 | As written, the `-c` callback refuses a bad suffix and otherwise passes on `None`, not the path |
| CliMain.ConfigFileValue | radiation_cli/main.py:40 | The intended callback refuses a bad suffix and passes the path on |
| CliMain.LoadConfig | radiation_cli/main.py:98-103 | A config file is read when given, otherwise the defaults are searched; the options are applied on top |
| CliMain.CliAsWritten | radiation_cli/main.py:92-104 | A bad config-file suffix is refused with `BadParameter` |
| CliMain.Cli | radiation_cli/main.py:92-104 | A bad config-file suffix is refused with `BadParameter` |
| CliMain.ConfigFileIgnored | radiation_cli/main.py:40 | As written, a valid `-c` file is ignored and the default search runs instead |
| CliMain.ConfigFileRead | radiation_cli/main.py:98-103 | With the callback passing the path on, the given file is read |
| CliMain.NoConfigFileAgrees | radiation_cli/main.py:98-103 | Without `-c` both readings agree |
| CliMain.ConfigFileDiscrepancy | radiation_cli/main.py:40 | For a readable file outside the working directory, the two readings give different configs |
| CliMain.Filters | radiation_cli/main.py:110-121 | As intended: the patch filter exactly when a diff command is set, then the line cap exactly when a non-zero limit is set |
| CliMain.FiltersAsWritten | radiation_cli/main.py:110-117 | As written: `AttributeError` exactly when a diff command is set, because `PatchFilter` has no `from_shell_command`; otherwise the intended filters, which then hold at most the line cap |
| CliMain.ShellCommandDiscrepancy | radiation_cli/main.py:110-115 | With `diff_command = "git diff"` the code as written fails where the intended filters start with the patch filter |
| CliMain.FilterOrder | radiation_cli/main.py:121 | The patch filter comes before the line cap; each is present exactly when asked for |
| CliMain.ZeroLimitDisables | radiation_cli/main.py:117 | `--line-limit 0` gives no line cap |
| CliMain.DefaultsKeepAll | radiation_cli/main.py:110-121 | The default config installs no filter, so every mutation is kept |
| CliMain.Min | radiation_cli/main.py:145 | The smaller of the two values |
| CliMain.Timeout | radiation_cli/main.py:143-148 | 1.5 times the baseline duration, capped by a non-zero configured timeout |
| CliMain.TimeoutGreatest | radiation_cli/main.py:143-148 | The timeout is the greatest value under both bounds |
| CliMain.Record | radiation_cli/main.py:161 | Appending to one bucket leaves every other bucket unchanged |
| CliMain.CollectBuckets | radiation_cli/main.py:150-161 | Each status's bucket holds the mutations with that outcome, in test order |
| CliMain.HavingOutcome | radiation_cli/main.py:159-161 | Every mutation in a bucket was tested with that bucket's outcome |
| CliMain.BucketsPartition | radiation_cli/main.py:159-161 | The three buckets together hold every tested mutation once |
| CliMain.Outcomes | radiation_cli/main.py:159-160 | Each mutation is tested once, in order, with the same timeout |
| CliMain.Run | radiation_cli/main.py:136-141 | Fails with `ClickException` exactly when the baseline tests are killed |
| CliMain.RunReports | radiation_cli/main.py:143-167 | The reports are the survivors in test order, then the timed-out mutations in test order |
| CliMain.ReportsMatchOutcomes | radiation_cli/main.py:159-167 | Every report names a tested mutation whose outcome matches its label, and no killed mutation is reported |
| CliMain.ReportCount | radiation_cli/main.py:163-167 | There are as many reports as mutations that were not killed |

## Left out

- Floating-point and complex constants: `Constants.ModifyConstants` models string, byte-string, integer, `None` and boolean literals only. Python sorts float neighbours by `(real, imag)`, and the model has no float or complex literal.
- Column offsets are character indices. Python reports UTF-8 byte offsets, so the model agrees with the source only on ASCII lines.
- Parsing source with `ast.parse` and rendering with `astunparse.unparse`: the model takes a parsed tree, and rendering is the parameter `render`.
- Reading the diff: parsing diff text with `whatthepatch`, and running `git diff` in `PatchFilter.from_git_diff`, are not modelled. The filter takes the parsed diffs, and `CliMain.Filters` takes the diff command's parsed output as the parameter `diffOf`.
- TOML and INI parsing, `Path.exists` and `read_text`: `CliConfig.Files` supplies what the parsers would return.
- CliConfig.OptionText: `Files.cfg` stands for the option maps as `ConfigParser.get` sees them, after interpolation (`%%` to `%`, `%(name)s` substituted), after merging the `[DEFAULT]` section, and with option names lower-cased. Interpolation errors such as a lone `%` (`InterpolationSyntaxError`) are not modelled.
- CliConfig.TomlConfig: the record's fields are typed, so the model refuses with `TypeError` a section whose values Python stores unchecked. These are a `run_command`, `tests_dir` or `diff_command` that is not text, a `tests_timeout` that is not a number (such as `"30"`), and an `include` that is neither text nor a list of text. `CliConfig.TextOf`, `CliConfig.OptionalText`, `CliConfig.OptionalSeconds` and `CliConfig.Includes` make those refusals. Every error Python raises while building the record comes first, in Python's order.
- CliConfig.IntOf, with `CliConfig.ParseLimit` and `Strings.NotANumber`: only the ASCII digits `0`-`9` are digits. `int()` also accepts the other Unicode decimal digits, such as Arabic-Indic ones. The model refuses them, and `Strings.NotANumber` does not hold for text that starts with one.
- CliConfig.ParseFloat: reads only plain decimals with an optional sign and point. Exponents, `inf`/`nan` and digit underscores are not modelled, so such text is refused where Python would accept it.
- Globbing, directory recursion, `is_dir` and the `.py` extension check in `_find_files`: the model stops at the search patterns and exclude paths that `find_files` hands to the glob.
- `Radiation.gen_mutations` reading files, `run_baseline_tests`, `test_mutation` and the temporary-directory runner: test outcomes come from the parameter `test`, and the mutations from the parameter `ms`.
- `apply_mutation_on_disk` and the runners' file copies are not modelled.
- click output: `echo`, `secho`, colours, the progress bar and the "Generated N mutations" line. The model returns the report list and the window rows instead of printing them.
- `click.Path(exists=True)` on `-c` and `-p`: the model does not check that those paths exist.
- `timedelta` is a `real` number of seconds.
- `CliUtils.WindowExamples` and `CliUtils.RowsShowTheirLines` describe the rows, not the text of each printed line.
- `radiation/gen.py`, `radiation/mutators/compare.py`, `radiation/mutators/invert.py` and `radiation/filters/line_limit.py` are not part of this model. Their `antigen` counterparts are modelled in their place.
- The `antigen` command line, `antigen.py` and the `main.py` script are outside the core modelled here.

## Findings

| source | as written | input that shows it | evidently intended | confidence | as-written member | corrected member |
|---|---|---|---|---|---|---|
| antigen/mutators/invert.py:13-19 | every `if` expression, `if` statement and `while` loop gets its test wrapped in `not`, and the catalogue registers this inversion | `5 if 5 < 3 else 3`: one mutation, where tests/test_radiation/test_mutators/test_invert.py:48-55 expects none from radiation's inversion | radiation's tests leave a comparison-tested conditional to the comparison mutator. antigen's own tests (tests/test_antigen/test_mutators/test_invert.py:30-38) expect the inversion, so this is a divergence between the two packages, not a slip inside these lines | low; not executed | Inversion.ComparisonTestDiscrepancy | Catalogue.SkippingOnConditional |
| radiation_cli/main.py:40 | the `--config-file` callback returns `validate_path_suffix(value)`, which is `None`, so `cli` receives no config file and runs the default search | `-c /work/custom.cfg` run from another directory: the file is never read | the callback validates the suffix and passes the path on, so that line 99 reads the given file | not executed | CliMain.ConfigFileIgnored | CliMain.ConfigFileRead |
| radiation_cli/main.py:110-115 | `run` calls `PatchFilter.from_shell_command`, but radiation/filters/patch.py:42-56 defines only `from_git_diff`, so the lookup raises `AttributeError` | any configuration with `diff_command = "git diff"` | the patch filter is built from the diff command's output and runs before the line cap | not executed | CliMain.FiltersAsWritten | CliMain.Filters |

=== FILE: ast.dfy ===
/** Python syntax trees as the engine and the mutators see them: every node is its
    class, its position attributes and its field values in `_fields` order, the
    view `ast.iter_fields` gives. The classes the built-in mutators inspect have
    constructor functions that lay their fields out as Python does. */
module Ast {
  import opened Wrappers

  datatype BinOperator = Add | Sub | Mult | MatMult | Div | Mod | Pow | LShift | RShift | BitOr | BitXor | BitAnd | FloorDiv
  datatype BoolOperator = And | Or
  datatype UnaryOperator = Invert | Not | UAdd | USub
  datatype CmpOperator = Eq | NotEq | Lt | LtE | Gt | GtE | Is | IsNot | In | NotIn
  datatype ExprContext = Load | Store | Del

  /** Instances of the classes the engine skips: operators of every arity and
      expression contexts. They carry no position. */
  datatype Operator =
    | OpBin(bin: BinOperator)
    | OpBool(boolean: BoolOperator)
    | OpUnary(unary: UnaryOperator)
    | OpCmp(cmp: CmpOperator)
    | OpCtx(ctx: ExprContext)

  /** Plain Python values held in fields: never visited, only compared. Floats and
      complex numbers are not modelled. */
  datatype Literal = NoneLit | BoolLit(b: bool) | IntLit(i: int) | StrLit(s: string) | BytesLit(bytes: seq<bv8>)

  /** Whether an attribute is set on a node at all (`getattr` with a default
      distinguishes this from an attribute set to `None`). */
  datatype Attr<T> = Missing | Has(value: T) {
    /** `getattr(node, name, default)`. */
    function GetOr(default: T): T {
      match this
      case Has(v) => v
      case Missing => default
    }
  }

  /** The position attributes of a node. Expression and statement classes define
      `end_lineno` and `end_col_offset` as `None` at class level, so a node built
      without positions still has those two, set to `None`. */
  datatype Attrs = Attrs(lineno: Attr<int>, endLineno: Attr<Option<int>>, colOffset: Attr<int>, endColOffset: Attr<Option<int>>)

  /** The attributes of a node with no position at all, such as a module. */
  const NoAttrs := Attrs(Missing, Missing, Missing, Missing)

  /** The attributes of an expression or statement node built by a mutator. */
  const FreshAttrs := Attrs(Missing, Has(None), Missing, Has(None))

  /** The attributes the parser gives an expression or statement. */
  function Span(lineno: int, endLineno: int, colOffset: int, endColOffset: int): Attrs {
    Attrs(Has(lineno), Has(Some(endLineno)), Has(colOffset), Has(Some(endColOffset)))
  }

  /** `type(node)`: the classes the built-in mutators inspect, and every other
      class by name. */
  datatype Kind = BinOpKind | BoolOpKind | UnaryOpKind | CompareKind | ConstantKind | IfExpKind | IfKind | WhileKind | OtherKind(name: string)

  /** A node: its class, its position attributes, and its field values in the
      class's `_fields` order, as `ast.iter_fields` yields them. */
  datatype Node = Node(kind: Kind, attrs: Attrs, fields: seq<Field>)

  /** One field value: a sub-tree, an operator, a plain value, or a list of any of these. */
  datatype Field = Tree(node: Node) | Op(op: Operator) | Atom(value: Literal) | List(items: seq<Field>)

  /** A list of sub-trees as a list field. */
  function Trees(ns: seq<Node>): (r: seq<Field>)
    ensures |r| == |ns|
    ensures forall k :: 0 <= k < |r| ==> r[k] == Tree(ns[k])
  {
    seq(|ns|, k requires 0 <= k < |ns| => Tree(ns[k]))
  }

  /** The operators of a comparison as a list field. */
  function CmpOps(os: seq<CmpOperator>): (r: seq<Field>)
    ensures |r| == |os|
    ensures forall k :: 0 <= k < |r| ==> r[k] == Op(OpCmp(os[k]))
  {
    seq(|os|, k requires 0 <= k < |os| => Op(OpCmp(os[k])))
  }

  /** The `kind` field of a constant: `'u'` for a `u"..."` literal, otherwise `None`. */
  function KindField(kind: Option<string>): Field {
    match kind
    case Some(k) => Atom(StrLit(k))
    case None => Atom(NoneLit)
  }

  // The classes the mutators build and inspect, with their fields in `_fields` order.

  /** `BinOp(left, op, right)`. */
  function BinOp(a: Attrs, left: Node, op: BinOperator, right: Node): Node {
    Node(BinOpKind, a, [Tree(left), Op(OpBin(op)), Tree(right)])
  }

  /** `BoolOp(op, values)`. */
  function BoolOp(a: Attrs, op: BoolOperator, values: seq<Node>): Node {
    Node(BoolOpKind, a, [Op(OpBool(op)), List(Trees(values))])
  }

  /** `UnaryOp(op, operand)`. */
  function UnaryOp(a: Attrs, op: UnaryOperator, operand: Node): Node {
    Node(UnaryOpKind, a, [Op(OpUnary(op)), Tree(operand)])
  }

  /** `Compare(left, ops, comparators)`. */
  function Compare(a: Attrs, left: Node, ops: seq<CmpOperator>, comparators: seq<Node>): Node {
    Node(CompareKind, a, [Tree(left), List(CmpOps(ops)), List(Trees(comparators))])
  }

  /** `Constant(value, kind)`. */
  function Constant(a: Attrs, value: Literal, kind: Option<string>): Node {
    Node(ConstantKind, a, [Atom(value), KindField(kind)])
  }

  /** `IfExp(test, body, orelse)`: `body if test else orelse`. */
  function IfExp(a: Attrs, test: Node, body: Node, orelse: Node): Node {
    Node(IfExpKind, a, [Tree(test), Tree(body), Tree(orelse)])
  }

  /** `If(test, body, orelse)`. */
  function If(a: Attrs, test: Node, body: seq<Node>, orelse: seq<Node>): Node {
    Node(IfKind, a, [Tree(test), List(Trees(body)), List(Trees(orelse))])
  }

  /** `While(test, body, orelse)`. */
  function While(a: Attrs, test: Node, body: seq<Node>, orelse: seq<Node>): Node {
    Node(WhileKind, a, [Tree(test), List(Trees(body)), List(Trees(orelse))])
  }

  /** Any other class, such as `Name(id, ctx)`. */
  function Other(name: string, a: Attrs, fields: seq<Field>): Node {
    Node(OtherKind(name), a, fields)
  }

  // The shapes the parser gives the classes the mutators inspect. A node of one of
  // these classes whose fields are laid out otherwise cannot come out of the parser.

  predicate IsBinOp(n: Node) {
    n.kind == BinOpKind && |n.fields| == 3 && n.fields[0].Tree? && n.fields[1].Op? && n.fields[1].op.OpBin? && n.fields[2].Tree?
  }

  predicate IsBoolOp(n: Node) {
    n.kind == BoolOpKind && |n.fields| == 2 && n.fields[0].Op? && n.fields[0].op.OpBool? && n.fields[1].List?
  }

  predicate IsUnaryOp(n: Node) {
    n.kind == UnaryOpKind && |n.fields| == 2 && n.fields[0].Op? && n.fields[0].op.OpUnary? && n.fields[1].Tree?
  }

  /** A comparison: its operators are the items of its second field. */
  predicate IsCompare(n: Node) {
    && n.kind == CompareKind && |n.fields| == 3 && n.fields[0].Tree? && n.fields[1].List? && n.fields[2].List?
    && forall k :: 0 <= k < |n.fields[1].items| ==> n.fields[1].items[k].Op? && n.fields[1].items[k].op.OpCmp?
  }

  predicate IsConstant(n: Node) {
    n.kind == ConstantKind && |n.fields| == 2 && n.fields[0].Atom?
  }

  /** `isinstance(node, (IfExp, If, While))`, with the test as the first field. */
  predicate IsConditional(n: Node) {
    n.kind in {IfExpKind, IfKind, WhileKind} && |n.fields| == 3 && n.fields[0].Tree?
  }

  /** The class constructors build nodes of their own shape. */
  lemma ConstructorShapes(a: Attrs, l: Node, r: Node, ns: seq<Node>, os: seq<CmpOperator>, v: Literal, k: Option<string>)
    ensures forall o :: IsBinOp(BinOp(a, l, o, r))
    ensures forall o :: IsBoolOp(BoolOp(a, o, ns))
    ensures forall o :: IsUnaryOp(UnaryOp(a, o, l))
    ensures IsCompare(Compare(a, l, os, ns))
    ensures IsConstant(Constant(a, v, k))
    ensures IsConditional(IfExp(a, l, r, r)) && IsConditional(If(a, l, ns, ns)) && IsConditional(While(a, l, ns, ns))
  {
    assert Compare(a, l, os, ns).fields[1].items == CmpOps(os);
  }

  /** One step down a tree: into a field holding a sub-tree, or into a sub-tree
      item of a list field. */
  datatype Step = FieldStep(field: nat) | ItemStep(field: nat, item: nat)

  predicate ValidStep(n: Node, s: Step) {
    match s
    case FieldStep(i) => i < |n.fields| && n.fields[i].Tree?
    case ItemStep(i, j) =>
      i < |n.fields| && n.fields[i].List? && j < |n.fields[i].items| && n.fields[i].items[j].Tree?
  }

  /** The sub-tree one step below `n`; it is strictly smaller than `n`. */
  function ChildAt(n: Node, s: Step): (c: Node)
    requires ValidStep(n, s)
    ensures c < n
  {
    match s
    case FieldStep(i) => n.fields[i].node
    case ItemStep(i, j) => n.fields[i].items[j].node
  }

  /** `n` with the sub-tree one step below it replaced by `t`: `setattr` on a copy
      for a field, item assignment on a deep copy for a list item. The copy keeps
      the class and the position attributes. */
  function PlugStep(n: Node, s: Step, t: Node): (r: Node)
    requires ValidStep(n, s)
    ensures r.kind == n.kind && r.attrs == n.attrs && |r.fields| == |n.fields|
    ensures ValidStep(r, s) && ChildAt(r, s) == t
  {
    match s
    case FieldStep(i) => n.(fields := n.fields[i := Tree(t)])
    case ItemStep(i, j) => n.(fields := n.fields[i := List(n.fields[i].items[j := Tree(t)])])
  }

  /** Only the slot the step names changes: every other field, and every other item
      of the field the step goes into, is as it was. */
  lemma PlugStepElsewhere(n: Node, s: Step, t: Node, i: nat, j: nat)
    requires ValidStep(n, s) && i < |n.fields|
    ensures i != s.field ==> PlugStep(n, s, t).fields[i] == n.fields[i]
    ensures s.ItemStep? && i == s.field && j < |n.fields[i].items| && j != s.item ==>
              && PlugStep(n, s, t).fields[i].List? && |PlugStep(n, s, t).fields[i].items| == |n.fields[i].items|
              && PlugStep(n, s, t).fields[i].items[j] == n.fields[i].items[j]
  {
  }

  /** Putting a node's own child back in its place changes nothing. */
  lemma PlugStepSame(n: Node, s: Step)
    requires ValidStep(n, s)
    ensures PlugStep(n, s, ChildAt(n, s)) == n
  {
    match s
    case FieldStep(i) =>
      assert n.fields[i := Tree(ChildAt(n, s))] == n.fields;
    case ItemStep(i, j) =>
      assert n.fields[i].items[j := Tree(ChildAt(n, s))] == n.fields[i].items;
      assert n.fields[i := List(n.fields[i].items)] == n.fields;
  }
}

=== FILE: binops.dfy ===
/** The binary-operator switch: `+` and `-` trade places, so do `*` and `/`, and
    `//` becomes `/`. */
module BinOps {
  import opened Wrappers
  import opened Types
  import opened Ast
  import opened Mutations

  /** `MAPPING[type(op)]`; absent for the operators outside the table. */
  function Switch(o: BinOperator): (r: Option<BinOperator>)
    ensures r.Some? <==> o in {Add, Sub, Mult, Div, FloorDiv}
    ensures r.Some? ==> r.value != o
  {
    match o
    case Add => Some(Sub)
    case Sub => Some(Add)
    case Mult => Some(Div)
    case Div => Some(Mult)
    case FloorDiv => Some(Div)
    case _ => None
  }

  /** `switch_bin_ops(node, context)`: one new operation with the switched operator
      and the same operands, when the node is a binary operation whose operator is
      in the table. */
  function SwitchBinOps(n: Node, c: Context): (r: seq<Mutation>)
    ensures |r| <= 1
    ensures |r| == 1 <==> IsBinOp(n) && Switch(n.fields[1].op.bin).Some?
  {
    if IsBinOp(n) && Switch(n.fields[1].op.bin).Some? then
      [FromNode(BinOp(FreshAttrs, n.fields[0].node, Switch(n.fields[1].op.bin).value, n.fields[2].node), c)]
    else []
  }

  /** On `left op right`: the mutation's tree and node are the new operation, built
      without a position, its operands are the very operands of the original, and
      the context passes through. */
  lemma SwitchBinOpsOf(a: Attrs, l: Node, o: BinOperator, x: Node, c: Context)
    ensures SwitchBinOps(BinOp(a, l, o, x), c) ==
      if Switch(o).Some? then [Mutation(BinOp(FreshAttrs, l, Switch(o).value, x), BinOp(FreshAttrs, l, Switch(o).value, x), c)] else []
  {
  }

  /** Switching a switched operation again restores the operator for `+`, `-`, `*`
      and `/`, with the operands untouched. */
  lemma SwitchBinOpsTwice(a: Attrs, l: Node, o: BinOperator, x: Node, c: Context)
    requires o in {Add, Sub, Mult, Div}
    ensures |SwitchBinOps(BinOp(a, l, o, x), c)| == 1
    ensures SwitchBinOps(SwitchBinOps(BinOp(a, l, o, x), c)[0].node, c) == [FromNode(BinOp(FreshAttrs, l, o, x), c)]
  {
    SwitchBinOpsOf(a, l, o, x, c);
    SwitchBinOpsOf(FreshAttrs, l, Switch(o).value, x, c);
  }

  /** ... but `//` is not recovered: it comes back as `*`. */
  lemma FloorDivNotRecovered(a: Attrs, l: Node, x: Node, c: Context)
    ensures SwitchBinOps(SwitchBinOps(BinOp(a, l, FloorDiv, x), c)[0].node, c) == [FromNode(BinOp(FreshAttrs, l, Mult, x), c)]
  {
    SwitchBinOpsOf(a, l, FloorDiv, x, c);
    SwitchBinOpsOf(FreshAttrs, l, Div, x, c);
  }
}

=== FILE: boolops.dfy ===
/** The boolean-operator switch: `and` and `or` trade places. */
module BoolOps {
  import opened Types
  import opened Ast
  import opened Mutations

  /** `MAPPING[type(op)]`: the table covers both operators. */
  function Switch(o: BoolOperator): (r: BoolOperator)
    ensures r != o
  {
    match o
    case And => Or
    case Or => And
  }

  /** `switch_bool_ops(node, context)`: exactly one new operation over the same
      values list for every boolean operation, none for anything else. */
  function SwitchBoolOps(n: Node, c: Context): (r: seq<Mutation>)
    ensures |r| == if IsBoolOp(n) then 1 else 0
  {
    if IsBoolOp(n) then
      [FromNode(Node(BoolOpKind, FreshAttrs, [Op(OpBool(Switch(n.fields[0].op.boolean))), n.fields[1]]), c)]
    else []
  }

  /** On `v0 op v1 ...`: the new operation holds the same values in the same order. */
  lemma SwitchBoolOpsOf(a: Attrs, o: BoolOperator, vs: seq<Node>, c: Context)
    ensures SwitchBoolOps(BoolOp(a, o, vs), c) == [FromNode(BoolOp(FreshAttrs, Switch(o), vs), c)]
  {
  }

  /** Switching twice restores the operator and keeps the values. */
  lemma SwitchBoolOpsTwice(a: Attrs, o: BoolOperator, vs: seq<Node>, c: Context)
    ensures SwitchBoolOps(SwitchBoolOps(BoolOp(a, o, vs), c)[0].node, c) == [FromNode(BoolOp(FreshAttrs, o, vs), c)]
  {
    SwitchBoolOpsOf(a, o, vs, c);
    SwitchBoolOpsOf(FreshAttrs, Switch(o), vs, c);
  }
}

=== FILE: catalogue.dfy ===
/** The built-in mutators and the order they run in at every node. */
module Catalogue {
  import opened Types
  import opened Ast
  import opened Mutations
  import opened Gen
  import BinOps
  import BoolOps
  import Constants
  import UnaryOps
  import Comparisons
  import Inversion

  /** The class of node that the mutator at position `i` of the catalogue is
      guarded by. */
  predicate Guards(i: nat, k: Kind) {
    match i
    case 0 => k == BinOpKind
    case 1 => k == BoolOpKind
    case 2 => k == ConstantKind
    case 3 => k == UnaryOpKind
    case 4 => k == CompareKind
    case _ => k in {IfExpKind, IfKind, WhileKind}
  }

  /** `builtin_mutators`, and also what `get_default_mutators` returns: a copy of a
      value is the value itself. Each entry yields nothing outside its own class
      of node, and the last one inverts every conditional, comparison tests
      included. */
  function BuiltinMutators(): (r: seq<Mutator>)
    ensures |r| == 6
    ensures forall i, n, c :: 0 <= i < |r| && r[i](n, c) != [] ==> Guards(i, n.kind)
    ensures forall n, c :: IsConditional(n) ==> |r[5](n, c)| == 1
  {
    [BinOps.SwitchBinOps, BoolOps.SwitchBoolOps, Constants.ModifyConstants,
     UnaryOps.SwitchUnaryOps, Comparisons.SwitchCompareOps, Inversion.Invert]
  }

  /** The mutations of one node, as the built-in list produces them. */
  function Builtin(n: Node, c: Context): seq<Mutation> {
    RunMutators(BuiltinMutators(), n, c)
  }

  /** The catalogue runs the six mutators in registration order and concatenates
      what they yield. */
  lemma BuiltinOrder(n: Node, c: Context)
    ensures Builtin(n, c) ==
      BinOps.SwitchBinOps(n, c) + BoolOps.SwitchBoolOps(n, c) + Constants.ModifyConstants(n, c)
      + UnaryOps.SwitchUnaryOps(n, c) + Comparisons.SwitchCompareOps(n, c) + Inversion.Invert(n, c)
  {
    var ms := BuiltinMutators();
    RunLast(ms, n, c);
    assert ms[..5] == [ms[0], ms[1], ms[2], ms[3], ms[4]];
    RunLast(ms[..5], n, c);
    assert ms[..5][..4] == [ms[0], ms[1], ms[2], ms[3]];
    RunLast(ms[..5][..4], n, c);
    assert ms[..5][..4][..3] == [ms[0], ms[1], ms[2]];
    RunLast(ms[..5][..4][..3], n, c);
    assert ms[..5][..4][..3][..2] == [ms[0], ms[1]];
    RunLast(ms[..5][..4][..3][..2], n, c);
    assert ms[..5][..4][..3][..2][..1] == [ms[0]];
    RunLast(ms[..5][..4][..3][..2][..1], n, c);
  }

  /** The last mutator's mutations come after all the others'. */
  lemma RunLast(ms: seq<Mutator>, n: Node, c: Context)
    requires ms != []
    ensures RunMutators(ms, n, c) == RunMutators(ms[..|ms| - 1], n, c) + ms[|ms| - 1](n, c)
  {
    var last := ms[|ms| - 1];
    RunMutatorsAppend(ms[..|ms| - 1], [last], n, c);
    assert ms[..|ms| - 1] + [last] == ms;
    assert RunMutators([last], n, c) == last(n, c) + [];
  }

  /** Each mutator is guarded by its class, so at most one of them fires at any
      node: the one for the node's class. */
  lemma OnlyOwnMutatorFires(n: Node, c: Context)
    ensures n.kind == BinOpKind ==> Builtin(n, c) == BinOps.SwitchBinOps(n, c)
    ensures n.kind == BoolOpKind ==> Builtin(n, c) == BoolOps.SwitchBoolOps(n, c)
    ensures n.kind == ConstantKind ==> Builtin(n, c) == Constants.ModifyConstants(n, c)
    ensures n.kind == UnaryOpKind ==> Builtin(n, c) == UnaryOps.SwitchUnaryOps(n, c)
    ensures n.kind == CompareKind ==> Builtin(n, c) == Comparisons.SwitchCompareOps(n, c)
    ensures n.kind in {IfExpKind, IfKind, WhileKind} ==> Builtin(n, c) == Inversion.Invert(n, c)
    ensures n.kind.OtherKind? ==> Builtin(n, c) == []
  {
    BuiltinOrder(n, c);
  }

  /** Nothing is generated for a node outside the mutated classes, nor for a
      constant that is not a string, bytes or an integer. */
  lemma SilentElsewhere(n: Node, c: Context)
    requires n.kind.OtherKind? || (IsConstant(n) && (n.fields[0].value.NoneLit? || n.fields[0].value.BoolLit?))
    ensures Builtin(n, c) == []
  {
    OnlyOwnMutatorFires(n, c);
  }

  /** Every conditional gets exactly the inversion of its test, whatever that
      test is. */
  lemma BuiltinOnConditional(n: Node, c: Context)
    requires IsConditional(n)
    ensures Builtin(n, c) == Inversion.Invert(n, c) && |Builtin(n, c)| == 1
  {
    OnlyOwnMutatorFires(n, c);
  }

  /** A binary operation `l + r` gets exactly the switch to `l - r`. */
  lemma BuiltinOnSum(a: Attrs, l: Node, r: Node, c: Context)
    ensures Builtin(BinOp(a, l, Add, r), c) == [FromNode(BinOp(FreshAttrs, l, Sub, r), c)]
  {
    OnlyOwnMutatorFires(BinOp(a, l, Add, r), c);
    BinOps.SwitchBinOpsOf(a, l, Add, r, c);
  }

  /** The catalogue radiation's own tests describe: the same six mutators, with
      an inversion that leaves comparison-tested conditionals to the comparison
      mutator. */
  function SkippingMutators(): (r: seq<Mutator>)
    ensures |r| == |BuiltinMutators()|
    ensures forall i, n, c :: 0 <= i < 5 ==> r[i](n, c) == BuiltinMutators()[i](n, c)
    ensures forall n, c :: IsConditional(n) && n.fields[0].node.kind == CompareKind ==> r[5](n, c) == []
  {
    BuiltinMutators()[..5] + [Inversion.InvertSkippingComparisons]
  }

  /** Under the skipping catalogue a conditional gets its inversion only when its
      test is not a comparison, and every other node gets what the built-in
      catalogue gives it. */
  lemma SkippingOnConditional(n: Node, c: Context)
    ensures IsConditional(n) && n.fields[0].node.kind == CompareKind ==> RunMutators(SkippingMutators(), n, c) == []
    ensures !(IsConditional(n) && n.fields[0].node.kind == CompareKind) ==> RunMutators(SkippingMutators(), n, c) == Builtin(n, c)
  {
    var ms := SkippingMutators();
    RunLast(ms, n, c);
    RunLast(BuiltinMutators(), n, c);
    assert ms[..5] == BuiltinMutators()[..5];
    if IsConditional(n) && n.fields[0].node.kind == CompareKind {
      OnlyOwnMutatorFires(n, c);
      BuiltinOrder(n, c);
    }
  }
}

=== FILE: cli_config.dfy ===
/** The command line's configuration: the record of settings, and how it is read
    from a TOML or INI-style file under one of the expected section names. Reading
    and parsing the files are outside the model: the TOML reader hands back a
    `Value`, the INI reader the options of each section, and both are parameters. */
module CliConfig {
  import opened Wrappers
  import opened Errors
  import Paths
  import Strings
  import Radiation

  /** A value as the TOML reader hands it back. */
  datatype Value =
    | Str(s: string)
    | Int(i: int)
    | Float(r: real)
    | Bool(b: bool)
    | Array(items: seq<Value>)
    | Table(entries: map<string, Value>)

  /** Python's truth value of a TOML value. */
  predicate Truthy(v: Value) {
    match v
    case Str(s) => s != ""
    case Int(i) => i != 0
    case Float(r) => r != 0.0
    case Bool(b) => b
    case Array(items) => items != []
    case Table(entries) => entries != map[]
  }

  /** `dict.get(key)`. */
  function Get<V>(entries: map<string, V>, key: string): (r: Option<V>)
    ensures r.Some? <==> key in entries
    ensures r.Some? ==> r.value == entries[key]
  {
    if key in entries then Some(entries[key]) else None
  }

  // ---------------------------------------------------------------------------
  // Dotted section names
  // ---------------------------------------------------------------------------

  /** `_get_nested(data, key)`: a key without "." is looked up directly; otherwise
      the part before the first "." is looked up (an empty table when missing) and
      the rest of the key is looked up in it. `.get` on a value that is not a table
      raises `AttributeError`. */
  function GetNested(data: Value, key: string): Result<Option<Value>, Exception>
    decreases |key|
  {
    if !data.Table? then Err(AttributeError("get"))
    else if '.' !in key then Ok(Get(data.entries, key))
    else
      var i := Strings.IndexOf(key, '.');
      GetNested(Get(data.entries, key[..i]).GetOr(Table(map[])), key[i + 1..])
  }

  /** The walk down a list of keys, one table at a time: the reference reading of
      a dotted key. */
  function Walk(data: Value, keys: seq<string>): Result<Option<Value>, Exception>
    requires |keys| >= 1
    decreases |keys|
  {
    if !data.Table? then Err(AttributeError("get"))
    else if |keys| == 1 then Ok(Get(data.entries, keys[0]))
    else Walk(Get(data.entries, keys[0]).GetOr(Table(map[])), keys[1..])
  }

  /** Looking up the dotted join of keys that hold no "." is walking down the keys
      one at a time. */
  lemma {:induction false} GetNestedWalk(data: Value, keys: seq<string>)
    requires |keys| >= 1
    requires forall k :: 0 <= k < |keys| ==> '.' !in keys[k]
    ensures GetNested(data, Strings.Join(keys, '.')) == Walk(data, keys)
    decreases |keys|
  {
    if |keys| > 1 && data.Table? {
      var key := Strings.Join(keys, '.');
      var rest := Strings.Join(keys[1..], '.');
      assert key == keys[0] + ['.'] + rest;
      assert key[|keys[0]|] == '.';
      assert forall k :: 0 <= k < |keys[0]| ==> key[k] == keys[0][k];
      Strings.FirstIndex(key, '.', |keys[0]|);
      assert key[..|keys[0]|] == keys[0];
      assert key[|keys[0]| + 1..] == rest;
      GetNestedWalk(Get(data.entries, keys[0]).GetOr(Table(map[])), keys[1..]);
    }
  }

  /** Nothing is found under an empty table, however deep the key. */
  lemma {:induction false} NothingInEmptyTable(key: string)
    ensures GetNested(Table(map[]), key) == Ok(None)
    decreases |key|
  {
    if '.' in key {
      var i := Strings.IndexOf(key, '.');
      NothingInEmptyTable(key[i + 1..]);
    }
  }

  /** A dotted key is looked up by its head, then by the rest in what the head gave. */
  lemma GetNestedStep(entries: map<string, Value>, head: string, rest: string)
    requires '.' !in head
    ensures GetNested(Table(entries), head + "." + rest) == GetNested(Get(entries, head).GetOr(Table(map[])), rest)
  {
    var key := head + "." + rest;
    assert forall k :: 0 <= k < |head| ==> key[k] == head[k];
    Strings.FirstIndex(key, '.', |head|);
    assert key[..|head|] == head && key[|head| + 1..] == rest;
  }

  /** A missing head means nothing is found, however the key goes on. */
  lemma MissingHead(entries: map<string, Value>, head: string, rest: string)
    requires '.' !in head && head !in entries
    ensures GetNested(Table(entries), head + "." + rest) == Ok(None)
  {
    GetNestedStep(entries, head, rest);
    NothingInEmptyTable(rest);
  }

  /** A two-part key reaches the entry of the table its head names. */
  lemma TwoLevels(entries: map<string, Value>, head: string, key: string)
    requires '.' !in head && '.' !in key
    requires head in entries && entries[head].Table? && key in entries[head].entries
    ensures GetNested(Table(entries), head + "." + key) == Ok(Some(entries[head].entries[key]))
  {
    GetNestedStep(entries, head, key);
  }

  /** In a `pyproject.toml` holding `[otherkey]`, `[tool.othertool]` and
      `[tool.radiation]` tables, the dotted name reaches the last one. */
  lemma PyprojectSection(other: Value, mine: Value)
    ensures GetNested(Table(map["otherkey" := other, "tool" := Table(map["othertool" := other, "radiation" := mine])]), "tool.radiation")
              == Ok(Some(mine))
  {
    var entries := map["otherkey" := other, "tool" := Table(map["othertool" := other, "radiation" := mine])];
    TwoLevels(entries, "tool", "radiation");
    assert "tool" + "." + "radiation" == "tool.radiation";
  }

  /** A head holding something other than a table makes `.get` fail. */
  lemma NotATable()
    ensures GetNested(Table(map["tool" := Int(1)]), "tool.radiation") == Err(AttributeError("get"))
  {
    GetNestedStep(map["tool" := Int(1)], "tool", "radiation");
    assert "tool" + "." + "radiation" == "tool.radiation";
  }

  // ---------------------------------------------------------------------------
  // Option values
  // ---------------------------------------------------------------------------

  /** `_toml_parse_list`: a lone string stands for the list holding it; any other
      value is passed on. */
  function TomlParseList(v: Value): (r: Value)
    ensures !r.Str?
    ensures v.Str? ==> r == Array([v])
    ensures !v.Str? ==> r == v
  {
    if v.Str? then Array([v]) else v
  }

  /** Applying the list reading twice changes nothing more. */
  lemma TomlParseListIdempotent(v: Value)
    ensures TomlParseList(TomlParseList(v)) == TomlParseList(v)
  {
  }

  /** The strings of a list of values; `None` when one of them is not a string. */
  function Texts(items: seq<Value>): (r: Option<seq<string>>)
    ensures r.Some? <==> forall k :: 0 <= k < |items| ==> items[k].Str?
    ensures r.Some? ==> |r.value| == |items| && forall k :: 0 <= k < |items| ==> r.value[k] == items[k].s
  {
    if items == [] then Some([])
    else if !items[0].Str? then None
    else
      match Texts(items[1..])
      case None => None
      case Some(rest) => Some([items[0].s] + rest)
  }

  /** The lines of an INI value that are not blank, each stripped. */
  function KeepStripped(lines: seq<string>): (r: seq<string>)
    ensures |r| <= |lines|
  {
    if lines == [] then []
    else
      var t := Strings.Strip(lines[0]);
      var rest := KeepStripped(lines[1..]);
      if t == "" then rest else [t] + rest
  }

  /** Every kept line is listable. */
  lemma {:induction false} KeepStrippedListed(lines: seq<string>)
    ensures forall k :: 0 <= k < |KeepStripped(lines)| ==> Listed(KeepStripped(lines)[k])
  {
    if lines != [] {
      KeepStrippedListed(lines[1..]);
      var t := Strings.Strip(lines[0]);
      var rest := KeepStripped(lines[1..]);
      if t != "" {
        assert Listed(t);
        forall k | 0 <= k < |[t] + rest|
          ensures Listed(([t] + rest)[k])
        {
          if k > 0 {
            assert ([t] + rest)[k] == rest[k - 1];
          }
        }
      }
    }
  }

  /** Lines without a line feed stay so once stripped. */
  lemma {:induction false} KeepStrippedNoLineFeed(lines: seq<string>)
    requires forall k :: 0 <= k < |lines| ==> '\n' !in lines[k]
    ensures forall k :: 0 <= k < |KeepStripped(lines)| ==> '\n' !in KeepStripped(lines)[k]
  {
    if lines != [] {
      StripKeeps(lines[0], '\n');
      KeepStrippedNoLineFeed(lines[1..]);
    }
  }

  /** What an INI list can hold: a non-blank entry with no whitespace at either
      end, so that stripping leaves it as it is. */
  predicate Listed(item: string) {
    item != "" && !Strings.IsSpace(item[0]) && !Strings.IsSpace(item[|item| - 1])
  }

  /** Stripping a string that lacks a character cannot bring the character in. */
  lemma StripKeeps(s: string, c: char)
    ensures c !in s ==> c !in Strings.Strip(s)
  {
    var a := Strings.TrimStart(s, Strings.Whitespace);
    var b := Strings.TrimEnd(a, Strings.Whitespace);
    assert forall k :: 0 <= k < |b| ==> b[k] == a[k];
    assert forall k :: 0 <= k < |a| ==> a[k] == s[|s| - |a| + k];
  }

  /** `_cfg_parse_list`: the value split at line feeds, each line stripped, blank
      lines dropped. */
  function CfgParseList(value: string): (r: seq<string>)
    ensures forall k :: 0 <= k < |r| ==> Listed(r[k]) && '\n' !in r[k]
  {
    KeepStrippedNoLineFeed(Strings.Split(value, '\n'));
    KeepStrippedListed(Strings.Split(value, '\n'));
    KeepStripped(Strings.Split(value, '\n'))
  }

  /** Lines that are already listable survive the dropping and stripping unchanged. */
  lemma {:induction false} KeepListed(items: seq<string>)
    requires forall k :: 0 <= k < |items| ==> Listed(items[k])
    ensures KeepStripped(items) == items
  {
    if items != [] {
      Strings.StripStripped(items[0]);
      KeepListed(items[1..]);
    }
  }

  /** Writing listable lines one per line and reading them back gives the lines. */
  lemma CfgListRoundTrip(items: seq<string>)
    requires forall k :: 0 <= k < |items| ==> Listed(items[k]) && '\n' !in items[k]
    ensures CfgParseList(Strings.Join(items, '\n')) == items
  {
    if items == [] {
      assert Strings.Split("", '\n') == [""];
    } else {
      Strings.SplitJoin(items, '\n');
      KeepListed(items);
    }
  }

  /** A value whose first line is blank and whose other lines are listable
      reads as those other lines. */
  lemma LeadingBlankLine(items: seq<string>)
    requires items != [] && forall k :: 0 <= k < |items| ==> Listed(items[k]) && '\n' !in items[k]
    ensures CfgParseList("\n" + Strings.Join(items, '\n')) == items
  {
    var lines := [""] + items;
    var text := "\n" + Strings.Join(items, '\n');
    JoinAfterBlank(items);
    Strings.SplitJoin(lines, '\n');
    assert Strings.Split(text, '\n') == lines;
    DropBlank(items);
    KeepListed(items);
    assert KeepStripped(lines) == items;
    ReadsKept(text);
  }

  /** An INI list is the kept lines of the value. */
  lemma ReadsKept(value: string)
    ensures CfgParseList(value) == KeepStripped(Strings.Split(value, '\n'))
  {
  }

  /** A blank first line contributes only its line feed to the join. */
  lemma JoinAfterBlank(items: seq<string>)
    requires items != [] && forall k :: 0 <= k < |items| ==> '\n' !in items[k]
    ensures Strings.Join([""] + items, '\n') == "\n" + Strings.Join(items, '\n')
    ensures forall k :: 0 <= k < |[""] + items| ==> '\n' !in ([""] + items)[k]
  {
    var lines := [""] + items;
    assert lines[0] == "" && lines[1..] == items && |lines| >= 2;
    assert Strings.Join(lines, '\n') == lines[0] + ['\n'] + Strings.Join(items, '\n');
    assert lines[0] + ['\n'] == "\n";
    assert forall k :: 1 <= k < |lines| ==> lines[k] == items[k - 1];
  }

  /** A blank line is dropped. */
  lemma DropBlank(items: seq<string>)
    ensures KeepStripped([""] + items) == KeepStripped(items)
  {
    var lines := [""] + items;
    assert lines[0] == "" && lines[1..] == items;
    assert Strings.Strip(lines[0]) == "";
  }

  /** An INI value continued over indented lines, as `include =` followed by
      `*.py` and `mydir/` on lines of their own, reads as the two entries. */
  lemma CfgParseListExample()
    ensures CfgParseList("\n*.py\nmydir/") == ["*.py", "mydir/"]
  {
    ExampleEntries();
    ExampleText();
    LeadingBlankLine(["*.py", "mydir/"]);
  }

  lemma ExampleEntries()
    ensures Listed("*.py") && '\n' !in "*.py"
    ensures Listed("mydir/") && '\n' !in "mydir/"
  {
  }

  lemma ExampleText()
    ensures "\n" + Strings.Join(["*.py", "mydir/"], '\n') == "\n*.py\nmydir/"
  {
    assert ["*.py", "mydir/"][1..] == ["mydir/"];
  }

  /** Python's `int(x)` for the values a limit can hold: text goes through
      `int(str)`, a float is truncated toward zero, a boolean counts as 0 or 1, and
      a list or table is a `TypeError`. */
  function IntOf(v: Value): (r: Result<int, Exception>)
    ensures r.Err? <==> (v.Str? && Strings.ParseInt(v.s).None?) || v.Array? || v.Table?
    ensures v.Int? ==> r == Ok(v.i)
  {
    match v
    case Str(s) =>
      (match Strings.ParseInt(s)
       case Some(i) => Ok(i)
       case None => Err(ValueError("invalid literal for int() with base 10")))
    case Int(i) => Ok(i)
    case Float(x) => Ok(Truncate(x))
    case Bool(b) => Ok(if b then 1 else 0)
    case Array(_) => Err(TypeError("int() argument must be a string, a bytes-like object or a real number"))
    case Table(_) => Err(TypeError("int() argument must be a string, a bytes-like object or a real number"))
  }

  /** `int(x)` of a float: the integer part, rounding toward zero. */
  function Truncate(x: real): (r: int)
    ensures 0.0 <= x ==> r as real <= x < r as real + 1.0
    ensures x < 0.0 ==> r as real - 1.0 < x <= r as real
  {
    if 0.0 <= x then x.Floor else 0 - (0.0 - x).Floor
  }

  /** `_parse_limit`: absent, falsy and `"none"` values mean no limit; anything
      else is converted with `int`. */
  function ParseLimit(v: Option<Value>): (r: Result<Option<int>, Exception>)
    ensures v.None? || !Truthy(v.value) || v.value == Str("none") ==> r == Ok(None)
    ensures r.Ok? && r.value.Some? ==> v.Some? && IntOf(v.value) == Ok(r.value.value)
    ensures r.Err? ==> v.Some? && IntOf(v.value).Err?
  {
    if v.None? || !Truthy(v.value) || v.value == Str("none") then Ok(None)
    else
      var i :- IntOf(v.value);
      Ok(Some(i))
  }

  /** A limit written as the decimal text of a number reads back as that number,
      zero included. */
  lemma LimitTextRoundTrip(n: int)
    ensures ParseLimit(Some(Str(Strings.IntToString(n)))) == Ok(Some(n))
  {
    var t := Strings.IntToString(n);
    Strings.IntToStringRoundTrip(n);
    assert t != "none" by {
      if n >= 0 {
        assert Strings.IsDigit(t[0]);
      }
    }
  }

  /** A limit written as a number is that number, except that 0 means no limit. */
  lemma LimitNumber(n: int)
    ensures ParseLimit(Some(Int(n))) == if n == 0 then Ok(None) else Ok(Some(n))
  {
  }

  /** The word "none" and the empty text mean no limit. */
  lemma NoLimitWords()
    ensures ParseLimit(Some(Str("none"))) == Ok(None)
    ensures ParseLimit(Some(Str(""))) == Ok(None)
  {
  }

  /** Text that is not a number is a `ValueError`. */
  lemma LimitNotANumber()
    ensures ParseLimit(Some(Str("lots"))) == Err(ValueError("invalid literal for int() with base 10"))
  {
    Strings.NotANumber("lots");
  }

  /** A float limit is truncated toward zero. */
  lemma LimitFloats()
    ensures ParseLimit(Some(Float(2.5))) == Ok(Some(2))
    ensures ParseLimit(Some(Float(-2.5))) == Ok(Some(-2))
  {
  }

  /** Powers of ten. */
  function Pow10(k: nat): (r: nat)
    ensures r >= 1
  {
    if k == 0 then 1 else 10 * Pow10(k - 1)
  }

  /** The value of the digits `whole` before a point and `frac` after it. */
  function Decimal(whole: string, frac: string): real
    requires Strings.AllDigits(whole) && Strings.AllDigits(frac)
  {
    Strings.DigitsValue(whole) as real + Strings.DigitsValue(frac) as real / Pow10(|frac|) as real
  }

  /** An unsigned decimal: digits, optionally with one "." among them, and at least
      one digit in all. */
  function ParseDecimal(d: string): (r: Option<real>)
    ensures r.Some? ==> d != ""
  {
    if '.' in d then
      var i := Strings.IndexOf(d, '.');
      var whole, frac := d[..i], d[i + 1..];
      if Strings.AllDigits(whole) && Strings.AllDigits(frac) && |whole| + |frac| >= 1
      then Some(Decimal(whole, frac))
      else None
    else if d != "" && Strings.AllDigits(d) then Some(Strings.DigitsValue(d) as real)
    else None
  }

  /** Python's `float(text)` for plain decimals: surrounding whitespace, an
      optional sign, then an unsigned decimal. */
  function ParseFloat(text: string): (r: Option<real>)
    ensures r.Some? ==> Strings.Strip(text) != ""
  {
    ParseSigned(Strings.Strip(text))
  }

  /** `float` on text already stripped of whitespace. */
  function ParseSigned(s: string): (r: Option<real>)
    ensures r.Some? ==> s != ""
  {
    if s != "" && s[0] == '-' then
      match ParseDecimal(s[1..])
      case Some(x) => Some(0.0 - x)
      case None => None
    else if s != "" && s[0] == '+' then ParseDecimal(s[1..])
    else ParseDecimal(s)
  }

  /** Text with no whitespace at either end is read as it stands. */
  lemma FloatOfBare(t: string)
    requires t != "" && !Strings.IsSpace(t[0]) && !Strings.IsSpace(t[|t| - 1])
    ensures ParseFloat(t) == ParseSigned(t)
  {
    Strings.StripStripped(t);
  }

  /** The decimal text of an integer reads as that number. */
  lemma FloatOfInt(n: int)
    ensures ParseFloat(Strings.IntToString(n)) == Some(n as real)
  {
    if n < 0 {
      var m: nat := 0 - n;
      assert Strings.IntToString(n) == "-" + Strings.NatToString(m);
      FloatOfNegative(m);
      assert 0.0 - m as real == n as real;
    } else {
      assert Strings.IntToString(n) == Strings.NatToString(n);
      FloatOfNatural(n);
    }
  }

  lemma FloatOfNatural(n: nat)
    ensures ParseFloat(Strings.NatToString(n)) == Some(n as real)
  {
    var t := Strings.NatToString(n);
    assert Strings.IsDigit(t[0]) && Strings.IsDigit(t[|t| - 1]);
    FloatOfBare(t);
    DecimalOfDigits(n);
  }

  lemma FloatOfNegative(n: nat)
    ensures ParseFloat("-" + Strings.NatToString(n)) == Some(0.0 - n as real)
  {
    var d := Strings.NatToString(n);
    DecimalOfDigits(n);
    NegatedDecimal(d, n as real);
  }

  /** A minus sign before a decimal ending in a digit negates it. */
  lemma NegatedDecimal(d: string, x: real)
    requires d != [] && Strings.IsDigit(d[|d| - 1]) && ParseDecimal(d) == Some(x)
    ensures ParseFloat("-" + d) == Some(0.0 - x)
  {
    var t := "-" + d;
    assert t[0] == '-' && t[1..] == d && t[|t| - 1] == d[|d| - 1];
    FloatOfBare(t);
  }

  /** Digits are a number with no fraction. */
  lemma DecimalOfDigits(n: nat)
    ensures ParseDecimal(Strings.NatToString(n)) == Some(n as real)
  {
    var d := Strings.NatToString(n);
    assert '.' !in d by { assert forall k :: 0 <= k < |d| ==> Strings.IsDigit(d[k]); }
    Strings.NatToStringValue(n);
  }

  /** Digits, a point and digits read as the whole part plus the fraction. */
  lemma FloatFraction(whole: string, frac: string)
    requires whole != "" && frac != "" && Strings.AllDigits(whole) && Strings.AllDigits(frac)
    ensures ParseFloat(whole + "." + frac)
              == Some(Decimal(whole, frac))
  {
    var t := whole + "." + frac;
    assert Strings.IsDigit(t[0]) && Strings.IsDigit(t[|t| - 1]);
    FloatOfBare(t);
    assert ParseSigned(t) == ParseDecimal(t);
    DecimalFraction(whole, frac);
  }

  lemma DecimalFraction(whole: string, frac: string)
    requires Strings.AllDigits(whole) && Strings.AllDigits(frac) && |whole| + |frac| >= 1
    ensures ParseDecimal(whole + "." + frac)
              == Some(Decimal(whole, frac))
  {
    var t := whole + "." + frac;
    assert forall k :: 0 <= k < |whole| ==> t[k] == whole[k];
    Strings.FirstIndex(t, '.', |whole|);
    assert t[..|whole|] == whole;
    assert t[|whole| + 1..] == frac;
  }

  /** `float("1.5")` is one and a half. */
  lemma OneAndAHalf(t: string)
    requires t == "1.5"
    ensures ParseFloat(t) == Some(1.5)
  {
    assert t == "1" + "." + "5";
    FloatFraction("1", "5");
    OneAndFiveTenths();
  }

  lemma OneAndFiveTenths()
    ensures Decimal("1", "5") == 1.5
  {
    assert Strings.DigitsValue("1") == 1 && Strings.DigitsValue("5") == 5;
    assert Pow10(1) == 10;
  }

  /** Text that starts with neither a digit, a sign nor a point, and has no
      whitespace to strip, is not a number. */
  lemma NotAFloat(t: string)
    requires t != "" && !Strings.IsSpace(t[0]) && !Strings.IsSpace(t[|t| - 1])
    requires !Strings.IsDigit(t[0]) && t[0] != '-' && t[0] != '+' && t[0] != '.'
    ensures ParseFloat(t) == None
  {
    FloatOfBare(t);
    assert ParseSigned(t) == ParseDecimal(t);
    NoLeadingDigit(t);
  }

  /** A decimal starts with a digit or a point. */
  lemma NoLeadingDigit(t: string)
    requires t != "" && !Strings.IsDigit(t[0]) && t[0] != '.'
    ensures ParseDecimal(t) == None
  {
    if '.' in t {
      var i := Strings.IndexOf(t, '.');
      assert t[..i][0] == t[0];
    }
  }

  /** A word is not a number. */
  lemma FloatWord()
    ensures ParseFloat("soon") == None
  {
    NotAFloat("soon");
  }

  // ---------------------------------------------------------------------------
  // The settings record
  // ---------------------------------------------------------------------------

  /** `CLIConfig`: the project root, the globs to mutate, the test command, the
      tests directory, and the optional timeout, diff command and per-line cap. */
  datatype CLIConfig = CLIConfig(
    projectRoot: Paths.Path,
    includes: Radiation.Globs,
    runCommand: string,
    testsDir: string,
    testsTimeout: Option<real>,
    diffCommand: Option<string>,
    lineLimit: Option<int>)

  /** `CLIConfig(project_root=root)`: every other setting at its default. */
  function Defaults(root: Paths.Path): (c: CLIConfig)
    ensures c.projectRoot == root && c.includes == Radiation.Many(["."])
    ensures c.runCommand == "pytest" && c.testsDir == "tests"
    ensures c.testsTimeout.None? && c.diffCommand.None? && c.lineLimit.None?
  {
    CLIConfig(root, Radiation.Many(["."]), "pytest", "tests", None, None, None)
  }

  /** The section names looked for, in order. */
  const DefaultSections: seq<string> := ["radiation", "settings"]

  /** The suffixes a configuration file may have. */
  const Parsers: seq<string> := [".toml", ".cfg"]

  const UnrecognizedFormat := "Unrecognized config file format (supported: .toml, .cfg)"

  const MissingSections := "Cannot find expected sections in config file (expected: [radiation] or [settings])"

  // ---------------------------------------------------------------------------
  // TOML files
  // ---------------------------------------------------------------------------

  /** `config[key]`. */
  function Required(entries: map<string, Value>, key: string): (r: Result<Value, Exception>)
    ensures r.Ok? <==> key in entries
    ensures r.Ok? ==> r.value == entries[key]
    ensures r.Err? ==> r.error == KeyError(key)
  {
    if key in entries then Ok(entries[key]) else Err(KeyError(key))
  }

  /** A value the record stores as text. */
  function TextOf(v: Value): (r: Result<string, Exception>)
    ensures r.Ok? <==> v.Str?
    ensures r.Ok? ==> r.value == v.s
  {
    if v.Str? then Ok(v.s) else Err(TypeError("expected a string"))
  }

  /** An optional value the record stores as text. */
  function OptionalText(v: Option<Value>): (r: Result<Option<string>, Exception>)
    ensures r.Ok? <==> v.None? || v.value.Str?
    ensures r.Ok? ==> (r.value.Some? <==> v.Some?) && (r.value.Some? ==> r.value.value == v.value.s)
  {
    match v
    case None => Ok(None)
    case Some(x) => if x.Str? then Ok(Some(x.s)) else Err(TypeError("expected a string"))
  }

  /** An optional value the record stores as a number of seconds. */
  function OptionalSeconds(v: Option<Value>): (r: Result<Option<real>, Exception>)
    ensures r.Ok? <==> v.None? || v.value.Int? || v.value.Float?
    ensures r.Ok? && v.Some? && v.value.Int? ==> r.value == Some(v.value.i as real)
    ensures r.Ok? && v.Some? && v.value.Float? ==> r.value == Some(v.value.r)
    ensures r.Ok? && v.None? ==> r.value == None
  {
    match v
    case None => Ok(None)
    case Some(x) =>
      if x.Int? then Ok(Some(x.i as real))
      else if x.Float? then Ok(Some(x.r))
      else Err(TypeError("expected a number"))
  }

  /** The include setting: one glob or a list of globs. */
  function Includes(v: Value): (r: Result<Radiation.Globs, Exception>)
    ensures v.Str? ==> r == Ok(Radiation.Many([v.s]))
    ensures v.Array? && Texts(v.items).Some? ==> r == Ok(Radiation.Many(Texts(v.items).value))
    ensures r.Ok? ==> v.Str? || (v.Array? && Texts(v.items).Some?)
    ensures r.Ok? ==> r.value.Many?
  {
    var list := TomlParseList(v);
    assert v.Str? ==> Texts(list.items) == Some([v.s]) by {
      if v.Str? {
        assert list.items == [v] && list.items[1..] == [];
        assert Texts(list.items[1..]) == Some([]);
        assert [v.s] + [] == [v.s];
      }
    }
    if list.Array? && Texts(list.items).Some? then Ok(Radiation.Many(Texts(list.items).value))
    else Err(TypeError("include must be a string or a list of strings"))
  }

  /** The record built from a TOML section: `include`, `run_command` and
      `tests_dir` are required, and looked up in that order; a `line_limit` that
      is not a number is refused next; the other settings are optional; the
      project root is the directory of the file. */
  function TomlConfig(config: Value, root: Paths.Path): (r: Result<CLIConfig, Exception>)
    ensures config.Table? && "include" !in config.entries ==> r == Err(KeyError("include"))
    ensures config.Table? && "include" in config.entries && "run_command" !in config.entries ==> r == Err(KeyError("run_command"))
    ensures config.Table? && "include" in config.entries && "run_command" in config.entries && "tests_dir" !in config.entries
            ==> r == Err(KeyError("tests_dir"))
    ensures config.Table? && RequiredPresent(config.entries) && ParseLimit(Get(config.entries, "line_limit")).Err?
            ==> r == Err(ParseLimit(Get(config.entries, "line_limit")).error)
    ensures r.Ok? ==> config.Table? && r.value.projectRoot == root
    ensures r.Ok? ==> config.Table? && "run_command" in config.entries && config.entries["run_command"] == Str(r.value.runCommand)
    ensures r.Ok? ==> config.Table? && "tests_dir" in config.entries && config.entries["tests_dir"] == Str(r.value.testsDir)
    ensures r.Ok? ==> config.Table? && ParseLimit(Get(config.entries, "line_limit")) == Ok(r.value.lineLimit)
    ensures r.Ok? ==> config.Table? && (r.value.diffCommand.Some? <==> "diff_command" in config.entries)
    ensures r.Ok? ==> config.Table? && "include" in config.entries && Includes(config.entries["include"]) == Ok(r.value.includes)
    ensures r.Ok? ==> config.Table? && OptionalSeconds(Get(config.entries, "tests_timeout")) == Ok(r.value.testsTimeout)
  {
    if !config.Table? then Err(TypeError("the section is not a table"))
    else
      var e := config.entries;
      var includeValue :- Required(e, "include");
      var runValue :- Required(e, "run_command");
      var testsValue :- Required(e, "tests_dir");
      var limit :- ParseLimit(Get(e, "line_limit"));
      var globs :- Includes(includeValue);
      var runCommand :- TextOf(runValue);
      var testsDir :- TextOf(testsValue);
      var timeout :- OptionalSeconds(Get(e, "tests_timeout"));
      var diff :- OptionalText(Get(e, "diff_command"));
      Ok(CLIConfig(root, globs, runCommand, testsDir, timeout, diff, limit))
  }

  /** The three settings a section must hold. */
  predicate RequiredPresent(entries: map<string, Value>) {
    "include" in entries && "run_command" in entries && "tests_dir" in entries
  }

  /** A section that is present and truthy. */
  predicate TomlFound(data: Value, section: string) {
    var v := GetNested(data, section);
    v.Ok? && v.value.Some? && Truthy(v.value.value)
  }

  /** A section that is absent or falsy, and looking it up raised nothing. */
  predicate TomlSkipped(data: Value, section: string) {
    var v := GetNested(data, section);
    v.Ok? && (v.value.None? || !Truthy(v.value.value))
  }

  /** `_read_toml` on the parsed file: the first section present and truthy
      becomes the record; with none, nothing is read. */
  function ReadToml(data: Value, sections: seq<string>, path: Paths.Path): (r: Result<Option<CLIConfig>, Exception>)
    ensures r.Ok? && r.value.Some? ==> r.value.value.projectRoot == Paths.Parent(path)
    decreases |sections|
  {
    if sections == [] then Ok(None)
    else
      var found :- GetNested(data, sections[0]);
      if found.Some? && Truthy(found.value) then
        var c :- TomlConfig(found.value, Paths.Parent(path));
        Ok(Some(c))
      else ReadToml(data, sections[1..], path)
  }

  /** Sections skipped before the first one found do not matter: the first found
      section alone gives the result. */
  lemma {:induction false} ReadTomlFirstFound(data: Value, sections: seq<string>, path: Paths.Path, i: nat)
    requires i < |sections| && TomlFound(data, sections[i])
    requires forall j :: 0 <= j < i ==> TomlSkipped(data, sections[j])
    ensures var c := TomlConfig(GetNested(data, sections[i]).value.value, Paths.Parent(path));
            ReadToml(data, sections, path) == if c.Ok? then Ok(Some(c.value)) else Err(c.error)
  {
    if i > 0 {
      assert TomlSkipped(data, sections[0]);
      assert sections[1..][i - 1] == sections[i];
      ReadTomlFirstFound(data, sections[1..], path, i - 1);
    }
  }

  /** With every section skipped, nothing is read. */
  lemma {:induction false} ReadTomlNone(data: Value, sections: seq<string>, path: Paths.Path)
    requires forall j :: 0 <= j < |sections| ==> TomlSkipped(data, sections[j])
    ensures ReadToml(data, sections, path) == Ok(None)
  {
    if sections != [] {
      assert TomlSkipped(data, sections[0]);
      ReadTomlNone(data, sections[1..], path);
    }
  }

  /** A truthy `[radiation]` table wins over `[settings]`, whatever that holds. */
  lemma RadiationBeforeSettings(entries: map<string, Value>, path: Paths.Path)
    requires "radiation" in entries && Truthy(entries["radiation"])
    ensures var c := TomlConfig(entries["radiation"], Paths.Parent(path));
            ReadToml(Table(entries), DefaultSections, path) == if c.Ok? then Ok(Some(c.value)) else Err(c.error)
  {
    assert '.' !in "radiation";
    assert GetNested(Table(entries), DefaultSections[0]) == Ok(Some(entries["radiation"]));
    ReadTomlFirstFound(Table(entries), DefaultSections, path, 0);
  }

  // ---------------------------------------------------------------------------
  // INI files
  // ---------------------------------------------------------------------------

  /** What the INI reader hands back: the options of each section, as text. */
  type Sections = map<string, map<string, string>>

  /** `parser.get(section, option)` without a fallback. */
  function OptionText(opts: map<string, string>, option: string): (r: Result<string, Exception>)
    ensures r.Ok? <==> option in opts
    ensures r.Ok? ==> r.value == opts[option]
    ensures r.Err? ==> r.error == NoOptionError(option)
  {
    if option in opts then Ok(opts[option]) else Err(NoOptionError(option))
  }

  /** `parser.getfloat(section, option, fallback=None)`: the fallback covers a
      missing option only; text that is not a number is a `ValueError`. */
  function FallbackSeconds(opts: map<string, string>, option: string): (r: Result<Option<real>, Exception>)
    ensures option !in opts ==> r == Ok(None)
    ensures option in opts ==> (r.Ok? <==> ParseFloat(opts[option]).Some?)
    ensures option in opts && r.Ok? ==> r.value == ParseFloat(opts[option])
  {
    if option !in opts then Ok(None)
    else
      match ParseFloat(opts[option])
      case Some(x) => Ok(Some(x))
      case None => Err(ValueError("could not convert string to float"))
  }

  /** The text of an INI option, as a value for the limit conversion. */
  function AsValue(t: Option<string>): (r: Option<Value>)
    ensures r.Some? <==> t.Some?
    ensures r.Some? ==> r.value == Str(t.value)
  {
    if t.Some? then Some(Str(t.value)) else None
  }

  /** The record built from an INI section, in the same order as from a TOML
      table; `include` is read as a list of lines. */
  function CfgConfig(opts: map<string, string>, root: Paths.Path): (r: Result<CLIConfig, Exception>)
    ensures "include" !in opts ==> r == Err(NoOptionError("include"))
    ensures r.Ok? ==> r.value.projectRoot == root
    ensures r.Ok? ==> "include" in opts && r.value.includes == Radiation.Many(CfgParseList(opts["include"]))
    ensures r.Ok? ==> "run_command" in opts && r.value.runCommand == opts["run_command"]
    ensures r.Ok? ==> "tests_dir" in opts && r.value.testsDir == opts["tests_dir"]
    ensures r.Ok? ==> r.value.diffCommand == Get(opts, "diff_command")
    ensures r.Ok? ==> ParseLimit(AsValue(Get(opts, "line_limit"))) == Ok(r.value.lineLimit)
    ensures r.Ok? ==> FallbackSeconds(opts, "tests_timeout") == Ok(r.value.testsTimeout)
  {
    var includeText :- OptionText(opts, "include");
    var runCommand :- OptionText(opts, "run_command");
    var testsDir :- OptionText(opts, "tests_dir");
    var timeout :- FallbackSeconds(opts, "tests_timeout");
    var limit :- ParseLimit(AsValue(Get(opts, "line_limit")));
    Ok(CLIConfig(root, Radiation.Many(CfgParseList(includeText)), runCommand, testsDir, timeout, Get(opts, "diff_command"), limit))
  }

  /** `_read_cfg` on the parsed file: the first section the file has becomes the
      record, even when it is empty; with none, nothing is read. */
  function ReadCfg(file: Sections, sections: seq<string>, path: Paths.Path): (r: Result<Option<CLIConfig>, Exception>)
    ensures (forall j :: 0 <= j < |sections| ==> sections[j] !in file) ==> r == Ok(None)
    ensures r.Ok? && r.value.Some? ==> r.value.value.projectRoot == Paths.Parent(path)
    decreases |sections|
  {
    if sections == [] then Ok(None)
    else if sections[0] in file then
      var c :- CfgConfig(file[sections[0]], Paths.Parent(path));
      Ok(Some(c))
    else ReadCfg(file, sections[1..], path)
  }

  /** The first section the file has decides, whatever the later ones hold. */
  lemma {:induction false} ReadCfgFirstFound(file: Sections, sections: seq<string>, path: Paths.Path, i: nat)
    requires i < |sections| && sections[i] in file
    requires forall j :: 0 <= j < i ==> sections[j] !in file
    ensures var c := CfgConfig(file[sections[i]], Paths.Parent(path));
            ReadCfg(file, sections, path) == if c.Ok? then Ok(Some(c.value)) else Err(c.error)
  {
    if i > 0 {
      assert sections[0] !in file;
      assert sections[1..][i - 1] == sections[i];
      ReadCfgFirstFound(file, sections[1..], path, i - 1);
    }
  }

  // ---------------------------------------------------------------------------
  // Choosing the file
  // ---------------------------------------------------------------------------

  /** The readers of the files: whether a path exists, the parsed TOML document
      and the parsed INI sections of a file. */
  datatype Files = Files(present: Paths.Path -> bool, toml: Paths.Path -> Value, cfg: Paths.Path -> Sections)

  /** `validate_path_suffix`: a path given and not empty must end in one of the
      supported suffixes. */
  function ValidatePathSuffix(path: Option<string>): (r: Result<(), Exception>)
    ensures r.Err? <==> path.Some? && path.value != "" && Paths.Suffix(Paths.Parse(path.value)) !in Parsers
    ensures r.Err? ==> r.error == BadParameter(UnrecognizedFormat)
  {
    if path.Some? && path.value != "" && Paths.Suffix(Paths.Parse(path.value)) !in Parsers
    then Err(BadParameter(UnrecognizedFormat))
    else Ok(())
  }

  /** `PARSERS[path.suffix](path, sections)`: the reader is chosen by suffix, and a
      suffix without a reader is a `KeyError`. */
  function ReadBySuffix(path: Paths.Path, sections: seq<string>, files: Files): (r: Result<Option<CLIConfig>, Exception>)
    ensures Paths.Suffix(path) !in Parsers ==> r == Err(KeyError(Paths.Suffix(path)))
    ensures r.Ok? && r.value.Some? ==> r.value.value.projectRoot == Paths.Parent(path)
  {
    var suffix := Paths.Suffix(path);
    if suffix == ".toml" then ReadToml(files.toml(path), sections, path)
    else if suffix == ".cfg" then ReadCfg(files.cfg(path), sections, path)
    else Err(KeyError(suffix))
  }

  /** `read_config(path)`: the suffix is checked, the file is read under the
      default section names, and a file with neither section is an error. */
  function ReadConfig(path: string, files: Files): (r: Result<CLIConfig, Exception>)
    ensures ValidatePathSuffix(Some(path)).Err? ==> r == Err(BadParameter(UnrecognizedFormat))
    ensures path == "" ==> r == Err(KeyError(""))
    ensures ReadBySuffix(Paths.Parse(path), DefaultSections, files) == Ok(None) ==> r == Err(Failure(MissingSections))
    ensures r.Ok? ==> r.value.projectRoot == Paths.Parent(Paths.Parse(path))
  {
    var _ :- ValidatePathSuffix(Some(path));
    ReadConfigured(ReadBySuffix(Paths.Parse(path), DefaultSections, files))
  }

  /** The end of `read_config`: a reader's error stands, a record found is the
      result, and a file without any of the sections raises a plain `Exception`
      (`Failure`) naming the expected sections. */
  function ReadConfigured(read: Result<Option<CLIConfig>, Exception>): (r: Result<CLIConfig, Exception>)
    ensures read.Err? ==> r == Err(read.error)
    ensures read.Ok? && read.value.Some? ==> r == Ok(read.value.value)
    ensures read == Ok(None) ==> r == Err(Failure(MissingSections))
  {
    var found :- read;
    if found.Some? then Ok(found.value) else Err(Failure(MissingSections))
  }

  /** The files looked for in the project root, each with the sections it may
      hold, in order. */
  const DefaultFiles: seq<(string, seq<string>)> := [
    (".radiation.cfg", DefaultSections),
    (".radiation.toml", DefaultSections),
    ("pyproject.toml", ["tool.radiation"])
  ]

  /** `root / name`. */
  function InRoot(root: Paths.Path, name: string): (r: Paths.Path)
    ensures Paths.Parent(r) == root
  {
    Paths.ParentOfChild(root, name);
    Paths.Join(root, Paths.Path(false, [name]))
  }

  /** A file that is absent, or present without any of its sections. */
  predicate Skips(root: Paths.Path, file: (string, seq<string>), files: Files) {
    var path := InRoot(root, file.0);
    !files.present(path) || ReadBySuffix(path, file.1, files) == Ok(None)
  }

  /** The loop of `read_default_config` from a given file on: an absent file is
      passed over, a present one is read, and the first one read that holds a
      section gives the record; after the last file, the defaults. */
  function TryFiles(root: Paths.Path, candidates: seq<(string, seq<string>)>, files: Files): (r: Result<CLIConfig, Exception>)
    ensures r.Ok? ==> r.value.projectRoot == root
    decreases |candidates|
  {
    if candidates == [] then Ok(Defaults(root))
    else
      var path := InRoot(root, candidates[0].0);
      if !files.present(path) then TryFiles(root, candidates[1..], files)
      else
        var found :- ReadBySuffix(path, candidates[0].1, files);
        if found.Some? then Ok(found.value) else TryFiles(root, candidates[1..], files)
  }

  /** Files that are skipped change nothing: the search goes on from the first
      file that is not. */
  lemma {:induction false} SkippedFiles(root: Paths.Path, candidates: seq<(string, seq<string>)>, files: Files, i: nat)
    requires i <= |candidates|
    requires forall j :: 0 <= j < i ==> Skips(root, candidates[j], files)
    ensures TryFiles(root, candidates, files) == TryFiles(root, candidates[i..], files)
  {
    if i > 0 {
      SkipOne(root, candidates, files);
      var rest := candidates[1..];
      forall j | 0 <= j < i - 1
        ensures Skips(root, rest[j], files)
      {
        assert rest[j] == candidates[j + 1];
      }
      SkippedFiles(root, rest, files, i - 1);
      assert candidates[1..][i - 1..] == candidates[i..];
    }
  }

  /** One skipped file is passed over. */
  lemma SkipOne(root: Paths.Path, candidates: seq<(string, seq<string>)>, files: Files)
    requires candidates != [] && Skips(root, candidates[0], files)
    ensures TryFiles(root, candidates, files) == TryFiles(root, candidates[1..], files)
  {
  }

  /** `read_default_config(root_path)`: the given root, or the working directory
      when none is given, searched for the default files. */
  function ReadDefaultConfig(rootPath: Option<string>, cwd: Paths.Path, files: Files): (r: Result<CLIConfig, Exception>)
    ensures r.Ok? ==> r.value.projectRoot == (if rootPath.Some? && rootPath.value != "" then Paths.Parse(rootPath.value) else cwd)
  {
    var root := if rootPath.Some? && rootPath.value != "" then Paths.Parse(rootPath.value) else cwd;
    TryFiles(root, DefaultFiles, files)
  }

  /** With none of the default files holding a section, the defaults are used. */
  lemma NoConfigFile(root: Paths.Path, files: Files)
    requires forall j :: 0 <= j < |DefaultFiles| ==> Skips(root, DefaultFiles[j], files)
    ensures TryFiles(root, DefaultFiles, files) == Ok(Defaults(root))
  {
    SkippedFiles(root, DefaultFiles, files, |DefaultFiles|);
  }

  /** A file in the root has the suffix its name has. */
  lemma InRootSuffix(root: Paths.Path, name: string, i: nat)
    requires 0 < i < |name| - 1 && name[i] == '.' && '.' !in name[i + 1..]
    ensures Paths.Suffix(InRoot(root, name)) == name[i..]
  {
    Paths.SuffixAt(InRoot(root, name), i);
  }

  /** The names of the default files end in suffixes that have a reader. */
  lemma DefaultSuffixes(root: Paths.Path)
    ensures Paths.Suffix(InRoot(root, ".radiation.cfg")) == ".cfg"
    ensures Paths.Suffix(InRoot(root, ".radiation.toml")) == ".toml"
    ensures Paths.Suffix(InRoot(root, "pyproject.toml")) == ".toml"
  {
    CfgName(root);
    TomlName(root);
    PyprojectName(root);
  }

  lemma CfgName(root: Paths.Path)
    ensures Paths.Suffix(InRoot(root, ".radiation.cfg")) == ".cfg"
  {
    assert ".radiation.cfg"[11..] == "cfg" && ".radiation.cfg"[10..] == ".cfg";
    InRootSuffix(root, ".radiation.cfg", 10);
  }

  lemma TomlName(root: Paths.Path)
    ensures Paths.Suffix(InRoot(root, ".radiation.toml")) == ".toml"
  {
    assert ".radiation.toml"[11..] == "toml" && ".radiation.toml"[10..] == ".toml";
    InRootSuffix(root, ".radiation.toml", 10);
  }

  lemma PyprojectName(root: Paths.Path)
    ensures Paths.Suffix(InRoot(root, "pyproject.toml")) == ".toml"
  {
    assert "pyproject.toml"[10..] == "toml" && "pyproject.toml"[9..] == ".toml";
    InRootSuffix(root, "pyproject.toml", 9);
  }

  /** A `.radiation.cfg` with a `[radiation]` or `[settings]` section is used
      before any TOML file. */
  lemma CfgFileFirst(root: Paths.Path, files: Files)
    requires files.present(InRoot(root, ".radiation.cfg"))
    requires var file := files.cfg(InRoot(root, ".radiation.cfg")); "radiation" in file || "settings" in file
    ensures TryFiles(root, DefaultFiles, files) == ReadConfigured(ReadBySuffix(InRoot(root, ".radiation.cfg"), DefaultSections, files))
  {
    DefaultSuffixes(root);
  }

  /** A plain file name parses to a one-part relative path. */
  lemma ParseName(name: string)
    requires Paths.ValidPart(name)
    ensures Paths.Parse(name) == Paths.Path(false, [name])
  {
    Paths.ParseRelative([name]);
  }

  /** A plain file name whose last "." sits strictly inside it has the suffix
      from that dot on. */
  lemma NameSuffix(name: string, i: nat)
    requires Paths.ValidPart(name) && 0 < i < |name| - 1 && name[i] == '.' && '.' !in name[i + 1..]
    ensures Paths.Suffix(Paths.Parse(name)) == name[i..]
  {
    ParseName(name);
    Paths.SuffixAt(Paths.Path(false, [name]), i);
  }

  /** `custom_name.cfg` is accepted. */
  lemma CfgSuffixAccepted()
    ensures ValidatePathSuffix(Some("custom_name.cfg")).Ok?
  {
    assert "custom_name.cfg"[12..] == "cfg" && "custom_name.cfg"[11..] == ".cfg";
    NameSuffix("custom_name.cfg", 11);
  }

  /** `custom_name.bla` is refused. */
  lemma UnknownSuffixRefused()
    ensures ValidatePathSuffix(Some("custom_name.bla")) == Err(BadParameter(UnrecognizedFormat))
  {
    assert "custom_name.bla"[12..] == "bla" && "custom_name.bla"[11..] == ".bla";
    NameSuffix("custom_name.bla", 11);
  }

  /** A dot file such as `.cfg` has no suffix, so it is refused too. */
  lemma DotFileRefused()
    ensures ValidatePathSuffix(Some(".cfg")) == Err(BadParameter(UnrecognizedFormat))
  {
    ParseName(".cfg");
    assert Paths.LastIndexOf(".cfg", '.') == 0 by {
      assert '.' !in ".cfg"[1..];
    }
  }
}

=== FILE: cli_main.dfy ===
/** The `radiation` command line: the options that override the configuration,
    the choice of configuration file, and the `run` pipeline wrapped around the
    test runs. Running the tests, walking the file system and printing are
    outside the model: the test outcomes arrive as a function, the generated
    mutations as a list, and what `run` prints as a list of reports. */
module CliMain {
  import opened Wrappers
  import opened Errors
  import opened Types
  import opened Mutations
  import Paths
  import Patch
  import LineLimit
  import Radiation
  import CliConfig

  // ---------------------------------------------------------------------------
  // Overriding the configuration with command-line options
  // ---------------------------------------------------------------------------

  /** The options `--include`, `--tests-dir`, `--tests-timeout`, `--run-command`,
      `--diff-command` and `--line-limit`; an option not given is absent. */
  datatype Overrides = Overrides(
    includeGlob: Option<string>,
    testsDir: Option<string>,
    testsTimeout: Option<real>,
    runCommand: Option<string>,
    diffCommand: Option<string>,
    lineLimit: Option<int>)

  /** No option given. */
  const NoOverrides := Overrides(None, None, None, None, None, None)

  /** `_override_config`: every option that was given replaces its field, even an
      empty or zero one; the options not given, and the project root, leave the
      configuration as it was. `--include` takes one glob. */
  function OverrideConfig(config: CliConfig.CLIConfig, o: Overrides): (r: CliConfig.CLIConfig)
    ensures r.projectRoot == config.projectRoot
    ensures o.includeGlob.Some? ==> r.includes == Radiation.One(o.includeGlob.value)
    ensures o.includeGlob.None? ==> r.includes == config.includes
    ensures o.testsDir.Some? ==> r.testsDir == o.testsDir.value
    ensures o.testsDir.None? ==> r.testsDir == config.testsDir
    ensures o.testsTimeout.Some? ==> r.testsTimeout == o.testsTimeout
    ensures o.testsTimeout.None? ==> r.testsTimeout == config.testsTimeout
    ensures o.runCommand.Some? ==> r.runCommand == o.runCommand.value
    ensures o.runCommand.None? ==> r.runCommand == config.runCommand
    ensures o.diffCommand.Some? ==> r.diffCommand == o.diffCommand
    ensures o.diffCommand.None? ==> r.diffCommand == config.diffCommand
    ensures o.lineLimit.Some? ==> r.lineLimit == o.lineLimit
    ensures o.lineLimit.None? ==> r.lineLimit == config.lineLimit
  {
    config.(
      includes := if o.includeGlob.Some? then Radiation.One(o.includeGlob.value) else config.includes,
      testsDir := o.testsDir.GetOr(config.testsDir),
      testsTimeout := if o.testsTimeout.Some? then o.testsTimeout else config.testsTimeout,
      runCommand := o.runCommand.GetOr(config.runCommand),
      diffCommand := if o.diffCommand.Some? then o.diffCommand else config.diffCommand,
      lineLimit := if o.lineLimit.Some? then o.lineLimit else config.lineLimit)
  }

  /** With no option given the configuration is untouched. */
  lemma NoOverridesKeep(config: CliConfig.CLIConfig)
    ensures OverrideConfig(config, NoOverrides) == config
  {
  }

  /** Overriding twice with the same options is overriding once. */
  lemma OverrideIdempotent(config: CliConfig.CLIConfig, o: Overrides)
    ensures OverrideConfig(OverrideConfig(config, o), o) == OverrideConfig(config, o)
  {
  }

  /** The options `b` taken over the options `a`: an option given in `b` wins. */
  function Later(a: Overrides, b: Overrides): (r: Overrides)
    ensures b == NoOverrides ==> r == a
  {
    Overrides(
      if b.includeGlob.Some? then b.includeGlob else a.includeGlob,
      if b.testsDir.Some? then b.testsDir else a.testsDir,
      if b.testsTimeout.Some? then b.testsTimeout else a.testsTimeout,
      if b.runCommand.Some? then b.runCommand else a.runCommand,
      if b.diffCommand.Some? then b.diffCommand else a.diffCommand,
      if b.lineLimit.Some? then b.lineLimit else a.lineLimit)
  }

  /** Overriding with `a` and then with `b` is overriding once with `b` taken over
      `a`. */
  lemma OverrideTwice(config: CliConfig.CLIConfig, a: Overrides, b: Overrides)
    ensures OverrideConfig(OverrideConfig(config, a), b) == OverrideConfig(config, Later(a, b))
  {
  }

  /** An option that was given takes effect whatever the configuration said, and
      the file's value survives only where no option was given. */
  lemma OverrideWins(c1: CliConfig.CLIConfig, c2: CliConfig.CLIConfig, o: Overrides)
    requires c1.projectRoot == c2.projectRoot
    requires o.includeGlob.Some? && o.testsDir.Some? && o.testsTimeout.Some?
    requires o.runCommand.Some? && o.diffCommand.Some? && o.lineLimit.Some?
    ensures OverrideConfig(c1, o) == OverrideConfig(c2, o)
  {
  }

  // ---------------------------------------------------------------------------
  // Choosing the configuration file
  // ---------------------------------------------------------------------------

  /** The value click hands to `cli` for `-c`: a callback's return value replaces
      the option's value, and the callback returns what `validate_path_suffix`
      returns, which is always `None`. So a valid file name is checked and then
      dropped. */
  function ConfigFileOption(value: Option<string>): (r: Result<Option<string>, Exception>)
    ensures r.Err? <==> CliConfig.ValidatePathSuffix(value).Err?
    ensures r.Err? ==> r.error == BadParameter(CliConfig.UnrecognizedFormat)
    ensures r.Ok? ==> r.value.None?
  {
    var _ :- CliConfig.ValidatePathSuffix(value);
    Ok(None)
  }

  /** The evident intent of the `-c` callback: check the suffix and pass the file
      name on. */
  function ConfigFileValue(value: Option<string>): (r: Result<Option<string>, Exception>)
    ensures r.Err? <==> CliConfig.ValidatePathSuffix(value).Err?
    ensures r.Err? ==> r.error == BadParameter(CliConfig.UnrecognizedFormat)
    ensures r.Ok? ==> r.value == value
  {
    var _ :- CliConfig.ValidatePathSuffix(value);
    Ok(value)
  }

  /** The body of `cli`: a non-empty configuration file is read, otherwise the
      default files of the project root (or of the working directory `cwd`) are
      tried; the options then override what was read. */
  function LoadConfig(configFile: Option<string>, projectRoot: Option<string>, o: Overrides,
                      cwd: Paths.Path, files: CliConfig.Files): (r: Result<CliConfig.CLIConfig, Exception>)
    ensures configFile.Some? && configFile.value != "" ==>
              r == (match CliConfig.ReadConfig(configFile.value, files)
                    case Ok(c) => Ok(OverrideConfig(c, o))
                    case Err(e) => Err(e))
    ensures configFile.None? || configFile.value == "" ==>
              r == (match CliConfig.ReadDefaultConfig(projectRoot, cwd, files)
                    case Ok(c) => Ok(OverrideConfig(c, o))
                    case Err(e) => Err(e))
  {
    var base :- if configFile.Some? && configFile.value != "" then CliConfig.ReadConfig(configFile.value, files)
                else CliConfig.ReadDefaultConfig(projectRoot, cwd, files);
    Ok(OverrideConfig(base, o))
  }

  /** `cli` as written: the `-c` value goes through the callback first. */
  function CliAsWritten(configFile: Option<string>, projectRoot: Option<string>, o: Overrides,
                        cwd: Paths.Path, files: CliConfig.Files): (r: Result<CliConfig.CLIConfig, Exception>)
    ensures CliConfig.ValidatePathSuffix(configFile).Err? ==> r == Err(BadParameter(CliConfig.UnrecognizedFormat))
  {
    var file :- ConfigFileOption(configFile);
    LoadConfig(file, projectRoot, o, cwd, files)
  }

  /** `cli` with the callback passing the file name on. */
  function Cli(configFile: Option<string>, projectRoot: Option<string>, o: Overrides,
               cwd: Paths.Path, files: CliConfig.Files): (r: Result<CliConfig.CLIConfig, Exception>)
    ensures CliConfig.ValidatePathSuffix(configFile).Err? ==> r == Err(BadParameter(CliConfig.UnrecognizedFormat))
  {
    var file :- ConfigFileValue(configFile);
    LoadConfig(file, projectRoot, o, cwd, files)
  }

  /** As written, a valid `-c` file is never read: the outcome is the one without
      `-c`. */
  lemma ConfigFileIgnored(f: string, projectRoot: Option<string>, o: Overrides, cwd: Paths.Path, files: CliConfig.Files)
    requires CliConfig.ValidatePathSuffix(Some(f)).Ok?
    ensures CliAsWritten(Some(f), projectRoot, o, cwd, files) == CliAsWritten(None, projectRoot, o, cwd, files)
    ensures CliAsWritten(None, projectRoot, o, cwd, files) == LoadConfig(None, projectRoot, o, cwd, files)
  {
  }

  /** The file name passed on, a non-empty `-c` file is read and overridden. */
  lemma ConfigFileRead(f: string, projectRoot: Option<string>, o: Overrides, cwd: Paths.Path, files: CliConfig.Files)
    requires f != "" && CliConfig.ValidatePathSuffix(Some(f)).Ok?
    ensures Cli(Some(f), projectRoot, o, cwd, files)
              == (match CliConfig.ReadConfig(f, files)
                  case Ok(c) => Ok(OverrideConfig(c, o))
                  case Err(e) => Err(e))
  {
  }

  /** Without `-c` the two readings agree. */
  lemma NoConfigFileAgrees(projectRoot: Option<string>, o: Overrides, cwd: Paths.Path, files: CliConfig.Files)
    ensures Cli(None, projectRoot, o, cwd, files) == CliAsWritten(None, projectRoot, o, cwd, files)
  {
  }

  /** The discrepancy: a readable `-c` file in a directory other than the working
      directory gives a configuration rooted at that directory, but as written
      the run uses the working directory's configuration instead. */
  lemma ConfigFileDiscrepancy(f: string, cwd: Paths.Path, files: CliConfig.Files)
    requires f != "" && CliConfig.ReadConfig(f, files).Ok?
    requires Paths.Parent(Paths.Parse(f)) != cwd
    ensures Cli(Some(f), None, NoOverrides, cwd, files).Ok?
    ensures Cli(Some(f), None, NoOverrides, cwd, files).value.projectRoot == Paths.Parent(Paths.Parse(f))
    ensures CliAsWritten(Some(f), None, NoOverrides, cwd, files) != Cli(Some(f), None, NoOverrides, cwd, files)
  {
    var read := CliConfig.ReadConfig(f, files);
    assert CliConfig.ValidatePathSuffix(Some(f)).Ok?;
    NoOverridesKeep(read.value);
    var asWritten := CliConfig.ReadDefaultConfig(None, cwd, files);
    if asWritten.Ok? {
      NoOverridesKeep(asWritten.value);
    }
  }

  // ---------------------------------------------------------------------------
  // The filters of `run`
  // ---------------------------------------------------------------------------

  /** `config.diff_command` is set and not empty. */
  predicate PatchWanted(c: CliConfig.CLIConfig) {
    c.diffCommand.Some? && c.diffCommand.value != ""
  }

  /** `config.line_limit` is set and not zero. */
  predicate LimitWanted(c: CliConfig.CLIConfig) {
    c.lineLimit.Some? && c.lineLimit.value != 0
  }

  /** `list(filter(None, [patch, limiter]))`: the patch filter built from the diff
      command's output, then a fresh line limiter, each only when wanted.
      `diffOf` stands for running the diff command and parsing its output. */
  function Filters(c: CliConfig.CLIConfig, diffOf: string -> seq<Patch.Diff>): (fs: seq<Radiation.MutantFilter>)
    ensures |fs| == (if PatchWanted(c) then 1 else 0) + (if LimitWanted(c) then 1 else 0)
    ensures PatchWanted(c) ==> fs[0] == Radiation.ByPatch(diffOf(c.diffCommand.value))
    ensures LimitWanted(c) ==> fs[|fs| - 1] == Radiation.ByLineLimit(LineLimit.New(c.lineLimit.value))
  {
    var patch := if PatchWanted(c) then [Radiation.ByPatch(diffOf(c.diffCommand.value))] else [];
    var limiter := if LimitWanted(c) then [Radiation.ByLineLimit(LineLimit.New(c.lineLimit.value))] else [];
    patch + limiter
  }

  /** The filters as `run` builds them: `PatchFilter` has no `from_shell_command`
      (the patch module defines only `from_git_diff`), so looking it up raises
      `AttributeError` whenever a diff command is set. With none set, the result is
      the intended one. */
  function FiltersAsWritten(c: CliConfig.CLIConfig, diffOf: string -> seq<Patch.Diff>): (r: Result<seq<Radiation.MutantFilter>, Exception>)
    ensures r.Err? <==> PatchWanted(c)
    ensures r.Err? ==> r.error == AttributeError("from_shell_command")
    ensures r.Ok? ==> r.value == Filters(c, diffOf) && forall i :: 0 <= i < |r.value| ==> r.value[i].ByLineLimit?
  {
    if PatchWanted(c) then Err(AttributeError("from_shell_command"))
    else Ok(Filters(c, diffOf))
  }

  /** With `diff_command = "git diff"` the intended filters hold a patch filter,
      while `run` as written fails before building any. */
  lemma ShellCommandDiscrepancy(c: CliConfig.CLIConfig, diffOf: string -> seq<Patch.Diff>)
    requires c.diffCommand == Some("git diff")
    ensures FiltersAsWritten(c, diffOf) == Err(AttributeError("from_shell_command"))
    ensures Filters(c, diffOf)[0] == Radiation.ByPatch(diffOf("git diff"))
  {
  }

  /** A patch filter comes before any line limiter, there is at most one of each,
      and each is there exactly when its setting asks for it. */
  lemma FilterOrder(c: CliConfig.CLIConfig, diffOf: string -> seq<Patch.Diff>)
    ensures var fs := Filters(c, diffOf);
            forall i, j :: 0 <= i < |fs| && 0 <= j < |fs| && fs[i].ByPatch? && fs[j].ByLineLimit? ==> i < j
    ensures var fs := Filters(c, diffOf);
            (exists i :: 0 <= i < |fs| && fs[i].ByPatch?) <==> PatchWanted(c)
    ensures var fs := Filters(c, diffOf);
            (exists i :: 0 <= i < |fs| && fs[i].ByLineLimit?) <==> LimitWanted(c)
  {
    var fs := Filters(c, diffOf);
    if PatchWanted(c) {
      assert fs[0].ByPatch?;
    }
    if LimitWanted(c) {
      assert fs[|fs| - 1].ByLineLimit?;
    }
  }

  /** A zero `--line-limit` switches the limiter off, even over a limit read from
      the configuration file. */
  lemma ZeroLimitDisables(config: CliConfig.CLIConfig, o: Overrides, diffOf: string -> seq<Patch.Diff>)
    requires o.lineLimit == Some(0)
    ensures forall i :: 0 <= i < |Filters(OverrideConfig(config, o), diffOf)| ==> !Filters(OverrideConfig(config, o), diffOf)[i].ByLineLimit?
  {
    FilterOrder(OverrideConfig(config, o), diffOf);
  }

  /** With the default settings there is no filter, so every generated mutation
      is kept. */
  lemma DefaultsKeepAll(root: Paths.Path, diffOf: string -> seq<Patch.Diff>, ms: seq<Mutation>)
    ensures Filters(CliConfig.Defaults(root), diffOf) == []
    ensures Radiation.FilterAll(Filters(CliConfig.Defaults(root), diffOf), ms, root) == Ok((ms, []))
  {
    Radiation.NoFiltersKeepAll(ms, root);
  }

  // ---------------------------------------------------------------------------
  // The per-mutation timeout
  // ---------------------------------------------------------------------------

  /** Python's `min(a, b)`: `a` unless `b` is smaller. */
  function Min(a: real, b: real): (r: real)
    ensures r <= a && r <= b && (r == a || r == b)
  {
    if b < a then b else a
  }

  /** The timeout of each mutation's test run: one and a half times the baseline
      run's duration in seconds, lowered to `tests_timeout` when that is set and
      not zero. */
  function Timeout(baselineSeconds: real, testsTimeout: Option<real>): (t: real)
    ensures t <= baselineSeconds * 1.5
    ensures testsTimeout.Some? && testsTimeout.value != 0.0 ==> t <= testsTimeout.value
    ensures t == baselineSeconds * 1.5 || (testsTimeout.Some? && t == testsTimeout.value)
    ensures testsTimeout.None? || testsTimeout.value == 0.0 ==> t == baselineSeconds * 1.5
  {
    var baseline := baselineSeconds * 1.5;
    if testsTimeout.Some? && testsTimeout.value != 0.0 then Min(baseline, testsTimeout.value) else baseline
  }

  /** The timeout is the largest value within every bound that applies. */
  lemma TimeoutGreatest(baselineSeconds: real, testsTimeout: Option<real>, x: real)
    requires x <= baselineSeconds * 1.5
    requires testsTimeout.Some? && testsTimeout.value != 0.0 ==> x <= testsTimeout.value
    ensures x <= Timeout(baselineSeconds, testsTimeout)
  {
  }

  // ---------------------------------------------------------------------------
  // Testing the mutations and reporting them
  // ---------------------------------------------------------------------------

  /** `results[key]` of a `defaultdict(list)`: absent keys read as empty. */
  function Lookup(results: map<string, seq<Mutation>>, key: string): (r: seq<Mutation>)
    ensures key !in results ==> r == []
  {
    if key in results then results[key] else []
  }

  /** `results[key].append(m)`. */
  function Record(results: map<string, seq<Mutation>>, key: string, m: Mutation): (r: map<string, seq<Mutation>>)
    ensures Lookup(r, key) == Lookup(results, key) + [m]
    ensures forall k :: k != key ==> Lookup(r, k) == Lookup(results, k)
    ensures r.Keys == results.Keys + {key}
  {
    results[key := Lookup(results, key) + [m]]
  }

  /** The test loop of `run`: each mutation, in order, is put in the bucket named
      by the spelling of its outcome. `outcomes[k]` is the outcome of `ms[k]`. */
  function Collect(ms: seq<Mutation>, outcomes: seq<ResultStatus>): (r: map<string, seq<Mutation>>)
    requires |outcomes| == |ms|
    decreases |ms|
  {
    if ms == [] then map[]
    else
      var n := |ms| - 1;
      Record(Collect(ms[..n], outcomes[..n]), StatusText(outcomes[n]), ms[n])
  }

  /** The mutations whose outcome is `s`, in test order. */
  function Having(ms: seq<Mutation>, outcomes: seq<ResultStatus>, s: ResultStatus): (r: seq<Mutation>)
    requires |outcomes| == |ms|
    ensures |r| <= |ms|
    decreases |ms|
  {
    if ms == [] then []
    else if outcomes[0] == s then [ms[0]] + Having(ms[1..], outcomes[1..], s)
    else Having(ms[1..], outcomes[1..], s)
  }

  /** Having over a list with one more mutation at the end. */
  lemma {:induction false} HavingSnoc(ms: seq<Mutation>, outcomes: seq<ResultStatus>, s: ResultStatus)
    requires |outcomes| == |ms| && ms != []
    ensures var n := |ms| - 1;
            Having(ms, outcomes, s) == Having(ms[..n], outcomes[..n], s) + (if outcomes[n] == s then [ms[n]] else [])
    decreases |ms|
  {
    var n := |ms| - 1;
    if n > 0 {
      HavingSnoc(ms[1..], outcomes[1..], s);
      assert ms[1..][..n - 1] == ms[..n][1..];
      assert outcomes[1..][..n - 1] == outcomes[..n][1..];
      assert ms[1..][n - 1] == ms[n] && outcomes[1..][n - 1] == outcomes[n];
    }
  }

  /** Each bucket holds exactly the mutations with its outcome, in test order, and
      there is a bucket only for an outcome that occurred. */
  lemma {:induction false} CollectBuckets(ms: seq<Mutation>, outcomes: seq<ResultStatus>)
    requires |outcomes| == |ms|
    ensures forall s :: Lookup(Collect(ms, outcomes), StatusText(s)) == Having(ms, outcomes, s)
    ensures forall key :: key in Collect(ms, outcomes) ==> exists k :: 0 <= k < |ms| && key == StatusText(outcomes[k])
    decreases |ms|
  {
    if ms != [] {
      var n := |ms| - 1;
      var before := Collect(ms[..n], outcomes[..n]);
      CollectBuckets(ms[..n], outcomes[..n]);
      forall s
        ensures Lookup(Collect(ms, outcomes), StatusText(s)) == Having(ms, outcomes, s)
      {
        HavingSnoc(ms, outcomes, s);
        StatusTextInjective(s, outcomes[n]);
      }
      forall key | key in Collect(ms, outcomes)
        ensures exists k :: 0 <= k < |ms| && key == StatusText(outcomes[k])
      {
        if key != StatusText(outcomes[n]) {
          assert key in before;
          var k :| 0 <= k < n && key == StatusText(outcomes[..n][k]);
          assert outcomes[..n][k] == outcomes[k];
        }
      }
    }
  }

  /** A mutation is in the bucket of `s` only when it was tested with that outcome. */
  lemma {:induction false} HavingOutcome(ms: seq<Mutation>, outcomes: seq<ResultStatus>, s: ResultStatus, m: Mutation)
    requires |outcomes| == |ms| && m in Having(ms, outcomes, s)
    ensures exists k :: 0 <= k < |ms| && ms[k] == m && outcomes[k] == s
    decreases |ms|
  {
    if !(outcomes[0] == s && m == ms[0]) {
      HavingOutcome(ms[1..], outcomes[1..], s, m);
      var k :| 0 <= k < |ms[1..]| && ms[1..][k] == m && outcomes[1..][k] == s;
      assert ms[k + 1] == m && outcomes[k + 1] == s;
    }
  }

  /** The three buckets share the mutations out: together they hold as many as
      were tested. */
  lemma {:induction false} BucketsPartition(ms: seq<Mutation>, outcomes: seq<ResultStatus>)
    requires |outcomes| == |ms|
    ensures |Having(ms, outcomes, Survived)| + |Having(ms, outcomes, Killed)| + |Having(ms, outcomes, TimedOut)| == |ms|
    decreases |ms|
  {
    if ms != [] {
      BucketsPartition(ms[1..], outcomes[1..]);
    }
  }

  /** The outcome of each mutation when tested with the timeout `t`. */
  function Outcomes(ms: seq<Mutation>, t: real, test: (Mutation, real) -> ResultStatus): (r: seq<ResultStatus>)
    ensures |r| == |ms| && forall k :: 0 <= k < |ms| ==> r[k] == test(ms[k], t)
  {
    seq(|ms|, k requires 0 <= k < |ms| => test(ms[k], t))
  }

  /** One `dump_mutation(mutation, status=...)` with a fixed status)` call. */
  datatype Report = Report(mutation: Mutation, status: string)

  /** One report per mutation, each with the same status text, in order. */
  function Labelled(ms: seq<Mutation>, status: string): (r: seq<Report>)
    ensures |r| == |ms| && forall k :: 0 <= k < |ms| ==> r[k] == Report(ms[k], status)
  {
    seq(|ms|, k requires 0 <= k < |ms| => Report(ms[k], status))
  }

  /** The message of the `ClickException` a failing baseline raises. */
  const BaselineFailing := "Cannot test mutations when the baseline tests are failing (test command output printed above)"

  /** `run` after the mutations are generated: a killed baseline run stops
      everything with a `ClickException`; otherwise every mutation is tested with
      the derived timeout, and the survivors are reported as "surviving", then the
      timed-out ones as "timed out". */
  function Run(c: CliConfig.CLIConfig, ms: seq<Mutation>, baseline: TestsResult,
               test: (Mutation, real) -> ResultStatus): (r: Result<seq<Report>, Exception>)
    ensures r.Err? <==> baseline.status == Killed
    ensures r.Err? ==> r.error == ClickException(BaselineFailing)
  {
    if baseline.status == Killed then Err(ClickException(BaselineFailing))
    else
      var t := Timeout(baseline.duration, c.testsTimeout);
      var results := Collect(ms, Outcomes(ms, t, test));
      Ok(Labelled(Lookup(results, "survived"), "surviving") + Labelled(Lookup(results, "timed out"), "timed out"))
  }

  /** What `run` reports, stated without the buckets: the survivors in test order,
      then the timed-out mutations in test order. */
  lemma RunReports(c: CliConfig.CLIConfig, ms: seq<Mutation>, baseline: TestsResult, test: (Mutation, real) -> ResultStatus)
    requires baseline.status != Killed
    ensures var outcomes := Outcomes(ms, Timeout(baseline.duration, c.testsTimeout), test);
            Run(c, ms, baseline, test)
              == Ok(Labelled(Having(ms, outcomes, Survived), "surviving") + Labelled(Having(ms, outcomes, TimedOut), "timed out"))
  {
    var outcomes := Outcomes(ms, Timeout(baseline.duration, c.testsTimeout), test);
    CollectBuckets(ms, outcomes);
    assert StatusText(Survived) == "survived" && StatusText(TimedOut) == "timed out";
  }

  /** Every report names a mutation that was tested with the outcome its status
      text says, and no killed mutation is ever reported. */
  lemma ReportsMatchOutcomes(c: CliConfig.CLIConfig, ms: seq<Mutation>, baseline: TestsResult,
                             test: (Mutation, real) -> ResultStatus, k: nat)
    requires baseline.status != Killed
    requires Run(c, ms, baseline, test).Ok? && k < |Run(c, ms, baseline, test).value|
    ensures var rep := Run(c, ms, baseline, test).value[k];
            var t := Timeout(baseline.duration, c.testsTimeout);
            && rep.mutation in ms
            && (rep.status == "surviving" ==> test(rep.mutation, t) == Survived)
            && (rep.status == "timed out" ==> test(rep.mutation, t) == TimedOut)
            && (rep.status == "surviving" || rep.status == "timed out")
            && test(rep.mutation, t) != Killed
  {
    var t := Timeout(baseline.duration, c.testsTimeout);
    var outcomes := Outcomes(ms, t, test);
    RunReports(c, ms, baseline, test);
    var survivors := Having(ms, outcomes, Survived);
    var late := Having(ms, outcomes, TimedOut);
    var reports := Labelled(survivors, "surviving") + Labelled(late, "timed out");
    if k < |survivors| {
      assert reports[k] == Report(survivors[k], "surviving");
      HavingOutcome(ms, outcomes, Survived, survivors[k]);
    } else {
      assert reports[k] == Report(late[k - |survivors|], "timed out");
      HavingOutcome(ms, outcomes, TimedOut, late[k - |survivors|]);
    }
  }

  /** As many reports as mutations that survived or timed out: all the tested
      mutations but the killed ones. */
  lemma ReportCount(c: CliConfig.CLIConfig, ms: seq<Mutation>, baseline: TestsResult, test: (Mutation, real) -> ResultStatus)
    requires baseline.status != Killed
    ensures var outcomes := Outcomes(ms, Timeout(baseline.duration, c.testsTimeout), test);
            |Run(c, ms, baseline, test).value| == |ms| - |Having(ms, outcomes, Killed)|
  {
    var outcomes := Outcomes(ms, Timeout(baseline.duration, c.testsTimeout), test);
    RunReports(c, ms, baseline, test);
    BucketsPartition(ms, outcomes);
  }
}

=== FILE: cli_utils.dfy ===
/** The helpers the command line reports with: the strict-ancestor test used to
    skip excluded paths, the `path:line` location of a mutation, and the window of
    lines shown around a mutated line. Printing is outside the model; the window
    is the list of rows that would be printed. */
module CliUtils {
  import opened Wrappers
  import opened Errors
  import opened Types
  import opened Mutations
  import Paths
  import Strings
  import Seqs

  /** `is_relative_to(path, parent)`: both paths must be absolute, and then the
      answer is whether `parent` is one of `path.parents`. */
  function IsRelativeTo(path: Paths.Path, parent: Paths.Path): (r: Result<bool, Exception>)
    ensures r.Err? <==> !path.absolute || !parent.absolute
    ensures r.Err? ==> r.error.AssertionError?
  {
    if !path.absolute then Err(AssertionError(""))
    else if !parent.absolute then Err(AssertionError(""))
    else Ok(parent in Paths.Parents(path))
  }

  /** For absolute paths the test holds exactly for the strict ancestors. */
  lemma IsRelativeToStrictAncestor(path: Paths.Path, parent: Paths.Path)
    requires path.absolute && parent.absolute
    ensures IsRelativeTo(path, parent) == Ok(Paths.Under(path, parent) && parent != path)
  {
    var ps := Paths.Parents(path);
    var n := |path.parts|;
    if Paths.Under(path, parent) && parent != path {
      var m := |parent.parts|;
      SameLengthAncestor(path, parent);
      assert ps[n - 1 - m] == parent;
    }
    if parent in ps {
      var k :| 0 <= k < |ps| && ps[k] == parent;
      assert parent.parts == path.parts[..n - 1 - k];
    }
  }

  /** An ancestor as long as the path is the path itself. */
  lemma SameLengthAncestor(path: Paths.Path, parent: Paths.Path)
    ensures Paths.Under(path, parent) && |parent.parts| == |path.parts| ==> parent == path
  {
    if Paths.Under(path, parent) && |parent.parts| == |path.parts| {
      assert path.parts[..|path.parts|] == path.parts;
    }
  }

  /** A path is not relative to itself. */
  lemma NotRelativeToItself(p: Paths.Path)
    requires p.absolute
    ensures IsRelativeTo(p, p) == Ok(false)
  {
    IsRelativeToStrictAncestor(p, p);
  }

  /** `get_mutation_loc(mutation, config=config)`: "" for no mutation, otherwise the
      mutation's file relative to the project root, a colon, and its start line.
      A file outside the root raises pathlib's `ValueError`. */
  function GetMutationLoc(m: Option<Mutation>, root: Paths.Path): (r: Result<string, Exception>)
    ensures m.None? ==> r == Ok("")
    ensures r.Err? <==> m.Some? && !Paths.Under(m.value.context.file.path, root)
    ensures r.Err? ==> r.error.ValueError?
  {
    match m
    case None => Ok("")
    case Some(mu) =>
      var rel :- Paths.RelativeTo(mu.context.file.path, root);
      Ok(Paths.ToString(rel) + ":" + Strings.IntToString(mu.context.node.lineno))
  }

  /** `t` cut at its last colon: the start line's digits come after it, and
      `rel`'s text before it. */
  predicate ReadsBackAs(t: string, rel: Paths.Path, line: int) {
    var n := |Strings.IntToString(line)|;
    && |t| > n && t[|t| - n - 1] == ':' && ':' !in t[|t| - n..]
    && Strings.ParseInt(t[|t| - n..]) == Some(line)
    && Paths.Parse(t[..|t| - n - 1]) == rel
  }

  /** The location reads back: after its last colon is the start line, and before
      it the relative path. */
  lemma MutationLocReadsBack(m: Mutation, root: Paths.Path)
    requires Paths.Under(m.context.file.path, root) && Paths.Valid(m.context.file.path)
    ensures GetMutationLoc(Some(m), root).Ok?
    ensures ReadsBackAs(GetMutationLoc(Some(m), root).value, Paths.RelativeTo(m.context.file.path, root).value, m.context.node.lineno)
  {
    var rel := Paths.RelativeTo(m.context.file.path, root).value;
    RelativeValid(m.context.file.path, root);
    assert GetMutationLoc(Some(m), root).value == Paths.ToString(rel) + ":" + Strings.IntToString(m.context.node.lineno);
    LocReadsBack(rel, m.context.node.lineno);
  }

  /** `path:line` cut at its last colon gives back the path and the line. */
  lemma LocReadsBack(rel: Paths.Path, line: int)
    requires Paths.Valid(rel)
    ensures ReadsBackAs(Paths.ToString(rel) + ":" + Strings.IntToString(line), rel, line)
  {
    var digits := Strings.IntToString(line);
    LocShape(Paths.ToString(rel), digits);
    NoColonInNumber(line);
    Strings.IntToStringRoundTrip(line);
    Paths.ParseToString(rel);
  }

  /** The text `prefix:digits` cut back at its colon. */
  lemma LocShape(prefix: string, digits: string)
    ensures var t := prefix + ":" + digits;
            && |t| == |prefix| + 1 + |digits|
            && t[|t| - |digits|..] == digits && t[|t| - |digits| - 1] == ':' && t[..|t| - |digits| - 1] == prefix
  {
  }

  /** The part of a valid path below a root it is under is valid too. */
  lemma RelativeValid(path: Paths.Path, root: Paths.Path)
    requires Paths.Under(path, root) && Paths.Valid(path)
    ensures Paths.Valid(Paths.RelativeTo(path, root).value)
  {
    var rel := Paths.RelativeTo(path, root).value;
    forall k | 0 <= k < |rel.parts|
      ensures Paths.ValidPart(rel.parts[k])
    {
      assert rel.parts[k] == path.parts[|root.parts| + k];
    }
  }

  /** A decimal rendering holds no colon. */
  lemma NoColonInNumber(i: int)
    ensures ':' !in Strings.IntToString(i)
  {
    var s := Strings.IntToString(i);
    var d := Strings.NatToString(if i < 0 then -i else i);
    assert s == (if i < 0 then "-" + d else d);
    assert forall k :: 0 <= k < |d| ==> d[k] != ':';
  }

  function Max(a: int, b: int): int {
    if a < b then b else a
  }

  function Min(a: int, b: int): int {
    if a < b then a else b
  }

  /** One printed row of `dump_mutation`: the 1-based line number, the line, and
      whether it is printed bold. */
  datatype Row = Row(number: int, text: string, bold: bool)

  /** The rows `dump_mutation` prints below its heading for the mutated text's
      lines: `lines[start:end]` with `start = max(0, lineno - context_lines - 1)`
      and `end = min(len(lines), lineno + context_lines)`, numbered from
      `start + 1`, and bold exactly on the mutation's start line. */
  function WindowRows(lines: seq<string>, lineno: int, contextLines: int): (rows: seq<Row>)
  {
    var start := Max(0, lineno - contextLines - 1);
    var end := Min(|lines|, lineno + contextLines);
    var shown := Seqs.Slice(lines, start, end);
    seq(|shown|, i requires 0 <= i < |shown| => Row(i + start + 1, shown[i], i + start + 1 == lineno))
  }

  /** Whatever the arguments, each row shows the line its number names, the rows
      are consecutive, and only the start line is bold. */
  lemma RowsShowTheirLines(lines: seq<string>, lineno: int, contextLines: int)
    ensures var rows := WindowRows(lines, lineno, contextLines);
            forall i :: 0 <= i < |rows| ==>
              && 1 <= rows[i].number <= |lines| && rows[i].text == lines[rows[i].number - 1]
              && rows[i].number == rows[0].number + i
              && (rows[i].bold <==> rows[i].number == lineno)
  {
    var start := Max(0, lineno - contextLines - 1);
    assert Seqs.SliceBound(start, |lines|) == start || |lines| < start;
  }

  /** For a start line inside the file and a non-negative context, the window runs
      from `context_lines` lines before the start line to `context_lines` after it,
      cut at both ends of the file: it holds the start line and at most
      `2 * context_lines + 1` rows. */
  lemma WindowAroundLine(lines: seq<string>, lineno: int, contextLines: int)
    requires 1 <= lineno <= |lines| && contextLines >= 0
    ensures var rows := WindowRows(lines, lineno, contextLines);
            && 1 <= |rows| <= 2 * contextLines + 1
            && rows[0].number == Max(1, lineno - contextLines)
            && rows[|rows| - 1].number == Min(|lines|, lineno + contextLines)
            && rows[lineno - rows[0].number].number == lineno
            && rows[lineno - rows[0].number].bold
  {
    RowsShowTheirLines(lines, lineno, contextLines);
  }

  /** The default two lines of context around line 5 of a seven-line file show
      lines 3 to 7; three lines of context show lines 2 to 7; one line of context
      around line 1 shows lines 1 and 2. */
  lemma WindowExamples()
    ensures var rows := WindowRows(["a", "", "", "d", "e", "f", "g"], 5, 2);
            |rows| == 5 && rows[0].number == 3 && rows[4].number == 7
    ensures var rows := WindowRows(["a", "", "", "d", "e", "f", "g"], 5, 3);
            |rows| == 6 && rows[0].number == 2 && rows[5].number == 7
    ensures var rows := WindowRows(["a", "", "", "d", "e", "f", "g"], 1, 1);
            |rows| == 2 && rows[0] == Row(1, "a", true) && rows[1] == Row(2, "", false)
  {
  }
}

=== FILE: comparisons.dfy ===
/** The comparison switch: every operator of a comparison chain, one position at a
    time, is replaced by each of its alternatives in the table. */
module Comparisons {
  import opened Wrappers
  import opened Types
  import opened Ast
  import opened Mutations
  import Seqs

  /** `<`, `<=`, `>` and `>=`: the operators with two alternatives. */
  predicate Ordering(o: CmpOperator) {
    o in {Lt, LtE, Gt, GtE}
  }

  /** The logical complement of each operator. */
  function Negation(o: CmpOperator): (r: CmpOperator)
    ensures r != o && Ordering(r) == Ordering(o)
  {
    match o
    case Eq => NotEq
    case NotEq => Eq
    case Lt => GtE
    case GtE => Lt
    case LtE => Gt
    case Gt => LtE
    case Is => IsNot
    case IsNot => Is
    case In => NotIn
    case NotIn => In
  }

  /** What the six arithmetic comparisons mean on integers. */
  predicate Holds(o: CmpOperator, x: int, y: int)
    requires !(o in {Is, IsNot, In, NotIn})
  {
    match o
    case Eq => x == y
    case NotEq => x != y
    case Lt => x < y
    case LtE => x <= y
    case Gt => x > y
    case GtE => x >= y
  }

  /** The complement holds exactly when the operator does not. */
  lemma NegationComplements(o: CmpOperator, x: int, y: int)
    requires !(o in {Is, IsNot, In, NotIn})
    ensures Holds(Negation(o), x, y) <==> !Holds(o, x, y)
  {
  }

  lemma NegationInvolution(o: CmpOperator)
    ensures Negation(Negation(o)) == o
  {
  }

  /** `MAPPING[type(op)]`: one alternative, or two for an ordering; never the
      operator itself; and the last one listed is its negation. */
  function Replacements(o: CmpOperator): seq<CmpOperator> {
    match o
    case In => [NotIn]
    case NotIn => [In]
    case Gt => [GtE, LtE]
    case GtE => [Gt, Lt]
    case Lt => [LtE, GtE]
    case LtE => [Lt, Gt]
    case Eq => [NotEq]
    case NotEq => [Eq]
    case Is => [IsNot]
    case IsNot => [Is]
  }

  /** Each operator has one alternative, or two for an ordering; never itself;
      and the last alternative listed is its negation. */
  lemma ReplacementsTable(o: CmpOperator)
    ensures var r := Replacements(o);
      && |r| == (if Ordering(o) then 2 else 1)
      && o !in r
      && r[|r| - 1] == Negation(o)
  {
  }

  /** The operators of a comparison, in chain order. */
  function OpsOf(n: Node): (os: seq<CmpOperator>)
    requires IsCompare(n)
    ensures |os| == |n.fields[1].items|
    ensures forall k :: 0 <= k < |os| ==> n.fields[1].items[k] == Op(OpCmp(os[k]))
  {
    seq(|n.fields[1].items|, k requires 0 <= k < |n.fields[1].items| => n.fields[1].items[k].op.cmp)
  }

  /** A node whose second field is a list with one slot per operator of `os`. */
  predicate Slots(n: Node, os: seq<CmpOperator>) {
    |n.fields| == 3 && n.fields[1].List? && |n.fields[1].items| == |os|
  }

  /** `new_node = deepcopy(node); new_node.ops[index] = new_op`: the node with slot
      `i` of its operator list holding `o` and everything else as it was. */
  function SetOp(n: Node, i: nat, o: CmpOperator): Node
    requires |n.fields| == 3 && n.fields[1].List? && i < |n.fields[1].items|
  {
    n.(fields := n.fields[1 := List(n.fields[1].items[i := Op(OpCmp(o))])])
  }

  /** The copy is a comparison of the same length, position, left operand and
      comparators that holds `o` at position `i` and the original operator at
      every other position. */
  lemma SetOpOnlyThere(n: Node, i: nat, o: CmpOperator)
    requires IsCompare(n) && i < |OpsOf(n)|
    ensures var r := SetOp(n, i, o);
      && IsCompare(r) && OpsOf(r) == OpsOf(n)[i := o]
      && r.kind == n.kind && r.attrs == n.attrs && r.fields[0] == n.fields[0] && r.fields[2] == n.fields[2]
  {
    var r := SetOp(n, i, o);
    assert OpsOf(r) == OpsOf(n)[i := o];
  }

  /** The mutations for position `i`, one per replacement in table order. */
  function AtPosition(n: Node, os: seq<CmpOperator>, c: Context, i: nat): seq<Mutation>
    requires Slots(n, os) && i < |os|
  {
    var reps := Replacements(os[i]);
    seq(|reps|, j requires 0 <= j < |reps| => FromNode(SetOp(n, i, reps[j]), c))
  }

  /** The mutations of every position, position by position. */
  function Blocks(n: Node, os: seq<CmpOperator>, c: Context): (r: seq<seq<Mutation>>)
    requires Slots(n, os)
  {
    seq(|os|, i requires 0 <= i < |os| => AtPosition(n, os, c, i))
  }

  /** `switch_compare_ops(node, context)`. */
  function SwitchCompareOps(n: Node, c: Context): (r: seq<Mutation>)
    ensures !IsCompare(n) ==> r == []
  {
    if IsCompare(n) then Seqs.Concat(Blocks(n, OpsOf(n), c)) else []
  }

  /** How many mutations the operators before position `i` contribute. */
  function Offset(os: seq<CmpOperator>, i: nat): nat
    requires i <= |os|
  {
    if i == 0 then 0 else Offset(os, i - 1) + |Replacements(os[i - 1])|
  }

  /** The positions before `k` contribute `Offset(os, k)` mutations. */
  lemma {:induction false} OffsetCountsBlocks(n: Node, os: seq<CmpOperator>, c: Context, k: nat)
    requires Slots(n, os) && k <= |os|
    ensures |Seqs.Concat(Blocks(n, os, c)[..k])| == Offset(os, k)
  {
    if k > 0 {
      OffsetCountsBlocks(n, os, c, k - 1);
      Seqs.ConcatSnoc(Blocks(n, os, c), k - 1);
    }
  }

  /** The comparison's mutations run over the positions in order, and over each
      position's replacements in table order: the one at offset `Offset(os, k) + j`
      puts the `j`-th replacement at position `k`, and there are no others. */
  lemma SwitchCompareOpsAt(n: Node, c: Context, k: nat, j: nat)
    requires IsCompare(n) && k < |OpsOf(n)| && j < |Replacements(OpsOf(n)[k])|
    ensures |SwitchCompareOps(n, c)| == Offset(OpsOf(n), |OpsOf(n)|)
    ensures Offset(OpsOf(n), k) + j < |SwitchCompareOps(n, c)|
    ensures SwitchCompareOps(n, c)[Offset(OpsOf(n), k) + j] == FromNode(SetOp(n, k, Replacements(OpsOf(n)[k])[j]), c)
  {
    var os := OpsOf(n);
    var blocks := Blocks(n, os, c);
    OffsetCountsBlocks(n, os, c, k);
    OffsetCountsBlocks(n, os, c, |os|);
    assert blocks[..|os|] == blocks;
    Seqs.ConcatAt(blocks, k, j);
  }

  /** The number of orderings among the first `i` operators. */
  function Orderings(os: seq<CmpOperator>, i: nat): nat
    requires i <= |os|
  {
    if i == 0 then 0 else Orderings(os, i - 1) + (if Ordering(os[i - 1]) then 1 else 0)
  }

  lemma {:induction false} OffsetCounts(os: seq<CmpOperator>, i: nat)
    requires i <= |os|
    ensures Offset(os, i) == i + Orderings(os, i)
  {
    if i > 0 {
      OffsetCounts(os, i - 1);
      ReplacementsTable(os[i - 1]);
    }
  }

  /** Two mutations per ordering operator and one per other operator. */
  lemma SwitchCompareOpsCount(n: Node, c: Context)
    requires IsCompare(n)
    ensures |SwitchCompareOps(n, c)| == |OpsOf(n)| + Orderings(OpsOf(n), |OpsOf(n)|)
  {
    var os := OpsOf(n);
    OffsetCountsBlocks(n, os, c, |os|);
    assert Blocks(n, os, c)[..|os|] == Blocks(n, os, c);
    OffsetCounts(os, |os|);
  }

  /** `3 > 1 == 2` gives three mutations: `>=` and `<=` in the first position, then
      `!=` in the second. */
  lemma ChainExample(a: Attrs, x: Node, y: Node, z: Node, c: Context)
    ensures var n := Compare(a, x, [Gt, Eq], [y, z]);
      && IsCompare(n)
      && SwitchCompareOps(n, c) == [FromNode(SetOp(n, 0, GtE), c), FromNode(SetOp(n, 0, LtE), c), FromNode(SetOp(n, 1, NotEq), c)]
  {
    var n := Compare(a, x, [Gt, Eq], [y, z]);
    ConstructorShapes(a, x, x, [y, z], [Gt, Eq], NoneLit, None);
    var os := OpsOf(n);
    assert os == [Gt, Eq];
    var blocks := Blocks(n, os, c);
    assert blocks[0] == [FromNode(SetOp(n, 0, GtE), c), FromNode(SetOp(n, 0, LtE), c)];
    assert blocks[1] == [FromNode(SetOp(n, 1, NotEq), c)];
    assert blocks[1..][1..] == [];
    assert Seqs.Concat(blocks) == blocks[0] + (blocks[1] + Seqs.Concat([]));
  }
}

=== FILE: constants.dfy ===
/** The constant perturbation: strings and bytes are wrapped in a sentinel, and an
    integer is replaced by each of its neighbours and by 0 and 1. */
module Constants {
  import opened Wrappers
  import opened Types
  import opened Ast
  import opened Mutations

  /** `f"XXX{s}XXX"`. */
  function Wrap(s: string): (r: string)
    ensures |r| == |s| + 6 && r[3..|s| + 3] == s
    ensures r != s
  {
    "XXX" + s + "XXX"
  }

  /** `b"XXX%bXXX" % s`: the same sentinel as bytes (`X` is 0x58). */
  function WrapBytes(s: seq<bv8>): (r: seq<bv8>)
    ensures |r| == |s| + 6 && r[3..|s| + 3] == s
    ensures r != s
  {
    [0x58, 0x58, 0x58] + s + [0x58, 0x58, 0x58]
  }

  /** The replacement set `{0, 1, v - 1, v + 1} - {v}`. */
  function Neighbourhood(v: int): set<int> {
    {0, 1, v - 1, v + 1} - {v}
  }

  /** That set listed in ascending order (`sorted(values)`), case by case: the
      four candidates collide only when `v` is -1, 0, 1 or 2. */
  function IntReplacements(v: int): (r: seq<int>)
    ensures forall x :: x in r <==> x in Neighbourhood(v)
    ensures Ascending(r)
    ensures 2 <= |r| <= 4 && v !in r
  {
    if v < -1 then [v - 1, v + 1, 0, 1]
    else if v == -1 then [-2, 0, 1]
    else if v == 0 then [-1, 1]
    else if v == 1 then [0, 2]
    else if v == 2 then [0, 1, 3]
    else [0, 1, v - 1, v + 1]
  }

  /** One mutation per replacement value, in order, each a fresh constant without a kind. */
  function IntMutations(vs: seq<int>, c: Context): (r: seq<Mutation>)
    ensures |r| == |vs|
  {
    seq(|vs|, k requires 0 <= k < |vs| => FromNode(Constant(FreshAttrs, IntLit(vs[k]), None), c))
  }

  /** `modify_constants(node, context)`. Floating-point and complex numbers are not
      modelled; booleans and `None` are not numbers and get nothing. */
  function ModifyConstants(n: Node, c: Context): (r: seq<Mutation>)
    ensures !IsConstant(n) ==> r == []
  {
    if IsConstant(n) then
      match n.fields[0].value
      case StrLit(s) => [FromNode(Constant(FreshAttrs, StrLit(Wrap(s)), None), c)]
      case BytesLit(b) => [FromNode(Constant(FreshAttrs, BytesLit(WrapBytes(b)), None), c)]
      case IntLit(v) => IntMutations(IntReplacements(v), c)
      case _ => []
    else []
  }

  /** On a constant: a string or bytes value gives one mutation holding the wrapped
      value, an integer one per replacement value, anything else none. Every
      mutation is a fresh constant without a kind, whose tree is its node, in the
      given context, and none holds the original value. */
  lemma ModifyConstantsOf(a: Attrs, v: Literal, kind: Option<string>, c: Context)
    ensures var r := ModifyConstants(Constant(a, v, kind), c);
      && |r| == (match v case StrLit(_) => 1 case BytesLit(_) => 1 case IntLit(i) => |IntReplacements(i)| case _ => 0)
      && (forall k :: 0 <= k < |r| ==>
            && r[k].tree == r[k].node && r[k].context == c
            && r[k].node.kind == ConstantKind && r[k].node.attrs == FreshAttrs
            && |r[k].node.fields| == 2 && r[k].node.fields[1] == Atom(NoneLit)
            && r[k].node.fields[0] != Atom(v))
      && (v.StrLit? ==> r[0].node.fields[0] == Atom(StrLit(Wrap(v.s))))
      && (v.BytesLit? ==> r[0].node.fields[0] == Atom(BytesLit(WrapBytes(v.bytes))))
      && (v.IntLit? ==> forall k :: 0 <= k < |r| ==> r[k].node.fields[0] == Atom(IntLit(IntReplacements(v.i)[k])))
  {
  }

  /** The worked examples: 5, 1, 0 and 2. */
  lemma IntReplacementsExamples()
    ensures IntReplacements(5) == [0, 1, 4, 6]
    ensures IntReplacements(1) == [0, 2]
    ensures IntReplacements(0) == [-1, 1]
    ensures IntReplacements(2) == [0, 1, 3]
  {
  }

  /** Strictly ascending. */
  predicate Ascending(r: seq<int>) {
    forall i, j :: 0 <= i < j < |r| ==> r[i] < r[j]
  }

  /** The head of an ascending list is below every later value. */
  lemma HeadBelowTail(r: seq<int>, x: int)
    requires Ascending(r) && r != [] && x in r[1..]
    ensures r[0] < x
  {
    var i :| 0 <= i < |r[1..]| && r[1..][i] == x;
    assert r[i + 1] == x;
  }

  /** The head of an ascending list is its least value. */
  lemma HeadLeast(r: seq<int>, x: int)
    requires Ascending(r) && x in r
    ensures r[0] <= x
  {
    var i :| 0 <= i < |r| && r[i] == x;
    if i > 0 {
      assert r[0] < r[i];
    }
  }

  /** A value of a list other than its head lies in its tail. */
  lemma InTail(r: seq<int>, x: int)
    requires x in r && r != [] && x != r[0]
    ensures x in r[1..]
  {
    var i :| 0 <= i < |r| && r[i] == x;
    assert r[1..][i - 1] == x;
  }

  /** Lists of the same values whose heads agree have tails of the same values. */
  lemma TailsSameValues(r: seq<int>, q: seq<int>, x: int)
    requires Ascending(r) && Ascending(q) && r != [] && q != [] && r[0] == q[0]
    requires forall y :: y in r <==> y in q
    requires x in r[1..]
    ensures x in q[1..]
  {
    HeadBelowTail(r, x);
    assert x in r;
    InTail(q, x);
  }

  /** Any two ascending lists of the same values are equal, so the case table is
      the one and only ascending listing of the replacement set. */
  lemma {:induction false} AscendingUnique(r: seq<int>, q: seq<int>)
    requires Ascending(r) && Ascending(q)
    requires forall x :: x in r <==> x in q
    ensures r == q
    decreases |r|
  {
    assert r != [] ==> r[0] in r;
    assert q != [] ==> q[0] in q;
    if r != [] && q != [] {
      HeadLeast(r, q[0]);
      HeadLeast(q, r[0]);
      forall x
        ensures x in r[1..] <==> x in q[1..]
      {
        if x in r[1..] {
          TailsSameValues(r, q, x);
        }
        if x in q[1..] {
          TailsSameValues(q, r, x);
        }
      }
      assert Ascending(r[1..]) && Ascending(q[1..]);
      AscendingUnique(r[1..], q[1..]);
      assert r == [r[0]] + r[1..] && q == [q[0]] + q[1..];
    }
  }

  /** `sorted({0, 1, v - 1, v + 1} - {v})` is the case table. */
  lemma IntReplacementsSorted(v: int, sorted: seq<int>)
    requires Ascending(sorted)
    requires forall x :: x in sorted <==> x in Neighbourhood(v)
    ensures IntReplacements(v) == sorted
  {
    AscendingUnique(IntReplacements(v), sorted);
  }
}

=== FILE: context.dfy ===
/** Deriving the context of a node from the context of its parent: each position
    attribute the node has wins, each it lacks is inherited. */
module Contexts {
  import opened Wrappers
  import opened Types
  import opened Ast

  /** `get_context(node, parent_context)`. The payload is never inherited. */
  function GetContext(n: Node, parent: Context): (c: Context)
    ensures c.file == parent.file && c.extra.None?
    ensures n.attrs.lineno.Has? ==> c.node.lineno == n.attrs.lineno.value
    ensures n.attrs.lineno.Missing? ==> c.node.lineno == parent.node.lineno
    ensures n.attrs.endLineno.Has? ==> c.node.endLineno == n.attrs.endLineno.value
    ensures n.attrs.endLineno.Missing? ==> c.node.endLineno == parent.node.endLineno
    ensures n.attrs.colOffset.Has? ==> c.node.colOffset == n.attrs.colOffset.value
    ensures n.attrs.colOffset.Missing? ==> c.node.colOffset == parent.node.colOffset
    ensures n.attrs.endColOffset.Has? ==> c.node.endColOffset == n.attrs.endColOffset.value
    ensures n.attrs.endColOffset.Missing? ==> c.node.endColOffset == parent.node.endColOffset
  {
    Context(
      parent.file,
      NodeContext(
        n.attrs.lineno.GetOr(parent.node.lineno),
        n.attrs.endLineno.GetOr(parent.node.endLineno),
        n.attrs.colOffset.GetOr(parent.node.colOffset),
        n.attrs.endColOffset.GetOr(parent.node.endColOffset)),
      None)
  }

  /** The span a node would report whatever its parent: it has all four attributes. */
  predicate Positioned(n: Node) {
    n.attrs.lineno.Has? && n.attrs.endLineno.Has? && n.attrs.colOffset.Has? && n.attrs.endColOffset.Has?
  }

  /** A positioned node's span does not depend on its parent's. */
  lemma PositionedIgnoresParent(n: Node, p: Context, q: Context)
    requires Positioned(n)
    ensures GetContext(n, p).node == GetContext(n, q).node
  {
  }

  /** A node without any position (a module, say) passes its parent's span on unchanged. */
  lemma UnpositionedInherits(n: Node, p: Context)
    requires n.attrs == NoAttrs
    ensures GetContext(n, p) == Context(p.file, p.node, None)
  {
  }

  /** A node built by a mutator keeps its parent's start but has no end: its class
      says `None` for the end line and end column. */
  lemma FreshNodeContext(n: Node, p: Context)
    requires n.attrs == FreshAttrs
    ensures GetContext(n, p).node == NodeContext(p.node.lineno, None, p.node.colOffset, None)
  {
  }

  /** Deriving twice from the same node changes nothing more. */
  lemma GetContextIdempotent(n: Node, p: Context)
    ensures GetContext(n, GetContext(n, p)) == GetContext(n, p)
  {
  }
}

=== FILE: errors.dfy ===
/** The exceptions the core raises, as values. */
module Errors {

  datatype Exception =
    /** `PurePath.relative_to` on a path outside the given root. */
    | ValueError(message: string)
    /** A failed `assert` statement. */
    | AssertionError(message: string)
    /** A list index outside the list. */
    | IndexError
    /** An attribute looked up on a value that does not have it (`.get` on a non-dict, a missing class method). */
    | AttributeError(name: string)
    /** `click.BadParameter`, raised while validating a command-line parameter. */
    | BadParameter(message: string)
    /** A plain `Exception` raised with a message. */
    | Failure(message: string)
    /** `click.ClickException`, reported to the user and ending the command. */
    | ClickException(message: string)
    /** A key missing from a dictionary looked up with `[]`. */
    | KeyError(key: string)
    /** An operation applied to a value of the wrong type. */
    | TypeError(message: string)
    /** `configparser.NoOptionError`: an option missing from a section read without a fallback. */
    | NoOptionError(option: string)
}

=== FILE: gen.dfy ===
/** The generation engine: a post-order walk over a tree that collects, at every
    node, the mutations of its sub-trees (lifted into the node by replacing the one
    field or list slot they came from) followed by the node's own mutations. */
module Gen {
  import opened Types
  import opened Ast
  import opened Contexts
  import opened Mutations

  /** A mutator: the mutations of one node, given the node's derived context. */
  type Mutator = (Node, Context) -> seq<Mutation>

  /** The mutations every mutator yields for `n`, mutator by mutator in order. */
  function RunMutators(ms: seq<Mutator>, n: Node, c: Context): seq<Mutation> {
    if ms == [] then [] else ms[0](n, c) + RunMutators(ms[1..], n, c)
  }

  /** Running two lists of mutators one after the other is running their concatenation. */
  lemma {:induction false} RunMutatorsAppend(a: seq<Mutator>, b: seq<Mutator>, n: Node, c: Context)
    ensures RunMutators(a + b, n, c) == RunMutators(a, n, c) + RunMutators(b, n, c)
    decreases |a|
  {
    if a == [] {
      assert a + b == b;
    } else {
      assert (a + b)[1..] == a[1..] + b;
      RunMutatorsAppend(a[1..], b, n, c);
    }
  }

  /** Sub-tree mutations seen from `n`: each keeps its node and context, and its
      tree becomes `n` with the sub-tree at step `s` replaced by the mutation's tree. */
  function Lift(muts: seq<Mutation>, n: Node, s: Step): (r: seq<Mutation>)
    requires ValidStep(n, s)
    ensures |r| == |muts|
  {
    seq(|muts|, k requires 0 <= k < |muts| => muts[k].WithTree(PlugStep(n, s, muts[k].tree)))
  }

  /** The `k`-th lifted mutation keeps its node and context, and its tree is a node
      of the kind and position of `n` that differs from `n` in the one field, or
      the one list slot, the step names, which now holds the mutation's tree. */
  lemma LiftReplacesOneSlot(muts: seq<Mutation>, n: Node, s: Step, k: nat)
    requires ValidStep(n, s) && k < |muts|
    ensures Lift(muts, n, s)[k].node == muts[k].node && Lift(muts, n, s)[k].context == muts[k].context
    ensures Lift(muts, n, s)[k].tree.kind == n.kind && Lift(muts, n, s)[k].tree.attrs == n.attrs
    ensures forall i :: 0 <= i < |n.fields| && i != s.field ==> Lift(muts, n, s)[k].tree.fields[i] == n.fields[i]
    ensures ValidStep(Lift(muts, n, s)[k].tree, s) && ChildAt(Lift(muts, n, s)[k].tree, s) == muts[k].tree
  {
    var t := muts[k].tree;
    assert Lift(muts, n, s)[k] == muts[k].WithTree(PlugStep(n, s, t));
    forall i | 0 <= i < |n.fields| && i != s.field
      ensures PlugStep(n, s, t).fields[i] == n.fields[i]
    {
      PlugStepElsewhere(n, s, t, i, 0);
    }
  }

  lemma LiftAppend(a: seq<Mutation>, b: seq<Mutation>, n: Node, s: Step)
    requires ValidStep(n, s)
    ensures Lift(a + b, n, s) == Lift(a, n, s) + Lift(b, n, s)
  {
    var l, r := Lift(a + b, n, s), Lift(a, n, s) + Lift(b, n, s);
    forall k | 0 <= k < |l|
      ensures l[k] == r[k]
    {
      if k < |a| {
        assert (a + b)[k] == a[k];
      } else {
        assert (a + b)[k] == b[k - |a|];
      }
    }
  }

  /** `gen_mutations(n, parent_context=parent, mutators=ms)`. */
  function GenMutations(n: Node, parent: Context, ms: seq<Mutator>): seq<Mutation>
    decreases n, 2
  {
    var c := GetContext(n, parent);
    GenFields(n, c, ms, 0) + RunMutators(ms, n, c)
  }

  /** The sub-tree mutations of the fields of `n` from the `i`-th on, in field order.
      Operators, plain values and anything else that is not a tree are skipped. */
  function GenFields(n: Node, c: Context, ms: seq<Mutator>, i: nat): seq<Mutation>
    requires i <= |n.fields|
    decreases n, 1, |n.fields| - i
  {
    if i == |n.fields| then []
    else
      var here :=
        match n.fields[i]
        case Tree(_) => Lift(GenMutations(ChildAt(n, FieldStep(i)), c, ms), n, FieldStep(i))
        case List(_) => GenItems(n, c, ms, i, 0)
        case _ => [];
      here + GenFields(n, c, ms, i + 1)
  }

  /** The sub-tree mutations of the items of the `i`-th field, a list, from the
      `j`-th item on, in index order. Items that are not trees are skipped. */
  function GenItems(n: Node, c: Context, ms: seq<Mutator>, i: nat, j: nat): seq<Mutation>
    requires i < |n.fields| && n.fields[i].List? && j <= |n.fields[i].items|
    decreases n, 0, |n.fields[i].items| - j
  {
    if j == |n.fields[i].items| then []
    else
      var here :=
        if n.fields[i].items[j].Tree? then Lift(GenMutations(ChildAt(n, ItemStep(i, j)), c, ms), n, ItemStep(i, j))
        else [];
      here + GenItems(n, c, ms, i, j + 1)
  }

  /** The node's own mutations come last, after every sub-tree's, in mutator order. */
  lemma OwnMutationsLast(n: Node, parent: Context, ms: seq<Mutator>)
    ensures
      var r := GenMutations(n, parent, ms);
      var own := RunMutators(ms, n, GetContext(n, parent));
      |own| <= |r| && r[|r| - |own|..] == own
  {
    var c := GetContext(n, parent);
    var below, own := GenFields(n, c, ms, 0), RunMutators(ms, n, c);
    assert GenMutations(n, parent, ms) == below + own;
    assert (below + own)[|below|..] == own;
  }
}

=== FILE: gen_examples.dfy ===
/** The engine's worked examples: the visiting order and the derived contexts of
    `a + 6 * 3` and of `1 < 2 < 3`, parsed at line 1 of a file `a.py`. */
module GenExamples {
  import opened Wrappers
  import opened Types
  import opened Ast
  import opened Mutations
  import opened Gen
  import opened GenSpec
  import Paths
  import opened Contexts
  import opened Samples

  /** `6 * 3` at columns 4 to 9. */
  function Product(): Node {
    BinOp(Span(1, 1, 4, 9), Int(6, 4), Mult, Int(3, 8))
  }

  /** `a + 6 * 3` at columns 0 to 9. */
  function Sum(): Node {
    BinOp(Span(1, 1, 0, 9), Name("a", 0), Add, Product())
  }

  /** `1 < 2 < 3` at columns 0 to 9. */
  function Chain(): Node {
    Compare(Span(1, 1, 0, 9), Int(1, 0), [Lt, Lt], [Int(2, 4), Int(3, 8)])
  }

  /** A node none of whose fields is a sub-tree or a list: a name, a literal. */
  predicate Leaf(n: Node) {
    forall k :: 0 <= k < |n.fields| ==> n.fields[k].Op? || n.fields[k].Atom?
  }

  lemma {:induction false} NoSubtreeFields(n: Node, c: Context, i: nat)
    requires i <= |n.fields| && Leaf(n)
    ensures FieldVisits(n, c, i) == []
    decreases |n.fields| - i
  {
    if i < |n.fields| {
      NoSubtreeFields(n, c, i + 1);
      FieldVisitsPlain(n, c, i);
    }
  }

  /** A leaf is visited alone. */
  lemma LeafVisits(n: Node, parent: Context)
    requires Leaf(n)
    ensures Visits(n, parent) == [Visit([], n, GetContext(n, parent))]
  {
    NoSubtreeFields(n, GetContext(n, parent), 0);
  }

  /** The visit of a leaf child, seen from its parent. */
  lemma LeafUnder(s: Step, child: Node, c: Context)
    requires Leaf(child)
    ensures Under(s, Visits(child, c)) == [Visit([s], child, GetContext(child, c))]
  {
    LeafVisits(child, c);
    assert [s] + [] == [s];
  }

  /** A binary operation visits its left operand, then its right operand, then itself. */
  lemma BinOpVisits(a: Attrs, l: Node, o: BinOperator, r: Node, parent: Context)
    ensures
      var n := BinOp(a, l, o, r);
      var c := GetContext(n, parent);
      Visits(n, parent) == Under(FieldStep(0), Visits(l, c)) + Under(FieldStep(2), Visits(r, c)) + [Visit([], n, c)]
  {
    var n := BinOp(a, l, o, r);
    var c := GetContext(n, parent);
    assert FieldVisits(n, c, 3) == [];
    FieldVisitsTree(n, c, 2);
    FieldVisitsPlain(n, c, 1);
    FieldVisitsTree(n, c, 0);
    assert Under(FieldStep(2), Visits(r, c)) + [] == Under(FieldStep(2), Visits(r, c));
  }

  /** A binary operation of two leaves: three visits. */
  lemma BinOpOfLeaves(a: Attrs, l: Node, o: BinOperator, r: Node, parent: Context)
    requires Leaf(l) && Leaf(r)
    ensures
      var n := BinOp(a, l, o, r);
      var c := GetContext(n, parent);
      Visits(n, parent) == [
        Visit([FieldStep(0)], l, GetContext(l, c)),
        Visit([FieldStep(2)], r, GetContext(r, c)),
        Visit([], n, c)]
  {
    var n := BinOp(a, l, o, r);
    var c := GetContext(n, parent);
    BinOpVisits(a, l, o, r, parent);
    LeafUnder(FieldStep(0), l, c);
    LeafUnder(FieldStep(2), r, c);
  }

  /** A binary operation of two leaves, seen from its parent through step `s`. */
  lemma BinOpOfLeavesUnder(s: Step, a: Attrs, l: Node, o: BinOperator, r: Node, c: Context)
    requires Leaf(l) && Leaf(r)
    ensures
      var n := BinOp(a, l, o, r);
      var d := GetContext(n, c);
      Under(s, Visits(n, c)) == [
        Visit([s, FieldStep(0)], l, GetContext(l, d)),
        Visit([s, FieldStep(2)], r, GetContext(r, d)),
        Visit([s], n, d)]
  {
    var n := BinOp(a, l, o, r);
    var d := GetContext(n, c);
    BinOpOfLeaves(a, l, o, r, c);
    var v0, v1, v2 := Visit([FieldStep(0)], l, GetContext(l, d)), Visit([FieldStep(2)], r, GetContext(r, d)), Visit([], n, d);
    UnderThree(s, v0, v1, v2);
    assert [s] + [FieldStep(0)] == [s, FieldStep(0)];
    assert [s] + [FieldStep(2)] == [s, FieldStep(2)];
    assert [s] + [] == [s];
  }

  /** Three visits seen from the parent, one by one. */
  lemma UnderThree(s: Step, v0: Visit, v1: Visit, v2: Visit)
    ensures Under(s, [v0, v1, v2]) == [
      Visit([s] + v0.path, v0.node, v0.context),
      Visit([s] + v1.path, v1.node, v1.context),
      Visit([s] + v2.path, v2.node, v2.context)]
  {
    var w0, w1, w2 := Visit([s] + v0.path, v0.node, v0.context), Visit([s] + v1.path, v1.node, v1.context), Visit([s] + v2.path, v2.node, v2.context);
    assert [v2][1..] == [];
    assert Under(s, [v2]) == [w2] + [];
    assert [v1, v2][1..] == [v2];
    assert Under(s, [v1, v2]) == [w1] + [w2];
    assert [v0, v1, v2][1..] == [v1, v2];
    assert Under(s, [v0, v1, v2]) == [w0] + [w1, w2];
  }

  /** A binary operation whose right operand is itself a binary operation of two
      leaves, as in `a + 6 * 3`: the inner operation's visits come, one step deeper,
      between the left operand's and the outer operation's own. */
  lemma NestedBinOp(a: Attrs, l: Node, o: BinOperator, ra: Attrs, rl: Node, ro: BinOperator, rr: Node, parent: Context)
    requires Leaf(l) && Leaf(rl) && Leaf(rr)
    ensures
      var r := BinOp(ra, rl, ro, rr);
      var n := BinOp(a, l, o, r);
      var c := GetContext(n, parent);
      var d := GetContext(r, c);
      Visits(n, parent) == [
        Visit([FieldStep(0)], l, GetContext(l, c)),
        Visit([FieldStep(2), FieldStep(0)], rl, GetContext(rl, d)),
        Visit([FieldStep(2), FieldStep(2)], rr, GetContext(rr, d)),
        Visit([FieldStep(2)], r, d),
        Visit([], n, c)]
  {
    var r := BinOp(ra, rl, ro, rr);
    var n := BinOp(a, l, o, r);
    var c := GetContext(n, parent);
    BinOpVisits(a, l, o, r, parent);
    LeafUnder(FieldStep(0), l, c);
    BinOpOfLeavesUnder(FieldStep(2), ra, rl, ro, rr, c);
  }

  /** The operators of a comparison are never visited. */
  lemma {:induction false} CompareOpsSkipped(a: Attrs, l: Node, os: seq<CmpOperator>, cs: seq<Node>, c: Context, j: nat)
    requires j <= |os|
    ensures ItemVisits(Compare(a, l, os, cs), c, 1, j) == []
    decreases |os| - j
  {
    if j < |os| {
      CompareOpsSkipped(a, l, os, cs, c, j + 1);
      ItemVisitsPlain(Compare(a, l, os, cs), c, 1, j);
    }
  }

  /** A comparison visits its left operand, then its comparators, then itself. */
  lemma CompareVisits(a: Attrs, l: Node, os: seq<CmpOperator>, cs: seq<Node>, parent: Context)
    ensures
      var n := Compare(a, l, os, cs);
      var c := GetContext(n, parent);
      Visits(n, parent) == Under(FieldStep(0), Visits(l, c)) + ItemVisits(n, c, 2, 0) + [Visit([], n, c)]
  {
    var n := Compare(a, l, os, cs);
    var c := GetContext(n, parent);
    var items := ItemVisits(n, c, 2, 0);
    assert FieldVisits(n, c, 3) == [];
    FieldVisitsList(n, c, 2);
    assert FieldVisits(n, c, 2) == items + [] == items;
    CompareOpsSkipped(a, l, os, cs, c, 0);
    FieldVisitsList(n, c, 1);
    assert FieldVisits(n, c, 1) == [] + items == items;
    FieldVisitsTree(n, c, 0);
    assert Visits(n, parent) == FieldVisits(n, c, 0) + [Visit([], n, c)];
  }

  /** Two leaf comparators are visited in index order. */
  lemma TwoLeafComparators(a: Attrs, l: Node, os: seq<CmpOperator>, x: Node, y: Node, c: Context)
    requires Leaf(x) && Leaf(y)
    ensures
      var n := Compare(a, l, os, [x, y]);
      ItemVisits(n, c, 2, 0) == [Visit([ItemStep(2, 0)], x, GetContext(x, c)), Visit([ItemStep(2, 1)], y, GetContext(y, c))]
  {
    var n := Compare(a, l, os, [x, y]);
    assert ItemVisits(n, c, 2, 2) == [];
    ItemVisitsTree(n, c, 2, 1);
    LeafUnder(ItemStep(2, 1), y, c);
    ItemVisitsTree(n, c, 2, 0);
    LeafUnder(ItemStep(2, 0), x, c);
  }

  /** A two-operator comparison of leaves, as in `1 < 2 < 3`: the left operand, then
      the comparators in index order, then the comparison. */
  lemma ChainOfLeaves(a: Attrs, l: Node, os: seq<CmpOperator>, x: Node, y: Node, parent: Context)
    requires Leaf(l) && Leaf(x) && Leaf(y)
    ensures
      var n := Compare(a, l, os, [x, y]);
      var c := GetContext(n, parent);
      Visits(n, parent) == [
        Visit([FieldStep(0)], l, GetContext(l, c)),
        Visit([ItemStep(2, 0)], x, GetContext(x, c)),
        Visit([ItemStep(2, 1)], y, GetContext(y, c)),
        Visit([], n, c)]
  {
    var n := Compare(a, l, os, [x, y]);
    var c := GetContext(n, parent);
    CompareVisits(a, l, os, [x, y], parent);
    TwoLeafComparators(a, l, os, x, y, c);
    LeafUnder(FieldStep(0), l, c);
  }

  /** `a + 6 * 3` visits `a`, `6`, `3`, `6 * 3` and the sum, in that order, each with
      its own span, and never the operators or the name's load context. */
  lemma SumVisits()
    ensures Visits(Sum(), StartContext()) == [
      Visit([FieldStep(0)], Name("a", 0), At(0, 1)),
      Visit([FieldStep(2), FieldStep(0)], Int(6, 4), At(4, 5)),
      Visit([FieldStep(2), FieldStep(2)], Int(3, 8), At(8, 9)),
      Visit([FieldStep(2)], Product(), At(4, 9)),
      Visit([], Sum(), At(0, 9))]
  {
    NestedBinOp(Span(1, 1, 0, 9), Name("a", 0), Add, Span(1, 1, 4, 9), Int(6, 4), Mult, Int(3, 8), StartContext());
  }

  /** `1 < 2 < 3` visits `1`, `2`, `3` and the comparison: four nodes. */
  lemma ChainVisits()
    ensures Visits(Chain(), StartContext()) == [
      Visit([FieldStep(0)], Int(1, 0), At(0, 1)),
      Visit([ItemStep(2, 0)], Int(2, 4), At(4, 5)),
      Visit([ItemStep(2, 1)], Int(3, 8), At(8, 9)),
      Visit([], Chain(), At(0, 9))]
  {
    ChainOfLeaves(Span(1, 1, 0, 9), Int(1, 0), [Lt, Lt], Int(2, 4), Int(3, 8), StartContext());
  }

  /** With the identity mutator the engine yields five mutations for `a + 6 * 3` and
      four for `1 < 2 < 3`, each holding the whole unchanged expression. */
  lemma IdentityCounts()
    ensures |GenMutations(Sum(), StartContext(), [Identity])| == 5
    ensures forall k :: 0 <= k < 5 ==> GenMutations(Sum(), StartContext(), [Identity])[k].tree == Sum()
    ensures |GenMutations(Chain(), StartContext(), [Identity])| == 4
    ensures forall k :: 0 <= k < 4 ==> GenMutations(Chain(), StartContext(), [Identity])[k].tree == Chain()
  {
    SumVisits();
    ChainVisits();
    GenIdentity(Sum(), StartContext());
    GenIdentity(Chain(), StartContext());
  }
}

=== FILE: gen_spec.dfy ===
/** A flat description of what the generation engine yields, and the proof that the
    engine yields exactly that. The description lists the visited nodes in post-order,
    each with the path of steps leading to it from the root and with its derived
    context; the engine's output is then, visit by visit, each mutator's mutations
    of the visited node, with the mutated sub-tree plugged back into the root along
    the visit's path. */
module GenSpec {
  import opened Wrappers
  import opened Types
  import opened Ast
  import opened Contexts
  import opened Mutations
  import opened Gen
  import Paths
  import Seqs

  /** A sequence of steps that leads from `n` down to one of its sub-trees. */
  predicate ValidPath(n: Node, path: seq<Step>)
    decreases |path|
  {
    path == [] || (ValidStep(n, path[0]) && ValidPath(ChildAt(n, path[0]), path[1..]))
  }

  /** The sub-tree a valid path leads to. */
  function SubtreeAt(n: Node, path: seq<Step>): Node
    requires ValidPath(n, path)
    decreases |path|
  {
    if path == [] then n else SubtreeAt(ChildAt(n, path[0]), path[1..])
  }

  /** `n` with the sub-tree at `path` replaced by `t`; the path still leads to `t`. */
  function Plug(n: Node, path: seq<Step>, t: Node): (r: Node)
    requires ValidPath(n, path)
    ensures ValidPath(r, path) && SubtreeAt(r, path) == t
    decreases |path|
  {
    if path == [] then t else PlugStep(n, path[0], Plug(ChildAt(n, path[0]), path[1..], t))
  }

  /** Plugging a sub-tree back where it already is changes nothing. */
  lemma {:induction false} PlugSame(n: Node, path: seq<Step>)
    requires ValidPath(n, path)
    ensures Plug(n, path, SubtreeAt(n, path)) == n
    decreases |path|
  {
    if path != [] {
      PlugSame(ChildAt(n, path[0]), path[1..]);
      PlugStepSame(n, path[0]);
    }
  }

  /** One step followed by a path from the child is a path from the parent, and
      only then; it leads where the path leads from the child. */
  lemma ConsPath(n: Node, s: Step, path: seq<Step>, t: Node)
    requires ValidStep(n, s)
    ensures ValidPath(n, [s] + path) <==> ValidPath(ChildAt(n, s), path)
    ensures ValidPath(ChildAt(n, s), path) ==>
      && SubtreeAt(n, [s] + path) == SubtreeAt(ChildAt(n, s), path)
      && Plug(n, [s] + path, t) == PlugStep(n, s, Plug(ChildAt(n, s), path, t))
  {
    assert ([s] + path)[0] == s && ([s] + path)[1..] == path;
  }

  /** A visited node: how to reach it from the root, the node, and its context. */
  datatype Visit = Visit(path: seq<Step>, node: Node, context: Context)

  /** Every visit reaches, along its path from `n`, the node it records. */
  predicate WellFormed(n: Node, vs: seq<Visit>)
    decreases |vs|
  {
    vs == [] || (ValidPath(n, vs[0].path) && SubtreeAt(n, vs[0].path) == vs[0].node && WellFormed(n, vs[1..]))
  }

  /** The visits are well formed exactly when each one is. */
  lemma {:induction false} WellFormedEach(n: Node, vs: seq<Visit>)
    ensures WellFormed(n, vs) <==> forall k :: 0 <= k < |vs| ==> ValidPath(n, vs[k].path) && SubtreeAt(n, vs[k].path) == vs[k].node
    decreases |vs|
  {
    if vs != [] {
      WellFormedEach(n, vs[1..]);
      assert forall k :: 1 <= k < |vs| ==> vs[k] == vs[1..][k - 1];
    }
  }

  lemma {:induction false} WellFormedAppend(n: Node, a: seq<Visit>, b: seq<Visit>)
    requires WellFormed(n, a) && WellFormed(n, b)
    ensures WellFormed(n, a + b)
    decreases |a|
  {
    if a == [] {
      assert a + b == b;
    } else {
      assert (a + b)[1..] == a[1..] + b;
      WellFormedAppend(n, a[1..], b);
    }
  }

  /** Visits of a child reached by step `s`, seen from its parent: the same nodes
      and contexts, each path one step longer at the front. */
  function Under(s: Step, vs: seq<Visit>): seq<Visit>
    decreases |vs|
  {
    if vs == [] then [] else [Visit([s] + vs[0].path, vs[0].node, vs[0].context)] + Under(s, vs[1..])
  }

  lemma {:induction false} UnderLength(s: Step, vs: seq<Visit>)
    ensures |Under(s, vs)| == |vs|
    decreases |vs|
  {
    if vs != [] {
      UnderLength(s, vs[1..]);
    }
  }

  /** The `k`-th visit seen from the parent is the child's `k`-th visit, one step deeper. */
  lemma {:induction false} UnderAt(s: Step, vs: seq<Visit>, k: nat)
    requires k < |vs|
    ensures |Under(s, vs)| == |vs|
    ensures Under(s, vs)[k] == Visit([s] + vs[k].path, vs[k].node, vs[k].context)
    decreases k
  {
    UnderLength(s, vs);
    if k > 0 {
      UnderAt(s, vs[1..], k - 1);
      assert Under(s, vs)[k] == Under(s, vs[1..])[k - 1];
    }
  }

  lemma {:induction false} UnderWellFormed(n: Node, s: Step, vs: seq<Visit>)
    requires ValidStep(n, s) && WellFormed(ChildAt(n, s), vs)
    ensures WellFormed(n, Under(s, vs))
    decreases |vs|
  {
    if vs != [] {
      ConsPath(n, s, vs[0].path, vs[0].node);
      assert Under(s, vs)[1..] == Under(s, vs[1..]);
      UnderWellFormed(n, s, vs[1..]);
    }
  }

  /** The nodes the engine visits below and at `n`, in post-order: the visits of
      each sub-tree field in field order, and of each sub-tree item of a list field
      in index order, then `n` itself with its derived context. */
  function Visits(n: Node, parent: Context): seq<Visit>
    decreases n, 2
  {
    var c := GetContext(n, parent);
    FieldVisits(n, c, 0) + [Visit([], n, c)]
  }

  function FieldVisits(n: Node, c: Context, i: nat): (vs: seq<Visit>)
    requires i <= |n.fields|
    decreases n, 1, |n.fields| - i
  {
    if i == |n.fields| then []
    else
      var here :=
        match n.fields[i]
        case Tree(_) => Under(FieldStep(i), Visits(ChildAt(n, FieldStep(i)), c))
        case List(_) => ItemVisits(n, c, i, 0)
        case _ => [];
      here + FieldVisits(n, c, i + 1)
  }

  function ItemVisits(n: Node, c: Context, i: nat, j: nat): (vs: seq<Visit>)
    requires i < |n.fields| && n.fields[i].List? && j <= |n.fields[i].items|
    decreases n, 0, |n.fields[i].items| - j
  {
    if j == |n.fields[i].items| then []
    else
      var here :=
        if n.fields[i].items[j].Tree? then Under(ItemStep(i, j), Visits(ChildAt(n, ItemStep(i, j)), c))
        else [];
      here + ItemVisits(n, c, i, j + 1)
  }

  /** Mutations of the sub-tree at `path`, seen from `n`. */
  function LiftPath(muts: seq<Mutation>, n: Node, path: seq<Step>): (r: seq<Mutation>)
    requires ValidPath(n, path)
    ensures |r| == |muts|
  {
    seq(|muts|, k requires 0 <= k < |muts| => muts[k].WithTree(Plug(n, path, muts[k].tree)))
  }

  /** The mutations one visit calls for: every mutator's mutations of the visited
      node in its context, plugged into `n` along the visit's path; none when the
      path leads nowhere in `n`. */
  function VisitMutations(n: Node, ms: seq<Mutator>, v: Visit): seq<Mutation> {
    if ValidPath(n, v.path) then LiftPath(RunMutators(ms, v.node, v.context), n, v.path) else []
  }

  /** The mutations the visits call for, visit by visit. */
  function Expected(n: Node, ms: seq<Mutator>, vs: seq<Visit>): seq<Mutation>
    decreases |vs|
  {
    if vs == [] then [] else VisitMutations(n, ms, vs[0]) + Expected(n, ms, vs[1..])
  }

  lemma {:induction false} ExpectedAppend(n: Node, ms: seq<Mutator>, a: seq<Visit>, b: seq<Visit>)
    ensures Expected(n, ms, a + b) == Expected(n, ms, a) + Expected(n, ms, b)
    decreases |a|
  {
    if a == [] {
      assert a + b == b;
    } else {
      ExpectedAppend(n, ms, a[1..], b);
      ExpectedAppendStep(n, ms, a, b);
    }
  }

  /** The step of the induction above: the first visit's mutations lead both sides. */
  lemma ExpectedAppendStep(n: Node, ms: seq<Mutator>, a: seq<Visit>, b: seq<Visit>)
    requires a != []
    requires Expected(n, ms, a[1..] + b) == Expected(n, ms, a[1..]) + Expected(n, ms, b)
    ensures Expected(n, ms, a + b) == Expected(n, ms, a) + Expected(n, ms, b)
  {
    var ab := a + b;
    assert ab[0] == a[0] && ab[1..] == a[1..] + b;
    var first := VisitMutations(n, ms, a[0]);
    assert Expected(n, ms, ab) == first + Expected(n, ms, ab[1..]);
    assert Expected(n, ms, a) == first + Expected(n, ms, a[1..]);
    Seqs.AppendAssoc(first, Expected(n, ms, a[1..]), Expected(n, ms, b));
  }

  /** Lifting mutations of the sub-tree at `path` below the child at step `s` is
      lifting them along `[s] + path`. */
  lemma LiftPathStep(muts: seq<Mutation>, n: Node, s: Step, path: seq<Step>)
    requires ValidStep(n, s) && ValidPath(ChildAt(n, s), path)
    ensures ValidPath(n, [s] + path)
    ensures Lift(LiftPath(muts, ChildAt(n, s), path), n, s) == LiftPath(muts, n, [s] + path)
  {
    ConsPath(n, s, path, n);
    forall k | 0 <= k < |muts|
      ensures Plug(n, [s] + path, muts[k].tree) == PlugStep(n, s, Plug(ChildAt(n, s), path, muts[k].tree))
    {
      ConsPath(n, s, path, muts[k].tree);
    }
  }

  /** One visit of the child at step `s`, lifted, is the same visit seen from `n`. */
  lemma LiftVisit(n: Node, s: Step, ms: seq<Mutator>, v: Visit)
    requires ValidStep(n, s)
    ensures Lift(VisitMutations(ChildAt(n, s), ms, v), n, s) == VisitMutations(n, ms, Visit([s] + v.path, v.node, v.context))
  {
    var child := ChildAt(n, s);
    ConsPath(n, s, v.path, v.node);
    if ValidPath(child, v.path) {
      LiftPathStep(RunMutators(ms, v.node, v.context), n, s, v.path);
    } else {
      assert Lift([], n, s) == [];
    }
  }

  /** Lifting a sub-tree's expected mutations one step up gives the expected
      mutations of the same visits seen from the parent. */
  lemma {:induction false} LiftExpected(n: Node, s: Step, ms: seq<Mutator>, vs: seq<Visit>)
    requires ValidStep(n, s)
    ensures Lift(Expected(ChildAt(n, s), ms, vs), n, s) == Expected(n, ms, Under(s, vs))
    decreases |vs|
  {
    if vs == [] {
      assert Lift([], n, s) == [];
    } else {
      LiftExpected(n, s, ms, vs[1..]);
      LiftExpectedStep(n, s, ms, vs);
    }
  }

  /** The step of the induction above. */
  lemma LiftExpectedStep(n: Node, s: Step, ms: seq<Mutator>, vs: seq<Visit>)
    requires ValidStep(n, s) && vs != []
    requires Lift(Expected(ChildAt(n, s), ms, vs[1..]), n, s) == Expected(n, ms, Under(s, vs[1..]))
    ensures Lift(Expected(ChildAt(n, s), ms, vs), n, s) == Expected(n, ms, Under(s, vs))
  {
    var child := ChildAt(n, s);
    var first := VisitMutations(child, ms, vs[0]);
    var rest := Expected(child, ms, vs[1..]);
    assert Expected(child, ms, vs) == first + rest;
    LiftAppend(first, rest, n, s);
    LiftVisit(n, s, ms, vs[0]);
    var up := Under(s, vs);
    assert up[0] == Visit([s] + vs[0].path, vs[0].node, vs[0].context) && up[1..] == Under(s, vs[1..]);
    assert Expected(n, ms, up) == VisitMutations(n, ms, up[0]) + Expected(n, ms, up[1..]);
  }

  // One step of each walk, one lemma per shape of field or item, so that the
  // proofs below never unfold more than one of them at a time.

  lemma GenFieldsTree(n: Node, c: Context, ms: seq<Mutator>, i: nat)
    requires i < |n.fields| && n.fields[i].Tree?
    ensures GenFields(n, c, ms, i) == Lift(GenMutations(ChildAt(n, FieldStep(i)), c, ms), n, FieldStep(i)) + GenFields(n, c, ms, i + 1)
  {
  }

  lemma FieldVisitsTree(n: Node, c: Context, i: nat)
    requires i < |n.fields| && n.fields[i].Tree?
    ensures FieldVisits(n, c, i) == Under(FieldStep(i), Visits(ChildAt(n, FieldStep(i)), c)) + FieldVisits(n, c, i + 1)
  {
  }

  lemma GenFieldsList(n: Node, c: Context, ms: seq<Mutator>, i: nat)
    requires i < |n.fields| && n.fields[i].List?
    ensures GenFields(n, c, ms, i) == GenItems(n, c, ms, i, 0) + GenFields(n, c, ms, i + 1)
  {
  }

  lemma FieldVisitsList(n: Node, c: Context, i: nat)
    requires i < |n.fields| && n.fields[i].List?
    ensures FieldVisits(n, c, i) == ItemVisits(n, c, i, 0) + FieldVisits(n, c, i + 1)
  {
  }

  lemma GenFieldsPlain(n: Node, c: Context, ms: seq<Mutator>, i: nat)
    requires i < |n.fields| && !n.fields[i].Tree? && !n.fields[i].List?
    ensures GenFields(n, c, ms, i) == GenFields(n, c, ms, i + 1)
  {
    assert GenFields(n, c, ms, i) == [] + GenFields(n, c, ms, i + 1);
  }

  lemma FieldVisitsPlain(n: Node, c: Context, i: nat)
    requires i < |n.fields| && !n.fields[i].Tree? && !n.fields[i].List?
    ensures FieldVisits(n, c, i) == FieldVisits(n, c, i + 1)
  {
    assert FieldVisits(n, c, i) == [] + FieldVisits(n, c, i + 1);
  }

  lemma GenItemsTree(n: Node, c: Context, ms: seq<Mutator>, i: nat, j: nat)
    requires i < |n.fields| && n.fields[i].List? && j < |n.fields[i].items| && n.fields[i].items[j].Tree?
    ensures GenItems(n, c, ms, i, j) == Lift(GenMutations(ChildAt(n, ItemStep(i, j)), c, ms), n, ItemStep(i, j)) + GenItems(n, c, ms, i, j + 1)
  {
  }

  lemma ItemVisitsTree(n: Node, c: Context, i: nat, j: nat)
    requires i < |n.fields| && n.fields[i].List? && j < |n.fields[i].items| && n.fields[i].items[j].Tree?
    ensures ItemVisits(n, c, i, j) == Under(ItemStep(i, j), Visits(ChildAt(n, ItemStep(i, j)), c)) + ItemVisits(n, c, i, j + 1)
  {
  }

  lemma GenItemsPlain(n: Node, c: Context, ms: seq<Mutator>, i: nat, j: nat)
    requires i < |n.fields| && n.fields[i].List? && j < |n.fields[i].items| && !n.fields[i].items[j].Tree?
    ensures GenItems(n, c, ms, i, j) == GenItems(n, c, ms, i, j + 1)
  {
    assert GenItems(n, c, ms, i, j) == [] + GenItems(n, c, ms, i, j + 1);
  }

  lemma ItemVisitsPlain(n: Node, c: Context, i: nat, j: nat)
    requires i < |n.fields| && n.fields[i].List? && j < |n.fields[i].items| && !n.fields[i].items[j].Tree?
    ensures ItemVisits(n, c, i, j) == ItemVisits(n, c, i, j + 1)
  {
    assert ItemVisits(n, c, i, j) == [] + ItemVisits(n, c, i, j + 1);
  }

  /** A sub-tree reached by step `s`: its lifted mutations, followed by `g`, are the
      expected mutations of its visits seen from `n`, followed by those of `vs`. */
  lemma ChildMatches(n: Node, s: Step, c: Context, ms: seq<Mutator>, g: seq<Mutation>, vs: seq<Visit>)
    requires ValidStep(n, s)
    requires GenMutations(ChildAt(n, s), c, ms) == Expected(ChildAt(n, s), ms, Visits(ChildAt(n, s), c))
    requires g == Expected(n, ms, vs)
    ensures Lift(GenMutations(ChildAt(n, s), c, ms), n, s) + g == Expected(n, ms, Under(s, Visits(ChildAt(n, s), c)) + vs)
  {
    var child := ChildAt(n, s);
    LiftExpected(n, s, ms, Visits(child, c));
    ExpectedAppend(n, ms, Under(s, Visits(child, c)), vs);
  }

  /** One sub-tree field: its lifted mutations are the expected mutations of its
      visits seen from `n`. */
  lemma TreeFieldMatches(n: Node, c: Context, ms: seq<Mutator>, i: nat)
    requires i < |n.fields| && n.fields[i].Tree?
    requires GenMutations(ChildAt(n, FieldStep(i)), c, ms) == Expected(ChildAt(n, FieldStep(i)), ms, Visits(ChildAt(n, FieldStep(i)), c))
    requires GenFields(n, c, ms, i + 1) == Expected(n, ms, FieldVisits(n, c, i + 1))
    ensures GenFields(n, c, ms, i) == Expected(n, ms, FieldVisits(n, c, i))
  {
    GenFieldsTree(n, c, ms, i);
    FieldVisitsTree(n, c, i);
    ChildMatches(n, FieldStep(i), c, ms, GenFields(n, c, ms, i + 1), FieldVisits(n, c, i + 1));
  }

  /** One list field: its items' mutations are the expected mutations of its items' visits. */
  lemma ListFieldMatches(n: Node, c: Context, ms: seq<Mutator>, i: nat)
    requires i < |n.fields| && n.fields[i].List?
    requires GenItems(n, c, ms, i, 0) == Expected(n, ms, ItemVisits(n, c, i, 0))
    requires GenFields(n, c, ms, i + 1) == Expected(n, ms, FieldVisits(n, c, i + 1))
    ensures GenFields(n, c, ms, i) == Expected(n, ms, FieldVisits(n, c, i))
  {
    GenFieldsList(n, c, ms, i);
    FieldVisitsList(n, c, i);
    ExpectedAppend(n, ms, ItemVisits(n, c, i, 0), FieldVisits(n, c, i + 1));
  }

  /** An operator or plain value field adds neither mutations nor visits. */
  lemma PlainFieldMatches(n: Node, c: Context, ms: seq<Mutator>, i: nat)
    requires i < |n.fields| && !n.fields[i].Tree? && !n.fields[i].List?
    requires GenFields(n, c, ms, i + 1) == Expected(n, ms, FieldVisits(n, c, i + 1))
    ensures GenFields(n, c, ms, i) == Expected(n, ms, FieldVisits(n, c, i))
  {
    GenFieldsPlain(n, c, ms, i);
    FieldVisitsPlain(n, c, i);
  }

  /** One sub-tree item of a list field. */
  lemma TreeItemMatches(n: Node, c: Context, ms: seq<Mutator>, i: nat, j: nat)
    requires i < |n.fields| && n.fields[i].List? && j < |n.fields[i].items| && n.fields[i].items[j].Tree?
    requires GenMutations(ChildAt(n, ItemStep(i, j)), c, ms) == Expected(ChildAt(n, ItemStep(i, j)), ms, Visits(ChildAt(n, ItemStep(i, j)), c))
    requires GenItems(n, c, ms, i, j + 1) == Expected(n, ms, ItemVisits(n, c, i, j + 1))
    ensures GenItems(n, c, ms, i, j) == Expected(n, ms, ItemVisits(n, c, i, j))
  {
    GenItemsTree(n, c, ms, i, j);
    ItemVisitsTree(n, c, i, j);
    ChildMatches(n, ItemStep(i, j), c, ms, GenItems(n, c, ms, i, j + 1), ItemVisits(n, c, i, j + 1));
  }

  /** An item that is not a tree adds neither mutations nor visits. */
  lemma PlainItemMatches(n: Node, c: Context, ms: seq<Mutator>, i: nat, j: nat)
    requires i < |n.fields| && n.fields[i].List? && j < |n.fields[i].items| && !n.fields[i].items[j].Tree?
    requires GenItems(n, c, ms, i, j + 1) == Expected(n, ms, ItemVisits(n, c, i, j + 1))
    ensures GenItems(n, c, ms, i, j) == Expected(n, ms, ItemVisits(n, c, i, j))
  {
    GenItemsPlain(n, c, ms, i, j);
    ItemVisitsPlain(n, c, i, j);
  }

  /** The node's own mutations come last, plugged in along the empty path. */
  lemma OwnMatches(n: Node, c: Context, ms: seq<Mutator>)
    ensures RunMutators(ms, n, c) == Expected(n, ms, [Visit([], n, c)])
  {
    var own := RunMutators(ms, n, c);
    assert LiftPath(own, n, []) == own;
    assert Expected(n, ms, [Visit([], n, c)]) == VisitMutations(n, ms, Visit([], n, c)) + [];
  }

  /** The engine yields exactly the expected mutations of its visits. */
  lemma {:induction false} GenMatchesVisits(n: Node, parent: Context, ms: seq<Mutator>)
    ensures GenMutations(n, parent, ms) == Expected(n, ms, Visits(n, parent))
    decreases n, 3
  {
    var c := GetContext(n, parent);
    FieldsMatchVisits(n, c, ms, 0);
    OwnMatches(n, c, ms);
    ExpectedAppend(n, ms, FieldVisits(n, c, 0), [Visit([], n, c)]);
  }

  /** The fields of `n` from the `i`-th on match their visits. */
  lemma {:induction false} FieldsMatchVisits(n: Node, c: Context, ms: seq<Mutator>, i: nat)
    requires i <= |n.fields|
    ensures GenFields(n, c, ms, i) == Expected(n, ms, FieldVisits(n, c, i))
    decreases n, 2, |n.fields| - i, 1
  {
    if i < |n.fields| {
      FieldMatches(n, c, ms, i);
    }
  }

  /** The `i`-th field and the fields after it match their visits. */
  lemma {:induction false} FieldMatches(n: Node, c: Context, ms: seq<Mutator>, i: nat)
    requires i < |n.fields|
    ensures GenFields(n, c, ms, i) == Expected(n, ms, FieldVisits(n, c, i))
    decreases n, 2, |n.fields| - i, 0
  {
    FieldsMatchVisits(n, c, ms, i + 1);
    if n.fields[i].Tree? {
      GenMatchesVisits(ChildAt(n, FieldStep(i)), c, ms);
      TreeFieldMatches(n, c, ms, i);
    } else if n.fields[i].List? {
      ItemsMatchVisits(n, c, ms, i, 0);
      ListFieldMatches(n, c, ms, i);
    } else {
      PlainFieldMatches(n, c, ms, i);
    }
  }

  /** The items of the `i`-th field from the `j`-th on match their visits. */
  lemma {:induction false} ItemsMatchVisits(n: Node, c: Context, ms: seq<Mutator>, i: nat, j: nat)
    requires i < |n.fields| && n.fields[i].List? && j <= |n.fields[i].items|
    ensures GenItems(n, c, ms, i, j) == Expected(n, ms, ItemVisits(n, c, i, j))
    decreases n, 1, |n.fields[i].items| - j, 1
  {
    if j < |n.fields[i].items| {
      ItemMatches(n, c, ms, i, j);
    }
  }

  /** The `j`-th item of the `i`-th field and the items after it match their visits. */
  lemma {:induction false} ItemMatches(n: Node, c: Context, ms: seq<Mutator>, i: nat, j: nat)
    requires i < |n.fields| && n.fields[i].List? && j < |n.fields[i].items|
    ensures GenItems(n, c, ms, i, j) == Expected(n, ms, ItemVisits(n, c, i, j))
    decreases n, 1, |n.fields[i].items| - j, 0
  {
    ItemsMatchVisits(n, c, ms, i, j + 1);
    if n.fields[i].items[j].Tree? {
      GenMatchesVisits(ChildAt(n, ItemStep(i, j)), c, ms);
      TreeItemMatches(n, c, ms, i, j);
    } else {
      PlainItemMatches(n, c, ms, i, j);
    }
  }

  /** Every child of `n`, walked in the context `c`, has well-formed visits. */
  ghost predicate ChildrenWellFormed(n: Node, c: Context) {
    forall s :: ValidStep(n, s) ==> WellFormed(ChildAt(n, s), Visits(ChildAt(n, s), c))
  }

  /** Every visit leads, along its path from the root, to the node it records. */
  lemma {:induction false} VisitsWellFormed(n: Node, parent: Context)
    ensures WellFormed(n, Visits(n, parent))
    decreases n
  {
    var c := GetContext(n, parent);
    forall s | ValidStep(n, s)
      ensures WellFormed(ChildAt(n, s), Visits(ChildAt(n, s), c))
    {
      VisitsWellFormed(ChildAt(n, s), c);
    }
    FieldVisitsWellFormed(n, c, 0);
    assert WellFormed(n, [Visit([], n, c)]) by {
      assert [Visit([], n, c)][1..] == [];
    }
    WellFormedAppend(n, FieldVisits(n, c, 0), [Visit([], n, c)]);
  }

  /** The visits of a child reached by step `s`, seen from `n`, are well formed. */
  lemma ChildWellFormed(n: Node, c: Context, s: Step)
    requires ValidStep(n, s) && ChildrenWellFormed(n, c)
    ensures WellFormed(n, Under(s, Visits(ChildAt(n, s), c)))
  {
    UnderWellFormed(n, s, Visits(ChildAt(n, s), c));
  }

  lemma {:induction false} FieldVisitsWellFormed(n: Node, c: Context, i: nat)
    requires i <= |n.fields| && ChildrenWellFormed(n, c)
    ensures WellFormed(n, FieldVisits(n, c, i))
    decreases |n.fields| - i
  {
    if i < |n.fields| {
      FieldVisitsWellFormed(n, c, i + 1);
      FieldWellFormedStep(n, c, i);
    }
  }

  /** The step of the induction above: the visits of field `i` lead the rest. */
  lemma FieldWellFormedStep(n: Node, c: Context, i: nat)
    requires i < |n.fields| && ChildrenWellFormed(n, c)
    requires WellFormed(n, FieldVisits(n, c, i + 1))
    ensures WellFormed(n, FieldVisits(n, c, i))
  {
    if n.fields[i].Tree? {
      ChildWellFormed(n, c, FieldStep(i));
      FieldVisitsTree(n, c, i);
      WellFormedAppend(n, Under(FieldStep(i), Visits(ChildAt(n, FieldStep(i)), c)), FieldVisits(n, c, i + 1));
    } else if n.fields[i].List? {
      ItemVisitsWellFormed(n, c, i, 0);
      FieldVisitsList(n, c, i);
      WellFormedAppend(n, ItemVisits(n, c, i, 0), FieldVisits(n, c, i + 1));
    } else {
      FieldVisitsPlain(n, c, i);
    }
  }

  lemma {:induction false} ItemVisitsWellFormed(n: Node, c: Context, i: nat, j: nat)
    requires i < |n.fields| && n.fields[i].List? && j <= |n.fields[i].items| && ChildrenWellFormed(n, c)
    ensures WellFormed(n, ItemVisits(n, c, i, j))
    decreases |n.fields[i].items| - j
  {
    if j < |n.fields[i].items| {
      ItemVisitsWellFormed(n, c, i, j + 1);
      ItemWellFormedStep(n, c, i, j);
    }
  }

  /** The step of the induction above: the visits of item `j` lead the rest. */
  lemma ItemWellFormedStep(n: Node, c: Context, i: nat, j: nat)
    requires i < |n.fields| && n.fields[i].List? && j < |n.fields[i].items| && ChildrenWellFormed(n, c)
    requires WellFormed(n, ItemVisits(n, c, i, j + 1))
    ensures WellFormed(n, ItemVisits(n, c, i, j))
  {
    if n.fields[i].items[j].Tree? {
      ChildWellFormed(n, c, ItemStep(i, j));
      ItemVisitsTree(n, c, i, j);
      WellFormedAppend(n, Under(ItemStep(i, j), Visits(ChildAt(n, ItemStep(i, j)), c)), ItemVisits(n, c, i, j + 1));
    } else {
      ItemVisitsPlain(n, c, i, j);
    }
  }

  /** Every expected mutation comes from one mutator call at one of the visits: it
      is a mutation of that visit's node, plugged into `n` along the visit's path. */
  lemma {:induction false} ExpectedOrigin(n: Node, ms: seq<Mutator>, vs: seq<Visit>, k: nat) returns (v: Visit, m: Mutation)
    requires k < |Expected(n, ms, vs)|
    ensures v in vs && m in RunMutators(ms, v.node, v.context) && ValidPath(n, v.path)
    ensures Expected(n, ms, vs)[k] == m.WithTree(Plug(n, v.path, m.tree))
    decreases |vs|
  {
    var first := VisitMutations(n, ms, vs[0]);
    var rest := Expected(n, ms, vs[1..]);
    assert Expected(n, ms, vs) == first + rest;
    if k < |first| {
      var muts := RunMutators(ms, vs[0].node, vs[0].context);
      v, m := vs[0], muts[k];
      assert Expected(n, ms, vs)[k] == first[k];
    } else {
      v, m := ExpectedOrigin(n, ms, vs[1..], k - |first|);
      assert Expected(n, ms, vs)[k] == rest[k - |first|];
    }
  }

  /** Every mutation the engine yields comes from a mutator called at a visited node. */
  lemma GenOrigin(n: Node, parent: Context, ms: seq<Mutator>, k: nat)
    requires k < |GenMutations(n, parent, ms)|
    ensures exists v, m ::
              && v in Visits(n, parent) && m in RunMutators(ms, v.node, v.context)
              && ValidPath(n, v.path) && GenMutations(n, parent, ms)[k] == m.WithTree(Plug(n, v.path, m.tree))
  {
    GenMatchesVisits(n, parent, ms);
    var v, m := ExpectedOrigin(n, ms, Visits(n, parent), k);
  }

  /** The mutator of the engine's tests: every node is its own one mutation. */
  function Identity(n: Node, c: Context): (r: seq<Mutation>)
    ensures r == [FromNode(n, c)]
  {
    [FromNode(n, c)]
  }

  lemma {:induction false} ExpectedIdentity(n: Node, vs: seq<Visit>)
    requires WellFormed(n, vs)
    ensures |Expected(n, [Identity], vs)| == |vs|
    ensures forall k :: 0 <= k < |vs| ==> Expected(n, [Identity], vs)[k] == Mutation(n, vs[k].node, vs[k].context)
    decreases |vs|
  {
    if vs != [] {
      ExpectedIdentity(n, vs[1..]);
      ExpectedIdentityStep(n, vs);
    }
  }

  /** The step of the induction above: the first visit's one mutation leads. */
  lemma ExpectedIdentityStep(n: Node, vs: seq<Visit>)
    requires vs != [] && WellFormed(n, vs)
    requires var rest := Expected(n, [Identity], vs[1..]);
      && |rest| == |vs| - 1
      && forall k :: 0 <= k < |vs| - 1 ==> rest[k] == Mutation(n, vs[1..][k].node, vs[1..][k].context)
    ensures |Expected(n, [Identity], vs)| == |vs|
    ensures forall k :: 0 <= k < |vs| ==> Expected(n, [Identity], vs)[k] == Mutation(n, vs[k].node, vs[k].context)
  {
    var v := vs[0];
    var rest := Expected(n, [Identity], vs[1..]);
    PlugSame(n, v.path);
    assert RunMutators([Identity], v.node, v.context) == [FromNode(v.node, v.context)];
    var first := LiftPath([FromNode(v.node, v.context)], n, v.path);
    assert first[0] == Mutation(n, v.node, v.context);
    assert VisitMutations(n, [Identity], v) == first;
    var e := Expected(n, [Identity], vs);
    assert e == first + rest;
    forall k | 1 <= k < |vs|
      ensures e[k] == Mutation(n, vs[k].node, vs[k].context)
    {
      assert e[k] == rest[k - 1];
      assert vs[k] == vs[1..][k - 1];
    }
  }

  /** With the identity mutator the engine yields one mutation per visited node, in
      visiting order, each holding the whole unchanged tree, the visited node and
      its context. */
  lemma GenIdentity(n: Node, parent: Context)
    ensures |GenMutations(n, parent, [Identity])| == |Visits(n, parent)|
    ensures forall k :: 0 <= k < |Visits(n, parent)| ==>
      GenMutations(n, parent, [Identity])[k] == Mutation(n, Visits(n, parent)[k].node, Visits(n, parent)[k].context)
  {
    GenMatchesVisits(n, parent, [Identity]);
    VisitsWellFormed(n, parent);
    ExpectedIdentity(n, Visits(n, parent));
  }
}

=== FILE: inversion.dfy ===
/** The condition inversion: the test of a conditional expression, an `if`
    statement or a `while` loop is wrapped in `not`. */
module Inversion {
  import opened Wrappers
  import opened Types
  import opened Ast
  import opened Contexts
  import opened Mutations
  import opened Samples
  import UnaryOps

  /** `_invert(node)`: `not node`, built without a position. */
  function Negate(t: Node): Node {
    UnaryOp(FreshAttrs, Not, t)
  }

  /** `invert(node, context)`: for a conditional, one mutation whose tree is a new
      conditional of the same class with the test negated and the branches kept,
      whose node is the negated test, and whose context is the test's own. */
  function Invert(n: Node, c: Context): (r: seq<Mutation>)
    ensures |r| == if IsConditional(n) then 1 else 0
  {
    if IsConditional(n) then
      var test := n.fields[0].node;
      [Mutation(Node(n.kind, FreshAttrs, [Tree(Negate(test)), n.fields[1], n.fields[2]]), Negate(test), GetContext(test, c))]
    else []
  }

  /** On each of the three classes, the branches are carried over as they are. */
  lemma InvertOf(a: Attrs, test: Node, body: Node, orelse: Node, stmts: seq<Node>, others: seq<Node>, c: Context)
    ensures Invert(IfExp(a, test, body, orelse), c)
      == [Mutation(IfExp(FreshAttrs, Negate(test), body, orelse), Negate(test), GetContext(test, c))]
    ensures Invert(If(a, test, stmts, others), c)
      == [Mutation(If(FreshAttrs, Negate(test), stmts, others), Negate(test), GetContext(test, c))]
    ensures Invert(While(a, test, stmts, others), c)
      == [Mutation(While(FreshAttrs, Negate(test), stmts, others), Negate(test), GetContext(test, c))]
  {
  }

  /** Unwrapping the `not` gives the original fields back: the mutated tree differs
      from the conditional only in its test, which now holds the mutation's node,
      and that node's operand is the original test. */
  lemma InvertUndone(n: Node, c: Context)
    requires IsConditional(n)
    ensures var m := Invert(n, c)[0];
      && m.tree.kind == n.kind
      && m.tree.fields[0] == Tree(m.node)
      && IsUnaryOp(m.node) && m.node.fields[0] == Op(OpUnary(Not))
      && m.tree.fields[0 := m.node.fields[1]] == n.fields
  {
    var m := Invert(n, c)[0];
    assert m.tree.fields[0 := m.node.fields[1]] == [n.fields[0], n.fields[1], n.fields[2]];
    assert n.fields == [n.fields[0], n.fields[1], n.fields[2]];
  }

  /** The negated test is left alone by the unary-operator switch, which does not
      touch `not`. */
  lemma NegationNotSwitched(t: Node, c: Context)
    ensures UnaryOps.SwitchUnaryOps(Negate(t), c) == []
  {
    UnaryOps.SwitchUnaryOpsOf(FreshAttrs, Not, t, c);
  }

  /** `5 if condition else 3`: the context is that of `condition`, columns 5 to 14,
      whatever the parent's span. */
  lemma NameTestExample(a: Attrs, c: Context)
    requires c.file == At(0, 0).file
    ensures var n := IfExp(a, Name("condition", 5), Int(5, 0), Int(3, 19));
      Invert(n, c) == [Mutation(IfExp(FreshAttrs, Negate(Name("condition", 5)), Int(5, 0), Int(3, 19)), Negate(Name("condition", 5)), At(5, 14))]
  {
    InvertOf(a, Name("condition", 5), Int(5, 0), Int(3, 19), [], [], c);
  }

  /** `5 if 5 < 3 else 3`: a comparison test is inverted like any other, with the
      comparison's context, columns 5 to 10. */
  lemma ComparisonTestExample(a: Attrs, c: Context)
    requires c.file == At(0, 0).file
    ensures var test := Compare(Span(1, 1, 5, 10), Int(5, 5), [Lt], [Int(3, 9)]);
      Invert(IfExp(a, test, Int(5, 0), Int(3, 16)), c) == [Mutation(IfExp(FreshAttrs, Negate(test), Int(5, 0), Int(3, 16)), Negate(test), At(5, 10))]
  {
    var test := Compare(Span(1, 1, 5, 10), Int(5, 5), [Lt], [Int(3, 9)]);
    InvertOf(a, test, Int(5, 0), Int(3, 16), [], [], c);
  }

  /** The inversion radiation's own tests describe: conditionals whose test is a
      comparison are skipped, all others are inverted as before. */
  function InvertSkippingComparisons(n: Node, c: Context): (r: seq<Mutation>)
    ensures IsConditional(n) && n.fields[0].node.kind == CompareKind ==> r == []
    ensures !(IsConditional(n) && n.fields[0].node.kind == CompareKind) ==> r == Invert(n, c)
  {
    if IsConditional(n) && n.fields[0].node.kind == CompareKind then [] else Invert(n, c)
  }

  /** The two differ exactly on conditionals with a comparison test: on
      `5 if 5 < 3 else 3` the code inverts and the tests expect nothing. */
  lemma ComparisonTestDiscrepancy(a: Attrs, c: Context)
    ensures var n := IfExp(a, Compare(Span(1, 1, 5, 10), Int(5, 5), [Lt], [Int(3, 9)]), Int(5, 0), Int(3, 16));
      |Invert(n, c)| == 1 && InvertSkippingComparisons(n, c) == []
  {
  }
}

=== FILE: line_limit.dfy ===
/** The line-density cap: a stateful filter that lets through at most `limit`
    mutations per start line of each file. Its state, one counter per
    (file, start line) key, is threaded through the calls as a value. */
module LineLimit {
  import opened Wrappers
  import opened Types
  import opened Mutations
  import Paths

  /** `(mutation.context.file.path, mutation.context.node.lineno)`: the end of the
      span plays no part. */
  type Key = (Paths.Path, int)

  function KeyOf(m: Mutation): Key {
    (m.context.file.path, m.context.node.lineno)
  }

  /** `LineLimitFilter(limit)`: the cap and, for each key seen so far, how many
      times it has been asked about. */
  datatype LineLimitFilter = LineLimitFilter(limit: int, lines: map<Key, nat>)

  const DefaultLimit := 2

  /** `LineLimitFilter(limit)`: no key has been seen yet. */
  function New(limit: int): (f: LineLimitFilter)
    ensures f.limit == limit
    ensures forall k :: Count(f, k) == 0
  {
    LineLimitFilter(limit, map[])
  }

  /** `LineLimitFilter()`: the cap is 2. */
  function Default(): (f: LineLimitFilter)
    ensures f.limit == 2 && f == New(2)
  {
    New(DefaultLimit)
  }

  /** The value the key's `count()` hands out next: 0 for a key not seen yet. */
  function Count(f: LineLimitFilter, k: Key): nat {
    if k in f.lines then f.lines[k] else 0
  }

  /** `limiter(mutation, config)`: the verdict and the filter's next state. The
      mutation is accepted when its key has been asked about fewer than `limit`
      times before, and the key's counter advances either way. The configuration
      argument is not read, so it is not a parameter. */
  function Call(f: LineLimitFilter, m: Mutation): (r: (bool, LineLimitFilter))
    ensures r.0 <==> Count(f, KeyOf(m)) < f.limit
    ensures r.1.limit == f.limit
    ensures Count(r.1, KeyOf(m)) == Count(f, KeyOf(m)) + 1
    ensures forall k :: k != KeyOf(m) ==> Count(r.1, k) == Count(f, k)
  {
    var key := KeyOf(m);
    var n := Count(f, key);
    (n < f.limit, f.(lines := f.lines[key := n + 1]))
  }

  /** Calls in a row: the verdicts in call order and the final state. */
  function Run(f: LineLimitFilter, ms: seq<Mutation>): (LineLimitFilter, seq<bool>)
    decreases |ms|
  {
    if ms == [] then (f, [])
    else
      var (ok, g) := Call(f, ms[0]);
      var (h, rest) := Run(g, ms[1..]);
      (h, [ok] + rest)
  }

  /** Every call advances its own key and no other: after a run, each key's count
      has grown by the number of calls on that key. */
  lemma {:induction false} RunCounts(f: LineLimitFilter, ms: seq<Mutation>, k: Key)
    ensures |Run(f, ms).1| == |ms|
    ensures Run(f, ms).0.limit == f.limit
    ensures Count(Run(f, ms).0, k) == Count(f, k) + CallsOn(ms, k)
    decreases |ms|
  {
    if ms != [] {
      RunCounts(Call(f, ms[0]).1, ms[1..], k);
    }
  }

  /** How many of the mutations have key `k`. */
  function CallsOn(ms: seq<Mutation>, k: Key): nat
    decreases |ms|
  {
    if ms == [] then 0 else (if KeyOf(ms[0]) == k then 1 else 0) + CallsOn(ms[1..], k)
  }

  /** The `j`-th call of a run on one key, counting from 0 and starting from a key
      asked about `Count(f, k)` times, is accepted exactly when `Count(f, k) + j`
      is below the cap. */
  lemma {:induction false} RunOnOneKey(f: LineLimitFilter, ms: seq<Mutation>, k: Key)
    requires forall j :: 0 <= j < |ms| ==> KeyOf(ms[j]) == k
    ensures |Run(f, ms).1| == |ms|
    ensures forall j :: 0 <= j < |ms| ==> (Run(f, ms).1[j] <==> Count(f, k) + j < f.limit)
    decreases |ms|
  {
    RunCounts(f, ms, k);
    if ms != [] {
      var g := Call(f, ms[0]).1;
      RunOnOneKey(g, ms[1..], k);
      forall j | 1 <= j < |ms|
        ensures Run(f, ms).1[j] <==> Count(f, k) + j < f.limit
      {
        assert Run(f, ms).1[j] == Run(g, ms[1..]).1[j - 1];
      }
    }
  }

  /** From a fresh filter, the calls on one line are accepted exactly up to the cap. */
  lemma FreshRunOnOneKey(limit: int, ms: seq<Mutation>, k: Key)
    requires forall j :: 0 <= j < |ms| ==> KeyOf(ms[j]) == k
    ensures |Run(New(limit), ms).1| == |ms|
    ensures forall j :: 0 <= j < |ms| ==> (Run(New(limit), ms).1[j] <==> j < limit)
  {
    RunOnOneKey(New(limit), ms, k);
  }

  /** Once a key has been rejected, any later call on it is rejected too, whatever
      other calls come in between. */
  lemma {:induction false} RejectedStaysRejected(f: LineLimitFilter, m: Mutation, between: seq<Mutation>, later: Mutation)
    requires !Call(f, m).0 && KeyOf(later) == KeyOf(m)
    ensures !Call(Run(Call(f, m).1, between).0, later).0
  {
    RunCounts(Call(f, m).1, between, KeyOf(m));
  }

  /** Mutations on the same file and start line get the same verdict and leave the
      same state, whatever their end line, columns, tree or node. */
  lemma SameKeySameVerdict(f: LineLimitFilter, m: Mutation, n: Mutation)
    requires m.context.file.path == n.context.file.path && m.context.node.lineno == n.context.node.lineno
    ensures Call(f, m) == Call(f, n)
  {
  }

  /** With the default cap, the third call on a line is the first one rejected,
      and a call on another line or file is not held back. */
  lemma DefaultLimitExample(m1: Mutation, m2: Mutation, m3: Mutation, other: Mutation)
    requires KeyOf(m1) == KeyOf(m2) == KeyOf(m3) != KeyOf(other)
    ensures var s1 := Call(Default(), m1); var s2 := Call(s1.1, m2); var s3 := Call(s2.1, m3);
      s1.0 && s2.0 && !s3.0 && Call(s3.1, other).0
  {
  }
}

=== FILE: mutation.dfy ===
/** The mutation record and the splice that writes a mutated node back into the
    text of its file. Rendering a node to source text is a foreign library; it is
    a parameter here. */
module Mutations {
  import opened Wrappers
  import opened Errors
  import opened Types
  import opened Ast
  import Seqs
  import Strings

  /** A mutated whole tree, the mutated node inside it, and where that node is. */
  datatype Mutation = Mutation(tree: Node, node: Node, context: Context) {

    /** `with_tree`: the same mutation seen from a larger tree. */
    function WithTree(t: Node): (m: Mutation)
      ensures m.tree == t
      ensures m.node == node && m.context == context
    {
      Mutation(t, node, context)
    }
  }

  /** `Mutation.from_node`: a mutation whose tree is the mutated node itself. */
  function FromNode(n: Node, c: Context): (m: Mutation)
    ensures m.tree == n && m.node == n && m.context == c
  {
    Mutation(n, n, c)
  }

  /** `end_lineno or lineno`: an absent end line, and the falsy end line 0, mean
      the span ends on its start line. */
  function EndLine(span: NodeContext): (e: int)
    ensures span.endLineno.None? ==> e == span.lineno
    ensures span.endLineno == Some(0) ==> e == span.lineno
    ensures span.endLineno.Some? && span.endLineno.value != 0 ==> e == span.endLineno.value
  {
    match span.endLineno
    case Some(v) => if v != 0 then v else span.lineno
    case None => span.lineno
  }

  /** What is left of the end line after the span: everything when the end column
      is absent (`line[None:]`). */
  function Tail(line: string, endColOffset: Option<int>): (t: string)
    ensures |t| <= |line| && t == line[|line| - |t|..]
    ensures endColOffset.None? ==> t == line
  {
    match endColOffset
    case Some(c) => Seqs.Drop(line, c)
    case None => line
  }

  /** The line list of `apply_mutation_on_string`: the lines the span covers become
      one line, made of the start line up to the start column, the rendered node,
      and the end line from the end column on. Indexing follows Python, so a start
      or end line outside the file is an `IndexError`, and one of 0 or below
      counts from the end. */
  function SpliceLines(lines: seq<string>, span: NodeContext, rendered: string): (r: Result<seq<string>, Exception>)
    ensures r.Err? <==> !(-|lines| <= span.lineno - 1 < |lines|) || !(-|lines| <= EndLine(span) - 1 < |lines|)
    ensures r.Err? ==> r.error == IndexError
    ensures 1 <= span.lineno <= EndLine(span) <= |lines| ==>
      var l, e := span.lineno, EndLine(span);
      && r.Ok?
      && |r.value| == |lines| - (e - l)
      && r.value[..l - 1] == lines[..l - 1]
      && r.value[l - 1] == Seqs.Take(lines[l - 1], span.colOffset) + rendered + Tail(lines[e - 1], span.endColOffset)
      && r.value[l..] == lines[e..]
  {
    var e := EndLine(span);
    match (Seqs.At(lines, span.lineno - 1), Seqs.At(lines, e - 1))
    case (Some(first), Some(last)) =>
      var line := Seqs.Take(first, span.colOffset) + rendered + Tail(last, span.endColOffset);
      Ok(Seqs.Take(lines, span.lineno - 1) + [line] + Seqs.Drop(lines, e))
    case _ => Err(IndexError)
  }

  /** Rendering a one-line span as the very text it covers gives the file back. */
  lemma SpliceOriginalText(lines: seq<string>, span: NodeContext)
    requires 1 <= span.lineno == EndLine(span) <= |lines|
    requires span.endColOffset.Some?
    requires 0 <= span.colOffset <= span.endColOffset.value <= |lines[span.lineno - 1]|
    ensures SpliceLines(lines, span, lines[span.lineno - 1][span.colOffset..span.endColOffset.value]) == Ok(lines)
  {
    var l, c, ec := span.lineno, span.colOffset, span.endColOffset.value;
    var line := lines[l - 1];
    assert line[..c] + line[c..ec] + line[ec..] == line;
    var r := SpliceLines(lines, span, line[c..ec]).value;
    assert r == r[..l - 1] + [r[l - 1]] + r[l..];
    assert lines == lines[..l - 1] + [line] + lines[l..];
  }

  /** `apply_mutation_on_string(text, mutation)`: split the text into lines, splice
      the rendered node with its surrounding newlines stripped, and join with "\n". */
  function ApplyMutationOnString(text: string, m: Mutation, render: Node -> string): (r: Result<string, Exception>)
    ensures r.Err? <==> SpliceLines(Strings.SplitLines(text), m.context.node, Strings.StripNewlines(render(m.node))).Err?
    ensures r.Err? ==> r.error == IndexError
  {
    var spliced :- SpliceLines(Strings.SplitLines(text), m.context.node, Strings.StripNewlines(render(m.node)));
    Ok(Strings.Join(spliced, '\n'))
  }

  /** The spliced line holds no break when neither the rendering nor the lines do. */
  lemma SplicedLineUnbroken(lines: seq<string>, span: NodeContext, rendered: string)
    requires 1 <= span.lineno <= EndLine(span) <= |lines|
    requires '\n' !in lines[span.lineno - 1] && '\n' !in lines[EndLine(span) - 1]
    requires '\n' !in rendered
    ensures '\n' !in SpliceLines(lines, span, rendered).value[span.lineno - 1]
  {
    var first, last := lines[span.lineno - 1], lines[EndLine(span) - 1];
    Seqs.TakeDropWithout(first, span.colOffset, '\n');
    if span.endColOffset.Some? {
      Seqs.TakeDropWithout(last, span.endColOffset.value, '\n');
    }
    var head, tail := Seqs.Take(first, span.colOffset), Tail(last, span.endColOffset);
    assert SpliceLines(lines, span, rendered).value[span.lineno - 1] == head + rendered + tail;
  }

  /** Splicing a one-line rendering into lines without breaks gives lines without breaks. */
  lemma SpliceKeepsLinesUnbroken(lines: seq<string>, span: NodeContext, rendered: string)
    requires 1 <= span.lineno <= EndLine(span) <= |lines|
    requires forall k :: 0 <= k < |lines| ==> '\n' !in lines[k]
    requires '\n' !in rendered
    ensures SpliceLines(lines, span, rendered).Ok?
    ensures forall k :: 0 <= k < |SpliceLines(lines, span, rendered).value| ==> '\n' !in SpliceLines(lines, span, rendered).value[k]
  {
    var spliced := SpliceLines(lines, span, rendered).value;
    var l, e := span.lineno, EndLine(span);
    SplicedLineUnbroken(lines, span, rendered);
    forall k | 0 <= k < |spliced|
      ensures '\n' !in spliced[k]
    {
      if k < l - 1 {
        assert spliced[k] == spliced[..l - 1][k] == lines[k];
      } else if k >= l {
        assert spliced[k] == spliced[l..][k - l] == lines[e + k - l];
      }
    }
  }

  /** When the stripped rendering is one line and the span lies inside the file,
      the text of the result splits into the spliced lines: the lines before the
      span and after it are the file's own. */
  lemma ApplyKeepsOtherLines(text: string, m: Mutation, render: Node -> string)
    requires 1 <= m.context.node.lineno <= EndLine(m.context.node) <= |Strings.SplitLines(text)|
    requires '\n' !in Strings.StripNewlines(render(m.node))
    ensures ApplyMutationOnString(text, m, render).Ok?
    ensures Strings.Split(ApplyMutationOnString(text, m, render).value, '\n')
      == SpliceLines(Strings.SplitLines(text), m.context.node, Strings.StripNewlines(render(m.node))).value
  {
    var lines := Strings.SplitLines(text);
    var rendered := Strings.StripNewlines(render(m.node));
    Strings.SplitLinesUnbroken(text);
    SpliceKeepsLinesUnbroken(lines, m.context.node, rendered);
    Strings.SplitJoin(SpliceLines(lines, m.context.node, rendered).value, '\n');
  }

  /** A one-line span: `5 - 3` at columns 4 to 9 of line 2 becomes `(5 * 3)`. */
  lemma SpliceOneLineExample()
    ensures SpliceLines(["b = 15", "a = 5 - 3 + 1", "c = a + 2"], NodeContext(2, Some(2), 4, Some(9)), "(5 * 3)")
      == Ok(["b = 15", "a = (5 * 3) + 1", "c = a + 2"])
  {
    var lines := ["b = 15", "a = 5 - 3 + 1", "c = a + 2"];
    var span := NodeContext(2, Some(2), 4, Some(9));
    assert Seqs.Take(lines[1], 4) == "a = ";
    assert Seqs.Drop(lines[1], 9) == " + 1";
    var r := SpliceLines(lines, span, "(5 * 3)");
    assert r.value[1] == "a = (5 * 3) + 1";
    assert r.value[..1] == lines[..1] == ["b = 15"];
    assert r.value[2..] == lines[2..] == ["c = a + 2"];
    assert r.value == r.value[..1] + [r.value[1]] + r.value[2..];
    assert r.value == ["b = 15", "a = (5 * 3) + 1", "c = a + 2"];
    assert r == Ok(r.value);
  }

  /** A span over lines 2 and 3 collapses into one line. */
  lemma SpliceMultiLineExample()
    ensures SpliceLines(["b = 15", "a = (5", "    - 3) + 1", "c = a + 2"], NodeContext(2, Some(3), 4, Some(8)), "(5 * 3)")
      == Ok(["b = 15", "a = (5 * 3) + 1", "c = a + 2"])
  {
    var lines := ["b = 15", "a = (5", "    - 3) + 1", "c = a + 2"];
    var span := NodeContext(2, Some(3), 4, Some(8));
    assert Seqs.Take(lines[1], 4) == "a = ";
    assert Seqs.Drop(lines[2], 8) == " + 1";
    var r := SpliceLines(lines, span, "(5 * 3)");
    assert r.value[1] == "a = (5 * 3) + 1";
    assert r.value[..1] == lines[..1] == ["b = 15"];
    assert r.value[2..] == lines[3..] == ["c = a + 2"];
    assert r.value == r.value[..1] + [r.value[1]] + r.value[2..];
    assert r.value == ["b = 15", "a = (5 * 3) + 1", "c = a + 2"];
    assert r == Ok(r.value);
  }
}

=== FILE: patch.dfy ===
/** The patch filter: it keeps a mutation only when its span covers a line that a
    unified diff adds to the mutation's file. Parsing the diff text, and running
    `git diff` to get it, are outside the model; the filter works on the parsed
    diffs, in the shape the patch parser hands them out. */
module Patch {
  import opened Wrappers
  import opened Errors
  import opened Types
  import opened Mutations
  import Paths

  /** One line of a hunk: its number in the old file, in the new file, or both
      (an unchanged context line). */
  datatype Change = Change(oldLine: Option<int>, newLine: Option<int>)

  /** The `+++` side of a file header, with the `b/` prefix already removed. */
  datatype Header = Header(newPath: string)

  /** One file's diff; the parser leaves the header or the change list absent when
      it did not find them. */
  datatype Diff = Diff(header: Option<Header>, changes: Option<seq<Change>>)

  /** A line that exists only in the new file. */
  predicate Added(ch: Change) {
    ch.newLine.Some? && ch.oldLine.None?
  }

  /** The change adds a line between the span's start line and its end line
      (`end_lineno or lineno`), both included. */
  predicate Covers(span: NodeContext, ch: Change) {
    Added(ch) && span.lineno <= ch.newLine.value <= EndLine(span)
  }

  /** `is_mutation_in_diff`: some change of the list is an added line that the
      mutation's span covers. */
  function IsMutationInDiff(m: Mutation, changes: seq<Change>): bool {
    if changes == [] then false
    else Covers(m.context.node, changes[0]) || IsMutationInDiff(m, changes[1..])
  }

  /** The list walk decides exactly the `any(...)` over the change list. */
  lemma {:induction false} InDiffIff(m: Mutation, changes: seq<Change>)
    ensures IsMutationInDiff(m, changes) <==> exists i :: 0 <= i < |changes| && Covers(m.context.node, changes[i])
  {
    if changes != [] {
      InDiffIff(m, changes[1..]);
      if IsMutationInDiff(m, changes[1..]) {
        var i :| 0 <= i < |changes[1..]| && Covers(m.context.node, changes[1..][i]);
        assert Covers(m.context.node, changes[i + 1]);
      }
      forall i | 1 <= i < |changes| && Covers(m.context.node, changes[i])
        ensures IsMutationInDiff(m, changes[1..])
      {
        assert changes[1..][i - 1] == changes[i];
      }
    }
  }

  /** Deleted lines and context lines never let a mutation through. */
  lemma OnlyAdditionsCount(m: Mutation, changes: seq<Change>)
    requires forall i :: 0 <= i < |changes| ==> !Added(changes[i])
    ensures !IsMutationInDiff(m, changes)
  {
    InDiffIff(m, changes);
  }

  /** Widening a span, so that it starts no later and ends no earlier, keeps every
      mutation the narrower span let through. */
  lemma Widening(m: Mutation, wider: Mutation, changes: seq<Change>)
    requires wider.context.node.lineno <= m.context.node.lineno
    requires EndLine(m.context.node) <= EndLine(wider.context.node)
    requires IsMutationInDiff(m, changes)
    ensures IsMutationInDiff(wider, changes)
  {
    InDiffIff(m, changes);
    var i :| 0 <= i < |changes| && Covers(m.context.node, changes[i]);
    assert Covers(wider.context.node, changes[i]);
    InDiffIff(wider, changes);
  }

  /** The diff has both a header and a change list, and its new path is `path`. */
  predicate Decides(d: Diff, path: string) {
    d.header.Some? && d.changes.Some? && d.header.value.newPath == path
  }

  /** The loop of `PatchFilter.__call__`: diffs without a header or without
      changes, and diffs of other files, are skipped; the first remaining one
      decides; when none remains the mutation is rejected. */
  function FirstMatch(diffs: seq<Diff>, m: Mutation, path: string): bool {
    if diffs == [] then false
    else if Decides(diffs[0], path) then IsMutationInDiff(m, diffs[0].changes.value)
    else FirstMatch(diffs[1..], m, path)
  }

  /** `PatchFilter(patch)(mutation, config)`: the mutation's file is taken relative
      to the project root, which raises pathlib's `ValueError` for a file outside
      it, and its text is looked up among the diffs. */
  function PatchFilter(diffs: seq<Diff>, m: Mutation, root: Paths.Path): (r: Result<bool, Exception>)
    ensures r.Err? <==> !Paths.Under(m.context.file.path, root)
    ensures r.Err? ==> r.error.ValueError?
  {
    var rel :- Paths.RelativeTo(m.context.file.path, root);
    Ok(FirstMatch(diffs, m, Paths.ToString(rel)))
  }

  /** The first diff that decides for the file gives the verdict, whatever comes
      after it. */
  lemma {:induction false} FirstDeciderDecides(diffs: seq<Diff>, m: Mutation, path: string, i: nat)
    requires i < |diffs| && Decides(diffs[i], path)
    requires forall j :: 0 <= j < i ==> !Decides(diffs[j], path)
    ensures FirstMatch(diffs, m, path) == IsMutationInDiff(m, diffs[i].changes.value)
  {
    if i > 0 {
      assert !Decides(diffs[0], path);
      assert diffs[1..][i - 1] == diffs[i];
      FirstDeciderDecides(diffs[1..], m, path, i - 1);
    }
  }

  /** With no diff deciding for the file, the mutation is rejected. */
  lemma {:induction false} NoDeciderRejects(diffs: seq<Diff>, m: Mutation, path: string)
    requires forall j :: 0 <= j < |diffs| ==> !Decides(diffs[j], path)
    ensures !FirstMatch(diffs, m, path)
  {
    if diffs != [] {
      assert !Decides(diffs[0], path);
      NoDeciderRejects(diffs[1..], m, path);
    }
  }

  /** Some diff decides for the file, no earlier one does, and its changes add a
      line the span covers. */
  predicate FirstDeciderAccepts(diffs: seq<Diff>, m: Mutation, path: string) {
    exists i :: 0 <= i < |diffs| && Decides(diffs[i], path)
      && (forall j :: 0 <= j < i ==> !Decides(diffs[j], path))
      && IsMutationInDiff(m, diffs[i].changes.value)
  }

  /** The loop accepts exactly when the first diff deciding for the file accepts. */
  lemma {:induction false} FirstMatchIff(diffs: seq<Diff>, m: Mutation, path: string)
    ensures FirstMatch(diffs, m, path) <==> FirstDeciderAccepts(diffs, m, path)
  {
    if diffs != [] {
      if Decides(diffs[0], path) {
        if IsMutationInDiff(m, diffs[0].changes.value) {
          assert FirstDeciderAccepts(diffs, m, path) by {
            assert 0 < |diffs| && Decides(diffs[0], path);
          }
        }
        forall i | 0 < i < |diffs| && Decides(diffs[i], path)
          ensures exists j :: 0 <= j < i && Decides(diffs[j], path)
        {
          assert Decides(diffs[0], path);
        }
      } else {
        FirstMatchIff(diffs[1..], m, path);
        if FirstDeciderAccepts(diffs[1..], m, path) {
          var i :| 0 <= i < |diffs[1..]| && Decides(diffs[1..][i], path)
            && (forall j :: 0 <= j < i ==> !Decides(diffs[1..][j], path))
            && IsMutationInDiff(m, diffs[1..][i].changes.value);
          assert forall j :: 0 <= j < i + 1 ==> !Decides(diffs[j], path) by {
            forall j | 0 < j < i + 1
              ensures !Decides(diffs[j], path)
            {
              assert diffs[j] == diffs[1..][j - 1];
            }
          }
          assert diffs[i + 1] == diffs[1..][i];
        }
        forall i | 0 <= i < |diffs| && Decides(diffs[i], path)
            && (forall j :: 0 <= j < i ==> !Decides(diffs[j], path))
            && IsMutationInDiff(m, diffs[i].changes.value)
          ensures FirstDeciderAccepts(diffs[1..], m, path)
        {
          assert i != 0;
          assert diffs[1..][i - 1] == diffs[i];
          assert forall j :: 0 <= j < i - 1 ==> diffs[1..][j] == diffs[j + 1];
        }
      }
    }
  }

  /** The filter's verdict for a file under the root, stated without the loop. */
  lemma PatchFilterVerdict(diffs: seq<Diff>, m: Mutation, root: Paths.Path)
    requires Paths.Under(m.context.file.path, root)
    ensures PatchFilter(diffs, m, root)
              == Ok(FirstDeciderAccepts(diffs, m, Paths.ToString(Paths.RelativeTo(m.context.file.path, root).value)))
  {
    FirstMatchIff(diffs, m, Paths.ToString(Paths.RelativeTo(m.context.file.path, root).value));
  }

  // The project-root, file and patches of the filter's worked cases.

  function Root(): Paths.Path {
    Paths.Path(true, ["tmp", "project"])
  }

  function InMyFile(lineno: int, endLineno: int): Mutation {
    var c := Context(FileContext(Paths.Path(true, ["tmp", "project", "myfile.py"])), NodeContext(lineno, Some(endLineno), 4, Some(9)), None);
    var n := Ast.Other("BinOp", Ast.NoAttrs, []);
    Mutation(n, n, c)
  }

  /** `@@ -l,1 +l,1 @@` replacing one line of `path`. */
  function EditLine(path: string, l: int): Diff {
    Diff(Some(Header(path)), Some([Change(Some(l), None), Change(None, Some(l))]))
  }

  /** An edit on line 1 lets a line-1 mutation through and rejects a line-2 one;
      an edit on line 2 lets through a mutation spanning lines 1 to 2; a diff
      without hunks, or of another file, rejects. */
  lemma PatchFilterExamples()
    ensures PatchFilter([EditLine("myfile.py", 1)], InMyFile(1, 1), Root()) == Ok(true)
    ensures PatchFilter([EditLine("myfile.py", 1)], InMyFile(2, 2), Root()) == Ok(false)
    ensures PatchFilter([EditLine("myfile.py", 2)], InMyFile(1, 2), Root()) == Ok(true)
    ensures PatchFilter([Diff(Some(Header("myfile.py")), None)], InMyFile(1, 1), Root()) == Ok(false)
    ensures PatchFilter([EditLine("otherfilename.py", 1)], InMyFile(1, 1), Root()) == Ok(false)
    ensures PatchFilter([EditLine("myfile.py", 1)], InMyFile(1, 1), Paths.Path(true, ["elsewhere"])).Err?
  {
    var rel := Paths.RelativeTo(InMyFile(1, 1).context.file.path, Root());
    assert rel == Ok(Paths.Path(false, ["myfile.py"]));
    assert Paths.ToString(Paths.Path(false, ["myfile.py"])) == "myfile.py";
    assert ["tmp", "project", "myfile.py"][..1] != ["elsewhere"] by {
      assert ["tmp", "project", "myfile.py"][..1][0] == "tmp";
    }
  }
}

=== FILE: paths.dfy ===
/** POSIX paths as `pathlib.PurePosixPath` holds them: a flag for a leading "/" and
    the list of parts, with empty and "." parts dropped. */
module Paths {
  import opened Wrappers
  import opened Errors
  import Strings

  datatype Path = Path(absolute: bool, parts: seq<string>)

  /** A part pathlib keeps after parsing. */
  predicate ValidPart(p: string) {
    p != "" && p != "." && '/' !in p
  }

  predicate Valid(p: Path) {
    forall k :: 0 <= k < |p.parts| ==> ValidPart(p.parts[k])
  }

  /** The pieces of a "/"-split string that pathlib keeps, in order. */
  function KeepParts(pieces: seq<string>): (r: seq<string>)
    requires forall k :: 0 <= k < |pieces| ==> '/' !in pieces[k]
    ensures forall k :: 0 <= k < |r| ==> ValidPart(r[k])
    ensures (forall k :: 0 <= k < |pieces| ==> ValidPart(pieces[k])) ==> r == pieces
  {
    if pieces == [] then []
    else if pieces[0] == "" || pieces[0] == "." then KeepParts(pieces[1..])
    else [pieces[0]] + KeepParts(pieces[1..])
  }

  /** `PurePosixPath(s)`. */
  function Parse(s: string): (p: Path)
    ensures Valid(p)
    ensures p.absolute <==> Strings.StartsWith(s, "/")
  {
    Path(Strings.StartsWith(s, "/"), KeepParts(Strings.Split(s, '/')))
  }

  /** `str(p)`. */
  function ToString(p: Path): string {
    if p.absolute then "/" + Strings.Join(p.parts, '/')
    else if p.parts == [] then "."
    else Strings.Join(p.parts, '/')
  }

  /** Printing a path and parsing the text back gives the same path. */
  lemma ParseToString(p: Path)
    requires Valid(p)
    ensures Parse(ToString(p)) == p
  {
    if p.absolute && p.parts == [] {
      ParseRoot();
    } else if p.absolute {
      ParseAbsolute(p.parts);
    } else if p.parts == [] {
      ParseDot();
    } else {
      ParseRelative(p.parts);
    }
  }

  lemma ParseRoot()
    ensures Parse("/") == Path(true, [])
  {
    assert Strings.Join(["", ""], '/') == "/";
    Strings.SplitJoin(["", ""], '/');
  }

  lemma ParseAbsolute(parts: seq<string>)
    requires parts != [] && Valid(Path(true, parts))
    ensures Parse("/" + Strings.Join(parts, '/')) == Path(true, parts)
  {
    var s := "/" + Strings.Join(parts, '/');
    assert Strings.Join([""] + parts, '/') == "" + ['/'] + Strings.Join(parts, '/');
    assert ([""] + parts)[1..] == parts;
    Strings.SplitJoin([""] + parts, '/');
    assert Strings.StartsWith(s, "/");
  }

  lemma ParseDot()
    ensures Parse(".") == Path(false, [])
  {
    assert '/' !in ".";
    assert Strings.Split(".", '/') == ["."];
    assert KeepParts(["."]) == [];
    assert "."[..1][0] == '.';
  }

  lemma ParseRelative(parts: seq<string>)
    requires parts != [] && Valid(Path(false, parts))
    ensures Parse(Strings.Join(parts, '/')) == Path(false, parts)
  {
    var s := Strings.Join(parts, '/');
    assert s[0] == parts[0][0] by {
      if |parts| > 1 {
        assert s == parts[0] + ['/'] + Strings.Join(parts[1..], '/');
      }
    }
    assert ValidPart(parts[0]) && parts[0][0] in parts[0];
    assert !Strings.StartsWith(s, "/");
    Strings.SplitJoin(parts, '/');
  }

  /** `a / b`: an absolute right-hand side replaces the left-hand side. */
  function Join(a: Path, b: Path): (r: Path)
    ensures b.absolute ==> r == b
    ensures !b.absolute ==> r.absolute == a.absolute && r.parts == a.parts + b.parts
  {
    if b.absolute then b else Path(a.absolute, a.parts + b.parts)
  }

  /** `root` is `p` itself or one of its ancestors. */
  predicate Under(p: Path, root: Path) {
    p.absolute == root.absolute && |root.parts| <= |p.parts| && p.parts[..|root.parts|] == root.parts
  }

  /** `p.relative_to(root)`: the relative path leading from `root` to `p`, or the
      `ValueError` pathlib raises when `p` is not under `root`. */
  function RelativeTo(p: Path, root: Path): (r: Result<Path, Exception>)
    ensures r.Ok? <==> Under(p, root)
    ensures r.Ok? ==> !r.value.absolute && Join(root, r.value) == p
  {
    if Under(p, root) then Ok(Path(false, p.parts[|root.parts|..]))
    else Err(ValueError(ToString(p) + " is not in the subpath of " + ToString(root)))
  }

  /** `p.parents`: every strict ancestor, nearest first, ending at "/" or ".". */
  function Parents(p: Path): (r: seq<Path>)
    ensures |r| == |p.parts|
    ensures forall k :: 0 <= k < |r| ==> r[k] == Path(p.absolute, p.parts[..|p.parts| - 1 - k])
  {
    seq(|p.parts|, k requires 0 <= k < |p.parts| => Path(p.absolute, p.parts[..|p.parts| - 1 - k]))
  }

  /** `p.name`: the final part, or "" for "/" and ".". */
  function Name(p: Path): string {
    if p.parts == [] then "" else p.parts[|p.parts| - 1]
  }

  /** The last position of `c` in `s`. */
  function LastIndexOf(s: string, c: char): (i: nat)
    requires c in s
    ensures i < |s| && s[i] == c && c !in s[i + 1..]
  {
    if s[|s| - 1] == c then |s| - 1
    else
      assert s == s[..|s| - 1] + [s[|s| - 1]];
      LastIndexOf(s[..|s| - 1], c)
  }

  /** `p.suffix`: the final part from its last "." on, provided that dot is neither
      the first nor the last character of the name; otherwise "". */
  function Suffix(p: Path): (r: string)
    ensures r != "" ==> 2 <= |r| < |Name(p)| && r[0] == '.' && r == Name(p)[|Name(p)| - |r|..]
    ensures r != "" ==> '.' !in r[1..]
  {
    var name := Name(p);
    if '.' !in name then ""
    else
      var i := LastIndexOf(name, '.');
      if 0 < i < |name| - 1 then name[i..] else ""
  }

  /** `p.parent`: the path without its final part; "/" and "." are their own parents. */
  function Parent(p: Path): (r: Path)
    ensures r.absolute == p.absolute
    ensures p.parts != [] ==> Join(r, Path(false, [Name(p)])) == p
    ensures p.parts == [] ==> r == p
  {
    if p.parts == [] then p
    else
      assert p.parts == p.parts[..|p.parts| - 1] + [Name(p)];
      Path(p.absolute, p.parts[..|p.parts| - 1])
  }

  /** The parent of a path joined with one more name is the path itself. */
  lemma ParentOfChild(p: Path, name: string)
    ensures Parent(Join(p, Path(false, [name]))) == p
  {
    assert (p.parts + [name])[..|p.parts|] == p.parts;
  }

  /** A name whose last "." sits strictly inside it has the suffix from that dot on. */
  lemma SuffixAt(p: Path, i: nat)
    requires p.parts != [] && 0 < i < |Name(p)| - 1 && Name(p)[i] == '.' && '.' !in Name(p)[i + 1..]
    ensures Suffix(p) == Name(p)[i..]
  {
    var name := Name(p);
    var j := LastIndexOf(name, '.');
    assert forall k :: j < k < |name| ==> name[k] != '.' by {
      assert forall k :: j < k < |name| ==> name[k] == name[j + 1..][k - j - 1];
    }
    assert forall k :: i < k < |name| ==> name[k] != '.' by {
      assert forall k :: i < k < |name| ==> name[k] == name[i + 1..][k - i - 1];
    }
    assert j == i;
  }
}

=== FILE: radiation.dfy ===
/** The `Radiation` front end: the context a module's walk starts from, the
    argument handling of `find_files`, and `gen_mutations_str`, which walks a
    parsed module and keeps the mutations every filter accepts. Parsing the code
    and globbing the file system are outside the model: the module arrives as its
    list of statements, and `find_files` stops at the search patterns it would
    hand to the globber. */
module Radiation {
  import opened Wrappers
  import opened Errors
  import opened Types
  import opened Ast
  import opened Mutations
  import Contexts
  import Gen
  import Patch
  import LineLimit
  import Paths
  import Strings

  /** `_get_initial_context(path, module)`: from the first statement's start to the
      last statement's end. The keyword arguments are read in order, so the first
      missing attribute among them names the `AttributeError`; an empty module is
      an `IndexError`. */
  function InitialContext(path: Paths.Path, body: seq<Node>): (r: Result<Context, Exception>)
    ensures body == [] ==> r == Err(IndexError)
    ensures r.Ok? <==> body != [] && body[0].attrs.lineno.Has? && body[|body| - 1].attrs.endLineno.Has?
                       && body[0].attrs.colOffset.Has? && body[|body| - 1].attrs.endColOffset.Has?
    ensures r.Ok? ==> r.value.file == FileContext(path) && r.value.extra.None?
    ensures r.Ok? ==> r.value.node.lineno == body[0].attrs.lineno.value && r.value.node.colOffset == body[0].attrs.colOffset.value
    ensures r.Ok? ==> r.value.node.endLineno == body[|body| - 1].attrs.endLineno.value
                      && r.value.node.endColOffset == body[|body| - 1].attrs.endColOffset.value
  {
    if body == [] then Err(IndexError)
    else
      var first := body[0].attrs;
      var last := body[|body| - 1].attrs;
      if first.lineno.Missing? then Err(AttributeError("lineno"))
      else if last.endLineno.Missing? then Err(AttributeError("end_lineno"))
      else if first.colOffset.Missing? then Err(AttributeError("col_offset"))
      else if last.endColOffset.Missing? then Err(AttributeError("end_col_offset"))
      else Ok(NewContext(FileContext(path), NodeContext(first.lineno.value, last.endLineno.value, first.colOffset.value, last.endColOffset.value)))
  }

  /** A module of one positioned statement starts from exactly the context the
      statement would derive for itself under any parent in that file. */
  lemma OneStatementContext(path: Paths.Path, s: Node, parent: Context)
    requires Contexts.Positioned(s) && parent.file == FileContext(path)
    ensures InitialContext(path, [s]) == Ok(Contexts.GetContext(s, parent))
  {
  }

  const RelativeMessage := "paths must be relative"

  /** `_assert_relative(paths)`: the `AssertionError` when any path starts with "/". */
  function AssertRelative(paths: seq<string>): (r: Result<(), Exception>) {
    if paths == [] then Ok(())
    else if Strings.StartsWith(paths[0], "/") then Err(AssertionError(RelativeMessage))
    else AssertRelative(paths[1..])
  }

  /** The walk raises exactly when some path is absolute, and always with the same
      message. */
  lemma {:induction false} AssertRelativeIff(paths: seq<string>)
    ensures AssertRelative(paths).Err? <==> exists i :: 0 <= i < |paths| && Strings.StartsWith(paths[i], "/")
    ensures AssertRelative(paths).Err? ==> AssertRelative(paths) == Err(AssertionError(RelativeMessage))
  {
    if paths != [] {
      AssertRelativeIff(paths[1..]);
      if exists i :: 0 <= i < |paths[1..]| && Strings.StartsWith(paths[1..][i], "/") {
        var i :| 0 <= i < |paths[1..]| && Strings.StartsWith(paths[1..][i], "/");
        assert paths[i + 1] == paths[1..][i];
      }
      forall i | 1 <= i < |paths| && Strings.StartsWith(paths[i], "/")
        ensures exists k :: 0 <= k < |paths[1..]| && Strings.StartsWith(paths[1..][k], "/")
      {
        assert paths[1..][i - 1] == paths[i];
      }
    }
  }

  /** The `globs` argument of `find_files`: one pattern or a list of them. */
  datatype Globs = One(glob: string) | Many(globs: seq<string>)

  /** What `find_files` hands to the globber: the search patterns in order, and the
      excluded paths. */
  datatype FileSearch = FileSearch(searches: seq<string>, excludes: seq<Paths.Path>)

  /** `[globs] if isinstance(globs, str) else globs`. */
  function GlobList(g: Globs): (r: seq<string>)
    ensures g.One? ==> r == [g.glob]
    ensures g.Many? ==> r == g.globs
  {
    match g
    case One(s) => [s]
    case Many(l) => l
  }

  /** `[exclude] if exclude else excludes or []`: a non-empty single exclude wins,
      and an absent list means none. */
  function ExcludeList(exclude: Option<string>, excludes: Option<seq<string>>): (r: seq<string>)
    ensures exclude.Some? && exclude.value != "" ==> r == [exclude.value]
    ensures (exclude.None? || exclude.value == "") && excludes.None? ==> r == []
    ensures (exclude.None? || exclude.value == "") && excludes.Some? ==> r == excludes.value
  {
    if exclude.Some? && exclude.value != "" then [exclude.value] else excludes.GetOr([])
  }

  /** `os.path.join(a, b)` for two text paths: an absolute `b` replaces `a`, and a
      separator is put in between unless `a` is empty or already ends with one. */
  function JoinText(a: string, b: string): (r: string)
    ensures Strings.StartsWith(b, "/") ==> r == b
    ensures !Strings.StartsWith(b, "/") ==> |b| <= |r| && r[|r| - |b|..] == b && Strings.StartsWith(r, a)
  {
    if Strings.StartsWith(b, "/") then b
    else if a == "" || a[|a| - 1] == '/' then a + b
    else a + "/" + b
  }

  /** The argument handling of `Radiation.find_files`: the patterns are checked
      before the excludes, each pattern is searched under the project root, and each
      exclude becomes a path under it. */
  function FindFiles(root: Paths.Path, globs: Globs, exclude: Option<string>, excludes: Option<seq<string>>): (r: Result<FileSearch, Exception>)
  {
    var gs := GlobList(globs);
    var es := ExcludeList(exclude, excludes);
    var _ :- AssertRelative(gs);
    var _ :- AssertRelative(es);
    Ok(FileSearch(
      seq(|gs|, i requires 0 <= i < |gs| => JoinText(Paths.ToString(root), gs[i])),
      seq(|es|, i requires 0 <= i < |es| => Paths.Join(root, Paths.Parse(es[i])))))
  }

  /** `find_files` refuses any absolute pattern or exclude; otherwise there is one
      search per pattern, in order, each the root's text followed by the pattern,
      and one exclude per exclude, each a path under the root. */
  lemma FindFilesSpec(root: Paths.Path, globs: Globs, exclude: Option<string>, excludes: Option<seq<string>>)
    ensures var gs := GlobList(globs);
            var es := ExcludeList(exclude, excludes);
            var r := FindFiles(root, globs, exclude, excludes);
            && (r.Err? <==> (exists i :: 0 <= i < |gs| && Strings.StartsWith(gs[i], "/"))
                            || (exists i :: 0 <= i < |es| && Strings.StartsWith(es[i], "/")))
            && (r.Err? ==> r.error == AssertionError(RelativeMessage))
            && (r.Ok? ==> |r.value.searches| == |gs| && |r.value.excludes| == |es|)
            && (r.Ok? ==> forall i :: 0 <= i < |gs| ==>
                  Strings.StartsWith(r.value.searches[i], Paths.ToString(root))
                  && r.value.searches[i][|r.value.searches[i]| - |gs[i]|..] == gs[i])
            && (r.Ok? ==> forall i :: 0 <= i < |es| ==> Paths.Under(r.value.excludes[i], root))
  {
    var gs := GlobList(globs);
    var es := ExcludeList(exclude, excludes);
    AssertRelativeIff(gs);
    AssertRelativeIff(es);
    var r := FindFiles(root, globs, exclude, excludes);
    if r.Ok? {
      forall i | 0 <= i < |es|
        ensures Paths.Under(r.value.excludes[i], root)
      {
        assert !Strings.StartsWith(es[i], "/");
        var p := Paths.Parse(es[i]);
        assert r.value.excludes[i] == Paths.Join(root, p);
        assert (root.parts + p.parts)[..|root.parts|] == root.parts;
      }
    }
  }

  // An absolute exclude or pattern is refused; patterns are searched under the
  // root, and an empty single exclude gives way to the list.
  lemma FindFilesRefusals()
    ensures FindFiles(Paths.Path(true, ["tmp"]), One("."), Some("/dir/*.py"), None) == Err(AssertionError(RelativeMessage))
    ensures FindFiles(Paths.Path(true, ["tmp"]), One("/dir/*.py"), None, None) == Err(AssertionError(RelativeMessage))
  {
    assert Strings.StartsWith("/dir/*.py", "/");
  }

  lemma FindFilesExample()
    ensures FindFiles(Paths.Path(true, ["tmp"]), Many(["dir", "b*"]), Some(""), Some(["x"]))
            == Ok(FileSearch(["/tmp/dir", "/tmp/b*"], [Paths.Path(true, ["tmp", "x"])]))
  {
    assert Strings.Split("x", '/') == ["x"];
    assert Paths.Parse("x") == Paths.Path(false, ["x"]);
    assert Paths.Join(Paths.Path(true, ["tmp"]), Paths.Path(false, ["x"])) == Paths.Path(true, ["tmp", "x"]);
    assert Paths.ToString(Paths.Path(true, ["tmp"])) == "/tmp";
    assert JoinText("/tmp", "dir") == "/tmp/dir";
    assert JoinText("/tmp", "b*") == "/tmp/b*";
    assert ExcludeList(Some(""), Some(["x"])) == ["x"];
    assert AssertRelative(["dir", "b*"]) == Ok(());
    assert AssertRelative(["x"]) == Ok(());
    var r := FindFiles(Paths.Path(true, ["tmp"]), Many(["dir", "b*"]), Some(""), Some(["x"]));
    assert r.Ok?;
    assert r.value.searches == ["/tmp/dir", "/tmp/b*"] by {
      assert |r.value.searches| == 2;
      assert r.value.searches[0] == "/tmp/dir" && r.value.searches[1] == "/tmp/b*";
    }
    assert r.value.excludes == [Paths.Path(true, ["tmp", "x"])] by {
      assert |r.value.excludes| == 1;
      assert r.value.excludes[0] == Paths.Path(true, ["tmp", "x"]);
    }
  }

  /** A filter of the pipeline with its current state: the patch filter holds
      the parsed diffs and keeps no state, the line-density cap holds its counters. */
  datatype MutantFilter = ByPatch(diffs: seq<Patch.Diff>) | ByLineLimit(limiter: LineLimit.LineLimitFilter)

  /** `filter_fn(mutation, config)`: the verdict and the filter's next state. */
  function ApplyFilter(f: MutantFilter, m: Mutation, root: Paths.Path): (r: Result<(bool, MutantFilter), Exception>)
    ensures f.ByPatch? ==> (r.Ok? <==> Paths.Under(m.context.file.path, root))
    ensures f.ByPatch? && r.Ok? ==> r.value.1 == f
    ensures f.ByLineLimit? ==> r.Ok? && r.value.1.ByLineLimit? && r.value.1.limiter.limit == f.limiter.limit
    ensures f.ByLineLimit? ==> (r.value.0 <==> LineLimit.Count(f.limiter, LineLimit.KeyOf(m)) < f.limiter.limit)
  {
    match f
    case ByPatch(diffs) =>
      var v :- Patch.PatchFilter(diffs, m, root);
      Ok((v, f))
    case ByLineLimit(limiter) =>
      var (v, next) := LineLimit.Call(limiter, m);
      Ok((v, ByLineLimit(next)))
  }

  /** `all(filter_fn(mut, self.config) for filter_fn in self.filters)`: the filters
      are asked left to right, and the first rejection stops the walk, so the
      filters after it are not called and keep their state. */
  function AllAccept(fs: seq<MutantFilter>, m: Mutation, root: Paths.Path): Result<(bool, seq<MutantFilter>), Exception> {
    if fs == [] then Ok((true, []))
    else
      var head :- ApplyFilter(fs[0], m, root);
      var (v, f) := head;
      if !v then Ok((false, [f] + fs[1..]))
      else
        var tail :- AllAccept(fs[1..], m, root);
        Ok((tail.0, [f] + tail.1))
  }

  /** Every filter keeps its place in the returned list. */
  lemma {:induction false} AllAcceptLength(fs: seq<MutantFilter>, m: Mutation, root: Paths.Path)
    ensures AllAccept(fs, m, root).Ok? ==> |AllAccept(fs, m, root).value.1| == |fs|
  {
    if fs != [] {
      AllAcceptLength(fs[1..], m, root);
    }
  }

  /** Acceptance means every filter was asked, accepted, and moved to the state it
      returned. */
  lemma {:induction false} AllAccepted(fs: seq<MutantFilter>, m: Mutation, root: Paths.Path)
    requires AllAccept(fs, m, root).Ok? && AllAccept(fs, m, root).value.0
    ensures |AllAccept(fs, m, root).value.1| == |fs|
    ensures forall i :: 0 <= i < |fs| ==> ApplyFilter(fs[i], m, root) == Ok((true, AllAccept(fs, m, root).value.1[i]))
  {
    AllAcceptLength(fs, m, root);
    if fs != [] {
      var next := AllAccept(fs, m, root).value.1;
      var head := ApplyFilter(fs[0], m, root).value;
      var rest := AllAccept(fs[1..], m, root);
      AllAccepted(fs[1..], m, root);
      assert next == [head.1] + rest.value.1;
      forall i | 1 <= i < |fs|
        ensures ApplyFilter(fs[i], m, root) == Ok((true, next[i]))
      {
        assert fs[i] == fs[1..][i - 1] && next[i] == rest.value.1[i - 1];
      }
    }
  }

  /** Filter `k` rejected the mutation and moved to `next[k]`, every filter before
      it accepted and moved to its entry of `next`, and every filter after it is
      left as it was. */
  predicate RejectedAt(fs: seq<MutantFilter>, next: seq<MutantFilter>, m: Mutation, root: Paths.Path, k: nat) {
    k < |fs| && |next| == |fs|
    && ApplyFilter(fs[k], m, root) == Ok((false, next[k]))
    && (forall i :: 0 <= i < k ==> ApplyFilter(fs[i], m, root) == Ok((true, next[i])))
    && next[k + 1..] == fs[k + 1..]
  }

  /** A rejection comes from one filter: every filter before it accepted, and every
      filter after it was not called and keeps its state. */
  lemma {:induction false} AllAcceptRejected(fs: seq<MutantFilter>, m: Mutation, root: Paths.Path)
    requires AllAccept(fs, m, root).Ok? && !AllAccept(fs, m, root).value.0
    ensures exists k :: RejectedAt(fs, AllAccept(fs, m, root).value.1, m, root, k)
  {
    AllAcceptLength(fs, m, root);
    var next := AllAccept(fs, m, root).value.1;
    var head := ApplyFilter(fs[0], m, root).value;
    if !head.0 {
      assert next == [head.1] + fs[1..];
      assert next[1..] == fs[1..];
      assert RejectedAt(fs, next, m, root, 0);
    } else {
      var rest := AllAccept(fs[1..], m, root).value.1;
      AllAcceptRejected(fs[1..], m, root);
      assert next == [head.1] + rest;
      var k :| RejectedAt(fs[1..], rest, m, root, k);
      RejectedAtShift(fs, head.1, rest, m, root, k);
    }
  }

  /** A rejection further down the list, behind a first filter that accepted. */
  lemma RejectedAtShift(fs: seq<MutantFilter>, h: MutantFilter, rest: seq<MutantFilter>, m: Mutation, root: Paths.Path, k: nat)
    requires fs != [] && ApplyFilter(fs[0], m, root) == Ok((true, h))
    requires RejectedAt(fs[1..], rest, m, root, k)
    ensures RejectedAt(fs, [h] + rest, m, root, k + 1)
  {
    var next := [h] + rest;
    forall i | 1 <= i < k + 1
      ensures ApplyFilter(fs[i], m, root) == Ok((true, next[i]))
    {
      assert fs[i] == fs[1..][i - 1] && next[i] == rest[i - 1];
    }
    assert next[k + 2..] == rest[k + 1..];
    assert fs[k + 2..] == fs[1..][k + 1..];
    assert fs[k + 1] == fs[1..][k] && next[k + 1] == rest[k];
  }

  /** The filter loop of `gen_mutations_str`: the mutations every filter accepts,
      in order, with the filters' state threaded from one mutation to the next.
      An error raised by a filter ends the walk. */
  function FilterAll(fs: seq<MutantFilter>, ms: seq<Mutation>, root: Paths.Path): Result<(seq<Mutation>, seq<MutantFilter>), Exception>
    decreases |ms|
  {
    if ms == [] then Ok(([], fs))
    else
      var head :- AllAccept(fs, ms[0], root);
      var tail :- FilterAll(head.1, ms[1..], root);
      Ok((if head.0 then [ms[0]] + tail.0 else tail.0, tail.1))
  }

  /** With no filters every mutation is kept. */
  lemma {:induction false} NoFiltersKeepAll(ms: seq<Mutation>, root: Paths.Path)
    ensures FilterAll([], ms, root) == Ok((ms, []))
  {
    if ms != [] {
      NoFiltersKeepAll(ms[1..], root);
      assert [ms[0]] + ms[1..] == ms;
    }
  }

  /** `ms` with only the entries whose verdict is true, in order. */
  function Select(ms: seq<Mutation>, verdicts: seq<bool>): (r: seq<Mutation>)
    requires |verdicts| == |ms|
    ensures |r| <= |ms|
  {
    if ms == [] then []
    else (if verdicts[0] then [ms[0]] else []) + Select(ms[1..], verdicts[1..])
  }

  /** The kept mutations come out in the order they were generated. */
  lemma {:induction false} FilterAllIsSelection(fs: seq<MutantFilter>, ms: seq<Mutation>, root: Paths.Path)
    ensures FilterAll(fs, ms, root).Ok? ==>
              exists vs :: |vs| == |ms| && FilterAll(fs, ms, root).value.0 == Select(ms, vs)
    decreases |ms|
  {
    if ms != [] {
      var head := AllAccept(fs, ms[0], root);
      if head.Ok? {
        FilterAllIsSelection(head.value.1, ms[1..], root);
        var tail := FilterAll(head.value.1, ms[1..], root);
        if tail.Ok? {
          var vs :| |vs| == |ms[1..]| && tail.value.0 == Select(ms[1..], vs);
          var all := [head.value.0] + vs;
          assert all[1..] == vs;
          assert FilterAll(fs, ms, root).value.0 == Select(ms, all);
        }
      }
    } else {
      assert FilterAll(fs, ms, root).value.0 == Select(ms, []);
    }
  }

  /** A lone line-density cap keeps exactly the mutations its own run accepts and
      ends in the state that run ends in. */
  lemma {:induction false} LoneLimiter(f: LineLimit.LineLimitFilter, ms: seq<Mutation>, root: Paths.Path)
    ensures |LineLimit.Run(f, ms).1| == |ms|
    ensures FilterAll([ByLineLimit(f)], ms, root)
            == Ok((Select(ms, LineLimit.Run(f, ms).1), [ByLineLimit(LineLimit.Run(f, ms).0)]))
    decreases |ms|
  {
    LineLimit.RunCounts(f, ms, (root, 0));
    if ms != [] {
      var g := LineLimit.Call(f, ms[0]).1;
      LoneLimiter(g, ms[1..], root);
      assert ApplyFilter(ByLineLimit(f), ms[0], root) == Ok((LineLimit.Call(f, ms[0]).0, ByLineLimit(g)));
      assert [ByLineLimit(f)][1..] == [];
      assert AllAccept([], ms[0], root) == Ok((true, []));
      assert [ByLineLimit(g)] + [] == [ByLineLimit(g)];
      var v := LineLimit.Call(f, ms[0]).0;
      var rest := LineLimit.Run(g, ms[1..]);
      assert LineLimit.Run(f, ms) == (rest.0, [v] + rest.1);
      assert ([v] + rest.1)[1..] == rest.1;
      assert Select(ms, [v] + rest.1) == (if v then [ms[0]] else []) + Select(ms[1..], rest.1);
      assert [] + Select(ms[1..], rest.1) == Select(ms[1..], rest.1);
      var tail := FilterAll([ByLineLimit(g)], ms[1..], root);
      assert tail == Ok((Select(ms[1..], rest.1), [ByLineLimit(rest.0)]));
      assert FilterAll([ByLineLimit(f)], ms, root) == Ok(((if v then [ms[0]] + tail.value.0 else tail.value.0), tail.value.1));
      assert AllAccept([ByLineLimit(f)], ms[0], root) == Ok((LineLimit.Call(f, ms[0]).0, [ByLineLimit(g)]));
    }
  }

  /** Where `gen_mutations_str` says the code lives: an absolute path as given, a
      relative one (by default `<code>`) under the project root. */
  function ResolvePath(root: Paths.Path, path: Paths.Path): (r: Paths.Path)
    ensures path.absolute ==> r == path
    ensures !path.absolute ==> Paths.Under(r, root) && Paths.RelativeTo(r, root) == Ok(path)
  {
    if path.absolute then path
    else
      var r := Paths.Join(root, path);
      assert r.parts[..|root.parts|] == root.parts;
      assert r.parts[|root.parts|..] == path.parts;
      r
  }

  /** `"<code>"`, the path of code given without one. */
  const DefaultCodePath := Paths.Path(false, ["<code>"])

  /** `Module(body, type_ignores)`: the root of the walk. */
  function ModuleNode(body: seq<Node>): Node {
    Other("Module", NoAttrs, [List(Trees(body)), List([])])
  }

  /** `Radiation(config, filters=..., mutators=...).gen_mutations_str(code, path)`
      for the parsed statements of `code`: nothing for an empty module; otherwise
      the walk of the module from its initial context, kept by the filters. The
      filters' next state is returned with the mutations. */
  function GenMutationsStr(root: Paths.Path, mutators: seq<Gen.Mutator>, fs: seq<MutantFilter>, body: seq<Node>, path: Paths.Path)
    : Result<(seq<Mutation>, seq<MutantFilter>), Exception>
  {
    var file := ResolvePath(root, path);
    if |body| == 0 then Ok(([], fs))
    else
      var start :- InitialContext(file, body);
      FilterAll(fs, Gen.GenMutations(ModuleNode(body), start, mutators), root)
  }

  /** An empty module yields nothing and leaves the filters as they were. */
  lemma EmptyModule(root: Paths.Path, mutators: seq<Gen.Mutator>, fs: seq<MutantFilter>, path: Paths.Path)
    ensures GenMutationsStr(root, mutators, fs, [], path) == Ok(([], fs))
  {
  }

  /** The walk of a module whose first and last statements carry their positions:
      the module node visited from the context spanning its statements. */
  function ModuleWalk(root: Paths.Path, mutators: seq<Gen.Mutator>, body: seq<Node>, path: Paths.Path): seq<Mutation>
    requires body != [] && Contexts.Positioned(body[0]) && Contexts.Positioned(body[|body| - 1])
  {
    Gen.GenMutations(ModuleNode(body), InitialContext(ResolvePath(root, path), body).value, mutators)
  }

  /** Without filters, such a module yields its whole walk, and the walk starts in
      the resolved file. */
  lemma UnfilteredModule(root: Paths.Path, mutators: seq<Gen.Mutator>, body: seq<Node>, path: Paths.Path)
    requires body != [] && Contexts.Positioned(body[0]) && Contexts.Positioned(body[|body| - 1])
    ensures InitialContext(ResolvePath(root, path), body).Ok?
    ensures InitialContext(ResolvePath(root, path), body).value.file.path == ResolvePath(root, path)
    ensures GenMutationsStr(root, mutators, [], body, path) == Ok((ModuleWalk(root, mutators, body, path), []))
  {
    NoFiltersKeepAll(ModuleWalk(root, mutators, body, path), root);
  }

  /** With the default cap as the only filter and every mutation of the module on
      one start line of the file, the first two are kept and the rest dropped. */
  lemma DefaultLimitKeepsTwo(root: Paths.Path, mutators: seq<Gen.Mutator>, body: seq<Node>, path: Paths.Path, k: LineLimit.Key)
    requires body != [] && Contexts.Positioned(body[0]) && Contexts.Positioned(body[|body| - 1])
    requires forall j :: 0 <= j < |ModuleWalk(root, mutators, body, path)| ==> LineLimit.KeyOf(ModuleWalk(root, mutators, body, path)[j]) == k
    ensures GenMutationsStr(root, mutators, [ByLineLimit(LineLimit.Default())], body, path).Ok?
    ensures var ms := ModuleWalk(root, mutators, body, path);
            GenMutationsStr(root, mutators, [ByLineLimit(LineLimit.Default())], body, path).value.0
              == if |ms| <= 2 then ms else ms[..2]
  {
    var ms := ModuleWalk(root, mutators, body, path);
    var f := LineLimit.Default();
    LoneLimiter(f, ms, root);
    LineLimit.FreshRunOnOneKey(2, ms, k);
    SelectPrefix(ms, LineLimit.Run(f, ms).1, 2);
  }

  /** Selecting with verdicts that are true exactly on the first `n` positions
      keeps the first `n` entries. */
  lemma {:induction false} SelectPrefix(ms: seq<Mutation>, vs: seq<bool>, n: nat)
    requires |vs| == |ms|
    requires forall j :: 0 <= j < |vs| ==> (vs[j] <==> j < n)
    ensures Select(ms, vs) == if |ms| <= n then ms else ms[..n]
  {
    if ms != [] {
      if n == 0 {
        SelectNone(ms, vs);
      } else {
        SelectPrefix(ms[1..], vs[1..], n - 1);
        if |ms| <= n {
          assert [ms[0]] + ms[1..] == ms;
        } else {
          assert [ms[0]] + ms[1..][..n - 1] == ms[..n];
        }
      }
    }
  }

  /** All-false verdicts keep nothing. */
  lemma {:induction false} SelectNone(ms: seq<Mutation>, vs: seq<bool>)
    requires |vs| == |ms|
    requires forall j :: 0 <= j < |vs| ==> !vs[j]
    ensures Select(ms, vs) == []
  {
    if ms != [] {
      SelectNone(ms[1..], vs[1..]);
    }
  }
}

=== FILE: samples.dfy ===
/** Small trees and contexts for the worked examples: nodes on line 1 of a file
    `a.py`, at the columns the parser gives them. */
module Samples {
  import opened Wrappers
  import opened Types
  import opened Ast
  import Paths

  /** The context the walk starts from in the examples: line 1, column 0, no end. */
  function StartContext(): Context {
    Context(FileContext(Paths.Path(false, ["a.py"])), NodeContext(1, None, 0, None), None)
  }

  /** The context of a node spanning columns `col` to `endCol` of line 1 of `a.py`. */
  function At(col: int, endCol: int): Context {
    Context(FileContext(Paths.Path(false, ["a.py"])), NodeContext(1, Some(1), col, Some(endCol)), None)
  }

  function Name(id: string, col: int): Node {
    Other("Name", Span(1, 1, col, col + |id|), [Atom(StrLit(id)), Op(OpCtx(Load))])
  }

  function Int(v: int, col: int): Node {
    Constant(Span(1, 1, col, col + 1), IntLit(v), None)
  }
}

=== FILE: seqs.dfy ===
/** Python's sequence indexing and slicing, stated over Dafny sequences. Python
    accepts negative indices (counting from the end) and clamps slice bounds that
    fall outside the sequence; only a plain index outside `-len <= i < len`
    raises `IndexError`. */
module Seqs {
  import opened Wrappers

  /** The position a Python slice bound `k` denotes in a sequence of length `n`. */
  function SliceBound(k: int, n: nat): (b: nat)
    ensures b <= n
    ensures 0 <= k <= n ==> b == k
    ensures n < k ==> b == n
    ensures k < 0 && -k <= n ==> b == n + k
    ensures k < 0 && n < -k ==> b == 0
  {
    if k < 0 then (if n + k < 0 then 0 else n + k)
    else if k < n then k
    else n
  }

  /** Python's `s[:k]`: a prefix of `s`. */
  function Take<T>(s: seq<T>, k: int): (r: seq<T>)
    ensures |r| <= |s| && r == s[..|r|]
    ensures 0 <= k <= |s| ==> |r| == k
    ensures |s| < k ==> r == s
  {
    s[..SliceBound(k, |s|)]
  }

  /** Python's `s[k:]`: a suffix of `s`. */
  function Drop<T>(s: seq<T>, k: int): (r: seq<T>)
    ensures |r| <= |s| && r == s[|s| - |r|..]
    ensures 0 <= k <= |s| ==> |r| == |s| - k
    ensures k <= -|s| ==> r == s
  {
    s[SliceBound(k, |s|)..]
  }

  /** Python's `s[i:j]`: the run of `s` between the two bounds, empty when the
      second bound does not come after the first. */
  function Slice<T>(s: seq<T>, i: int, j: int): (r: seq<T>)
    ensures |r| <= |s|
    ensures SliceBound(i, |s|) + |r| <= |s|
    ensures forall k :: 0 <= k < |r| ==> r[k] == s[SliceBound(i, |s|) + k]
    ensures SliceBound(i, |s|) <= SliceBound(j, |s|) ==> |r| == SliceBound(j, |s|) - SliceBound(i, |s|)
    ensures SliceBound(j, |s|) <= SliceBound(i, |s|) ==> r == []
  {
    var a, b := SliceBound(i, |s|), SliceBound(j, |s|);
    if a <= b then s[a..b] else []
  }

  /** Python's `s[i]`: `None` exactly where Python raises `IndexError`. */
  function At<T>(s: seq<T>, i: int): (r: Option<T>)
    ensures r.Some? <==> -|s| <= i < |s|
    ensures 0 <= i < |s| ==> r == Some(s[i])
    ensures -|s| <= i < 0 ==> r == Some(s[|s| + i])
  {
    if 0 <= i < |s| then Some(s[i])
    else if -|s| <= i < 0 then Some(s[|s| + i])
    else None
  }

  /** Cutting a sequence at any Python bound and gluing the halves gives it back. */
  lemma TakeDrop<T>(s: seq<T>, k: int)
    ensures Take(s, k) + Drop(s, k) == s
  {
  }

  /** A prefix or a suffix holds nothing the whole does not hold. */
  lemma TakeDropWithout<T>(s: seq<T>, k: int, x: T)
    requires x !in s
    ensures x !in Take(s, k) && x !in Drop(s, k)
  {
    TakeDrop(s, k);
  }

  /** Concatenation is associative. */
  lemma AppendAssoc<T>(a: seq<T>, b: seq<T>, c: seq<T>)
    ensures a + (b + c) == (a + b) + c
  {
  }

  /** The concatenation of a sequence of sequences, in order. */
  function Concat<T>(xss: seq<seq<T>>): seq<T> {
    if xss == [] then [] else xss[0] + Concat(xss[1..])
  }

  lemma {:induction false} ConcatAppend<T>(a: seq<seq<T>>, b: seq<seq<T>>)
    ensures Concat(a + b) == Concat(a) + Concat(b)
    decreases |a|
  {
    if a == [] {
      assert a + b == b;
    } else {
      assert (a + b)[1..] == a[1..] + b;
      ConcatAppend(a[1..], b);
    }
  }

  /** Growing the list of pieces by one appends that piece. */
  lemma ConcatSnoc<T>(xss: seq<seq<T>>, k: nat)
    requires k < |xss|
    ensures Concat(xss[..k + 1]) == Concat(xss[..k]) + xss[k]
  {
    assert xss[..k + 1] == xss[..k] + [xss[k]];
    ConcatAppend(xss[..k], [xss[k]]);
    assert Concat([xss[k]]) == xss[k] + Concat([]);
  }

  /** The `j`-th element of the `k`-th piece sits after all the earlier pieces. */
  lemma ConcatAt<T>(xss: seq<seq<T>>, k: nat, j: nat)
    requires k < |xss| && j < |xss[k]|
    ensures |Concat(xss[..k])| + j < |Concat(xss)|
    ensures Concat(xss)[|Concat(xss[..k])| + j] == xss[k][j]
  {
    assert xss == xss[..k] + xss[k..];
    ConcatAppend(xss[..k], xss[k..]);
    assert xss[k..][1..] == xss[k + 1..];
    assert Concat(xss[k..]) == xss[k] + Concat(xss[k + 1..]);
  }
}

=== FILE: strings.dfy ===
/** The few `str` operations of Python the core relies on: whitespace stripping,
    splitting on and joining with one separator character, prefix tests, and the
    decimal conversions `str(int)` and `int(str)`. */
module Strings {
  import opened Wrappers

  /** Python's `str.isspace` for one character: the characters `str.strip()` removes. */
  predicate IsSpace(c: char) {
    || ('\t' <= c <= '\r')              // tab, line feed, vertical tab, form feed, carriage return
    || ('\U{1c}' <= c <= '\U{1f}')      // file, group, record and unit separators
    || c == ' ' || c == '\U{85}' || c == '\U{a0}' || c == '\U{1680}'
    || ('\U{2000}' <= c <= '\U{200a}')
    || c == '\U{2028}' || c == '\U{2029}' || c == '\U{202f}' || c == '\U{205f}' || c == '\U{3000}'
  }

  /** The characters a strip removes: Python's whitespace, or only "\n". */
  datatype CharClass = Whitespace | LineBreak

  predicate InClass(c: char, cls: CharClass) {
    match cls
    case Whitespace => IsSpace(c)
    case LineBreak => c == '\n'
  }

  /** `s` with its leading characters of class `cls` removed. */
  function TrimStart(s: string, cls: CharClass): (r: string)
    ensures |r| <= |s| && r == s[|s| - |r|..]
    ensures forall k :: 0 <= k < |s| - |r| ==> InClass(s[k], cls)
    ensures r == [] || !InClass(r[0], cls)
    decreases |s|
  {
    if s != [] && InClass(s[0], cls) then TrimStart(s[1..], cls) else s
  }

  /** `s` with its trailing characters of class `cls` removed. */
  function TrimEnd(s: string, cls: CharClass): (r: string)
    ensures |r| <= |s| && r == s[..|r|]
    ensures forall k :: |r| <= k < |s| ==> InClass(s[k], cls)
    ensures r == [] || !InClass(r[|r| - 1], cls)
    decreases |s|
  {
    if s != [] && InClass(s[|s| - 1], cls) then TrimEnd(s[..|s| - 1], cls) else s
  }

  /** Python's `s.strip()`. */
  function Strip(s: string): (r: string)
    ensures r == [] || (!IsSpace(r[0]) && !IsSpace(r[|r| - 1]))
  {
    TrimEnd(TrimStart(s, Whitespace), Whitespace)
  }

  /** Python's `s.strip("\n")`. */
  function StripNewlines(s: string): (r: string)
    ensures r == [] || (r[0] != '\n' && r[|r| - 1] != '\n')
  {
    TrimEnd(TrimStart(s, LineBreak), LineBreak)
  }

  /** A string with no stripped character at either end is its own strip. */
  lemma StripStripped(s: string)
    requires s == [] || (!IsSpace(s[0]) && !IsSpace(s[|s| - 1]))
    ensures Strip(s) == s
  {
  }

  /** The first position of `c` in `s`. */
  function IndexOf(s: string, c: char): (i: nat)
    requires c in s
    ensures i < |s| && s[i] == c && c !in s[..i]
  {
    if s[0] == c then 0 else 1 + IndexOf(s[1..], c)
  }

  /** Python's `sep.join(parts)` for a one-character separator. */
  function Join(parts: seq<string>, sep: char): string
  {
    if |parts| == 0 then ""
    else if |parts| == 1 then parts[0]
    else parts[0] + [sep] + Join(parts[1..], sep)
  }

  /** Python's `s.split(sep)` for a one-character separator: never empty, and no
      piece holds the separator. */
  function Split(s: string, sep: char): (r: seq<string>)
    ensures |r| >= 1
    ensures forall k :: 0 <= k < |r| ==> sep !in r[k]
    decreases |s|
  {
    if sep !in s then [s]
    else
      var i := IndexOf(s, sep);
      [s[..i]] + Split(s[i + 1..], sep)
  }

  /** Joining the pieces of a split back with the separator gives the text. */
  lemma {:induction false} JoinSplit(s: string, sep: char)
    ensures Join(Split(s, sep), sep) == s
    decreases |s|
  {
    if sep in s {
      var i := IndexOf(s, sep);
      var rest := Split(s[i + 1..], sep);
      JoinSplit(s[i + 1..], sep);
      assert Split(s, sep) == [s[..i]] + rest;
      assert Join(Split(s, sep), sep) == s[..i] + [sep] + Join(rest, sep);
      assert s == s[..i] + [sep] + s[i + 1..];
    }
  }

  /** A position holding `c` with no `c` before it is the first position of `c`. */
  lemma FirstIndex(s: string, c: char, j: nat)
    requires j < |s| && s[j] == c
    requires forall k :: 0 <= k < j ==> s[k] != c
    ensures IndexOf(s, c) == j
  {
    var i := IndexOf(s, c);
    assert forall k :: 0 <= k < i ==> s[..i][k] == s[k];
    assert !(i < j);
    assert !(j < i) by {
      assert forall k :: 0 <= k < i ==> s[k] != c;
    }
  }

  /** Splitting a join on the same separator gives the pieces back, provided no
      piece holds the separator. */
  lemma {:induction false} SplitJoin(parts: seq<string>, sep: char)
    requires |parts| >= 1
    requires forall k :: 0 <= k < |parts| ==> sep !in parts[k]
    ensures Split(Join(parts, sep), sep) == parts
    decreases |parts|
  {
    var s := Join(parts, sep);
    if |parts| > 1 {
      var rest := Join(parts[1..], sep);
      assert s == parts[0] + [sep] + rest;
      assert s[|parts[0]|] == sep;
      assert s[..|parts[0]|] == parts[0];
      FirstIndex(s, sep, |parts[0]|);
      assert s[|parts[0]| + 1..] == rest;
      SplitJoin(parts[1..], sep);
    }
  }

  /** The characters `str.splitlines` breaks lines at: line feed, carriage return
      (a carriage return followed by a line feed is one break), vertical tab, form
      feed, the file, group and record separators, next line, and the line and
      paragraph separators. */
  predicate IsLineBreak(c: char) {
    || ('\n' <= c <= '\r')              // line feed, vertical tab, form feed, carriage return
    || ('\U{1c}' <= c <= '\U{1e}')      // file, group and record separators
    || c == '\U{85}' || c == '\U{2028}' || c == '\U{2029}'
  }

  /** The position of the first line break in `s`, or `|s|` when there is none. */
  function FirstBreak(s: string): (i: nat)
    ensures i <= |s|
    ensures forall k :: 0 <= k < i ==> !IsLineBreak(s[k])
    ensures i < |s| ==> IsLineBreak(s[i])
  {
    if s == [] || IsLineBreak(s[0]) then 0 else 1 + FirstBreak(s[1..])
  }

  /** Where the text after the break at `i` starts: "\r\n" counts as one break. */
  function AfterBreak(s: string, i: nat): (j: nat)
    requires i < |s|
    ensures i < j <= |s|
  {
    if s[i] == '\r' && i + 1 < |s| && s[i + 1] == '\n' then i + 2 else i + 1
  }

  /** Python's `s.splitlines()`: the lines without their breaks; a final break does
      not start an empty last line. */
  function SplitLines(s: string): (r: seq<string>)
    decreases |s|
  {
    if s == [] then []
    else
      var i := FirstBreak(s);
      if i == |s| then [s] else [s[..i]] + SplitLines(s[AfterBreak(s, i)..])
  }

  /** No line holds a break of any kind. */
  lemma {:induction false} SplitLinesUnbroken(s: string)
    ensures forall k, j :: 0 <= k < |SplitLines(s)| && 0 <= j < |SplitLines(s)[k]| ==> !IsLineBreak(SplitLines(s)[k][j])
    decreases |s|
  {
    if s != [] {
      var i := FirstBreak(s);
      if i < |s| {
        var rest := s[AfterBreak(s, i)..];
        SplitLinesUnbroken(rest);
        assert SplitLines(s) == [s[..i]] + SplitLines(rest);
        forall k, j | 1 <= k < |SplitLines(s)| && 0 <= j < |SplitLines(s)[k]|
          ensures !IsLineBreak(SplitLines(s)[k][j])
        {
          assert SplitLines(s)[k] == SplitLines(rest)[k - 1];
        }
      }
    }
  }

  /** The text holds no line break other than "\n". */
  predicate OnlyLineFeeds(s: string) {
    forall k :: 0 <= k < |s| && IsLineBreak(s[k]) ==> s[k] == '\n'
  }

  /** Text whose only breaks are "\n" and which does not end with one is the join of
      its lines. */
  lemma {:induction false} JoinSplitLines(s: string)
    requires s != "" && s[|s| - 1] != '\n' && OnlyLineFeeds(s)
    ensures Join(SplitLines(s), '\n') == s
    decreases |s|
  {
    var i := FirstBreak(s);
    if i < |s| {
      assert s[i] == '\n';
      LineFeedsAfter(s, i);
      JoinSplitLines(s[i + 1..]);
      BreakStep(s, i);
    } else {
      assert SplitLines(s) == [s];
    }
  }

  /** When the lines after the first break join back to the rest of the text, all
      the lines join back to the text. */
  lemma BreakStep(s: string, i: nat)
    requires i < |s| - 1 && i == FirstBreak(s) && s[i] == '\n'
    requires Join(SplitLines(s[i + 1..]), '\n') == s[i + 1..]
    ensures Join(SplitLines(s), '\n') == s
  {
    var rest := s[i + 1..];
    assert AfterBreak(s, i) == i + 1;
    SplitLinesNonEmpty(rest);
    assert SplitLines(s) == [s[..i]] + SplitLines(rest);
    JoinAtBreak(s, i, SplitLines(rest));
  }

  /** What follows a break in text of line feeds only is such text too, and keeps
      the last character. */
  lemma LineFeedsAfter(s: string, i: nat)
    requires i < |s| - 1 && OnlyLineFeeds(s)
    ensures var rest := s[i + 1..]; rest != "" && rest[|rest| - 1] == s[|s| - 1] && OnlyLineFeeds(rest)
  {
    var rest := s[i + 1..];
    forall k | 0 <= k < |rest| && IsLineBreak(rest[k])
      ensures rest[k] == '\n'
    {
      assert rest[k] == s[i + 1 + k];
    }
  }

  /** The line before a line feed, joined to the lines that make up the rest. */
  lemma JoinAtBreak(s: string, i: nat, lines: seq<string>)
    requires i < |s| && s[i] == '\n' && lines != [] && Join(lines, '\n') == s[i + 1..]
    ensures Join([s[..i]] + lines, '\n') == s
  {
    JoinFront(s[..i], lines, '\n');
    assert s == s[..i] + ['\n'] + s[i + 1..];
  }

  /** A part in front of at least one other is followed by the separator. */
  lemma JoinFront(part: string, parts: seq<string>, sep: char)
    requires parts != []
    ensures Join([part] + parts, sep) == part + [sep] + Join(parts, sep)
  {
    assert ([part] + parts)[1..] == parts;
  }

  /** Non-empty text has at least one line. */
  lemma SplitLinesNonEmpty(s: string)
    requires s != ""
    ensures |SplitLines(s)| >= 1
  {
  }

  /** Joining lines with "\n" and splitting the text back gives the lines, provided
      none holds a break and the last one is not empty. */
  lemma {:induction false} SplitLinesJoin(lines: seq<string>)
    requires |lines| >= 1 && |lines[|lines| - 1]| > 0
    requires forall k, j :: 0 <= k < |lines| && 0 <= j < |lines[k]| ==> !IsLineBreak(lines[k][j])
    ensures SplitLines(Join(lines, '\n')) == lines
    decreases |lines|
  {
    var l := lines[0];
    assert forall j :: 0 <= j < |l| ==> !IsLineBreak(l[j]);
    if |lines| == 1 {
      NoBreakFirst(l);
    } else {
      var rest := lines[1..];
      var s := Join(lines, '\n');
      assert s == l + ['\n'] + Join(rest, '\n');
      assert s[..|l|] == l && s[|l|] == '\n';
      FirstBreakAt(s, |l|);
      assert s[|l| + 1..] == Join(rest, '\n');
      SplitLinesJoin(rest);
    }
  }

  /** Text without a break is a single line. */
  lemma NoBreakFirst(l: string)
    requires l != "" && forall j :: 0 <= j < |l| ==> !IsLineBreak(l[j])
    ensures SplitLines(l) == [l]
  {
    FirstBreakAt(l, |l|);
  }

  /** The first break is at `i` when no earlier character is one and `s[i]` is. */
  lemma {:induction false} FirstBreakAt(s: string, i: nat)
    requires i <= |s|
    requires forall j :: 0 <= j < i ==> !IsLineBreak(s[j])
    requires i < |s| ==> IsLineBreak(s[i])
    ensures FirstBreak(s) == i
    decreases i
  {
    if i > 0 {
      FirstBreakAt(s[1..], i - 1);
    }
  }

  /** Every kind of break ends a line: "\r\n" is one break, "\n\r" two. */
  lemma SplitLinesExamples()
    ensures SplitLines("a\r\nb") == ["a", "b"]
    ensures SplitLines("a\n\rb") == ["a", "", "b"]
    ensures SplitLines("a\U{0c}b\n") == ["a", "b"]
    ensures SplitLines("\n") == [""]
  {
    CarriageReturnLineFeed();
    LineFeedCarriageReturn();
    FormFeedAndFinalBreak();
    FirstBreakAt("\n", 0);
    assert "\n"[1..] == "";
  }

  lemma CarriageReturnLineFeed()
    ensures SplitLines("a\r\nb") == ["a", "b"]
  {
    FirstBreakAt("a\r\nb", 1);
    assert AfterBreak("a\r\nb", 1) == 3 && "a\r\nb"[3..] == "b" && "a\r\nb"[..1] == "a";
    NoBreakFirst("b");
  }

  lemma LineFeedCarriageReturn()
    ensures SplitLines("a\n\rb") == ["a", "", "b"]
  {
    FirstBreakAt("a\n\rb", 1);
    assert AfterBreak("a\n\rb", 1) == 2 && "a\n\rb"[2..] == "\rb" && "a\n\rb"[..1] == "a";
    FirstBreakAt("\rb", 0);
    assert AfterBreak("\rb", 0) == 1 && "\rb"[1..] == "b" && "\rb"[..0] == "";
    NoBreakFirst("b");
  }

  lemma FormFeedAndFinalBreak()
    ensures SplitLines("a\U{0c}b\n") == ["a", "b"]
  {
    FirstBreakAt("a\U{0c}b\n", 1);
    assert AfterBreak("a\U{0c}b\n", 1) == 2 && "a\U{0c}b\n"[2..] == "b\n" && "a\U{0c}b\n"[..1] == "a";
    FirstBreakAt("b\n", 1);
    assert AfterBreak("b\n", 1) == 2 && "b\n"[2..] == "" && "b\n"[..1] == "b";
  }

  /** Python's `s.startswith(prefix)`. */
  predicate StartsWith(s: string, prefix: string) {
    |prefix| <= |s| && s[..|prefix|] == prefix
  }

  predicate IsDigit(c: char) {
    '0' <= c <= '9'
  }

  predicate AllDigits(s: string) {
    forall k :: 0 <= k < |s| ==> IsDigit(s[k])
  }

  /** The decimal digits of `n`, most significant first, with no leading zero. */
  function NatToString(n: nat): (r: string)
    ensures |r| >= 1 && AllDigits(r)
    ensures |r| > 1 ==> r[0] != '0'
    decreases n
  {
    if n < 10 then [Digit(n)]
    else NatToString(n / 10) + [Digit(n % 10)]
  }

  /** The decimal digit character of `k`. */
  function Digit(k: nat): (c: char)
    requires k < 10
    ensures IsDigit(c) && (c as int) - ('0' as int) == k
  {
    (k + '0' as int) as char
  }

  /** The number a string of decimal digits denotes. */
  function DigitsValue(s: string): nat
    requires AllDigits(s)
    decreases |s|
  {
    if s == [] then 0
    else DigitsValue(s[..|s| - 1]) * 10 + ((s[|s| - 1] as int) - ('0' as int))
  }

  lemma {:induction false} NatToStringValue(n: nat)
    ensures DigitsValue(NatToString(n)) == n
    decreases n
  {
    if n >= 10 {
      var s := NatToString(n);
      assert s[..|s| - 1] == NatToString(n / 10);
      NatToStringValue(n / 10);
    }
  }

  /** Python's `str(i)` for an integer. */
  function IntToString(i: int): (r: string)
    ensures |r| >= 1
    ensures i < 0 <==> r[0] == '-'
  {
    if i < 0 then "-" + NatToString(-i) else NatToString(i)
  }

  /** Decimal digits in which single underscores may separate two digits, as
      `int()` takes them: `1_000`, but not `_1`, `1_` or `1__0`. Read from the
      end, a run is a digit after nothing, after a shorter run, or after an
      underscore that follows a shorter run. */
  predicate DigitRun(s: string)
    decreases |s|
  {
    && |s| >= 1 && IsDigit(s[|s| - 1])
    && (|s| == 1 || if s[|s| - 2] == '_' then DigitRun(s[..|s| - 2]) else DigitRun(s[..|s| - 1]))
  }

  /** The value of a digit character, and 0 for anything else. */
  function DigitOf(c: char): (k: nat)
    ensures IsDigit(c) ==> k == (c as int) - ('0' as int)
  {
    if IsDigit(c) then (c as int) - ('0' as int) else 0
  }

  /** The number a run of digits denotes, its underscores skipped. */
  function RunValue(s: string): nat
    decreases |s|
  {
    if s == [] then 0
    else if s[|s| - 1] == '_' then RunValue(s[..|s| - 1])
    else RunValue(s[..|s| - 1]) * 10 + DigitOf(s[|s| - 1])
  }

  /** Python's `int(s)` on a string: surrounding whitespace, an optional sign and
      a run of decimal digits with single underscores between them; `None` where
      Python raises `ValueError`. */
  function ParseInt(s: string): (r: Option<int>)
    ensures r.Some? ==> |Strip(s)| >= 1
  {
    ParseStripped(Strip(s))
  }

  /** `int` on text already stripped of whitespace. */
  function ParseStripped(t: string): (r: Option<int>)
    ensures r.Some? ==> |t| >= 1
  {
    if |t| >= 2 && t[0] == '-' && DigitRun(t[1..]) then Some(0 - RunValue(t[1..]))
    else if |t| >= 2 && t[0] == '+' && DigitRun(t[1..]) then Some(RunValue(t[1..]))
    else if DigitRun(t) then Some(RunValue(t))
    else None
  }

  /** Plain digits are a run, worth their decimal value. */
  lemma {:induction false} RunOfDigits(d: string)
    requires |d| >= 1 && AllDigits(d)
    ensures DigitRun(d) && RunValue(d) == DigitsValue(d)
    decreases |d|
  {
    var init := d[..|d| - 1];
    assert IsDigit(d[|d| - 1]);
    if |d| > 1 {
      assert AllDigits(init) by {
        forall k | 0 <= k < |init| ensures IsDigit(init[k]) {
          assert init[k] == d[k];
        }
      }
      assert d[|d| - 2] != '_' by {
        assert IsDigit(d[|d| - 2]);
      }
      RunOfDigits(init);
    } else {
      assert init == [];
    }
  }

  /** A run starts with a digit. */
  lemma {:induction false} RunStartsWithDigit(s: string)
    requires DigitRun(s)
    ensures IsDigit(s[0])
    decreases |s|
  {
    if |s| > 1 {
      var init := if s[|s| - 2] == '_' then s[..|s| - 2] else s[..|s| - 1];
      RunStartsWithDigit(init);
      assert init[0] == s[0];
    }
  }

  /** An unsigned run parses to its value. */
  lemma UnsignedRun(t: string)
    requires DigitRun(t)
    ensures ParseInt(t) == Some(RunValue(t))
  {
    RunStartsWithDigit(t);
    assert t[0] != '-' && t[0] != '+';
    assert ParseStripped(t) == Some(RunValue(t));
    StripStripped(t);
  }

  /** Underscores between digits are ignored: `int("1_000") == 1000`. */
  lemma UnderscoreAccepted(a: string)
    requires a == "1_000"
    ensures ParseInt(a) == Some(1000)
  {
    var a1, a2, a3, a4 := a[..1], a[..2], a[..3], a[..4];
    assert a1 == "1" && a2 == "1_" && a3 == "1_0" && a4 == "1_00";
    assert a2[..1] == a1 && a3[..1] == a1 && a3[..2] == a2 && a4[..3] == a3;
    assert a1[..0] == [];
    assert DigitRun(a1) && RunValue(a1) == 1;
    assert DigitRun(a3) && RunValue(a2) == 1 && RunValue(a3) == 10;
    assert DigitRun(a4) && RunValue(a4) == 100;
    assert DigitRun(a) && RunValue(a) == 1000;
    UnsignedRun(a);
  }

  /** Stripped text without a sign that is not a run of digits is refused. */
  lemma NoRunRefused(t: string)
    requires t != [] && !IsSpace(t[0]) && !IsSpace(t[|t| - 1])
    requires t[0] != '-' && t[0] != '+' && !DigitRun(t)
    ensures ParseInt(t) == None
  {
    StripStripped(t);
  }

  /** A doubled, leading or trailing underscore is refused. */
  lemma UnderscoresRefused(b: string, c: string, d: string)
    requires b == "1__0" && c == "_1" && d == "1_"
    ensures ParseInt(b) == None && ParseInt(c) == None && ParseInt(d) == None
  {
    assert !DigitRun(b) by {
      assert b[2] == '_' && b[..2] == "1_";
    }
    assert !DigitRun(c) by {
      assert c[0] == '_' && c[..0] == [];
    }
    NoRunRefused(b);
    NoRunRefused(c);
    NoRunRefused(d);
  }

  /** Digits parse to their value. */
  lemma ParseDigits(d: string)
    requires |d| >= 1 && AllDigits(d)
    ensures ParseInt(d) == Some(DigitsValue(d))
  {
    RunOfDigits(d);
    UnsignedRun(d);
  }

  /** Digits worth `n`, with a minus sign before them, parse to `-n`. */
  lemma ParseNegDigits(d: string, n: nat)
    requires |d| >= 1 && AllDigits(d) && DigitsValue(d) == n
    ensures ParseInt("-" + d) == Some(0 - n)
  {
    var s := "-" + d;
    assert s[0] == '-' && s[1..] == d;
    RunOfDigits(d);
    assert ParseStripped(s) == Some(0 - n);
    assert s[|s| - 1] == d[|d| - 1] && IsDigit(d[|d| - 1]);
    StripStripped(s);
  }

  /** Text that starts with neither a digit nor a sign, and has no whitespace to
      strip, is not a number. */
  lemma NotANumber(t: string)
    requires t != [] && !IsSpace(t[0]) && !IsSpace(t[|t| - 1])
    requires !IsDigit(t[0]) && t[0] != '-' && t[0] != '+'
    ensures ParseInt(t) == None
  {
    if DigitRun(t) {
      RunStartsWithDigit(t);
    }
    StripStripped(t);
  }

  /** `int(str(i)) == i`: the decimal rendering of an integer parses back to it. */
  lemma IntToStringRoundTrip(i: int)
    ensures ParseInt(IntToString(i)) == Some(i)
  {
    if i < 0 {
      var n: nat := 0 - i;
      var d := NatToString(n);
      assert IntToString(i) == "-" + d;
      NatToStringValue(n);
      ParseNegDigits(d, n);
    } else {
      var d := NatToString(i);
      assert IntToString(i) == d;
      NatToStringValue(i);
      ParseDigits(d);
    }
  }
}

=== FILE: types.dfy ===
/** The value records shared by the whole pipeline: test outcomes and source
    positions. All of them are immutable values, as the frozen dataclasses are. */
module Types {
  import opened Wrappers
  import Paths

  /** The three outcomes of a test run. */
  datatype ResultStatus = Survived | Killed | TimedOut

  /** The literal string spelling each outcome has in the source. */
  function StatusText(s: ResultStatus): string {
    match s
    case Survived => "survived"
    case Killed => "killed"
    case TimedOut => "timed out"
  }

  /** The three spellings are distinct, so the spelling names the outcome. */
  lemma StatusTextInjective(a: ResultStatus, b: ResultStatus)
    ensures StatusText(a) == StatusText(b) ==> a == b
  {
  }

  /** The outcome of one test run: its duration in seconds, its status, and the
      captured output when there is any. */
  datatype TestsResult = TestsResult(duration: real, status: ResultStatus, output: Option<string>)

  /** `TestsResult(duration, status)`: the output field defaults to absent. */
  function NewTestsResult(duration: real, status: ResultStatus): (r: TestsResult)
    ensures r.duration == duration && r.status == status
    ensures r.output.None?
  {
    TestsResult(duration, status, None)
  }

  /** A source span: the start line and column are always known, the end line and
      end column may be absent. */
  datatype NodeContext = NodeContext(lineno: int, endLineno: Option<int>, colOffset: int, endColOffset: Option<int>)

  /** The file a mutation belongs to. */
  datatype FileContext = FileContext(path: Paths.Path)

  /** The payload a mutator may attach to a context; the built-in mutators never do. */
  datatype Extra = Extra(payload: string)

  /** Where a mutation is: its file, its span, and an optional payload. */
  datatype Context = Context(file: FileContext, node: NodeContext, extra: Option<Extra>)

  /** `Context(file=..., node=...)`: the payload defaults to absent. */
  function NewContext(file: FileContext, node: NodeContext): (r: Context)
    ensures r.file == file && r.node == node
    ensures r.extra.None?
  {
    Context(file, node, None)
  }
}

=== FILE: unaryops.dfy ===
/** The unary-operator switch: unary `+` and `-` trade places, and `~x` becomes `x`.
    Logical `not` is left alone. */
module UnaryOps {
  import opened Wrappers
  import opened Types
  import opened Ast
  import opened Mutations

  /** `MAPPING[type(op)]`; absent for `~` and `not`. */
  function Switch(o: UnaryOperator): (r: Option<UnaryOperator>)
    ensures r.Some? <==> o in {UAdd, USub}
    ensures r.Some? ==> r.value != o && r.value in {UAdd, USub}
  {
    match o
    case UAdd => Some(USub)
    case USub => Some(UAdd)
    case _ => None
  }

  /** `switch_unary_ops(node, context)`: the bare operand for `~`, the switched
      operation for unary `+` and `-`. The two cases exclude each other, so there
      is at most one mutation, and none for `not` or any other node. */
  function SwitchUnaryOps(n: Node, c: Context): (r: seq<Mutation>)
    ensures |r| <= 1
    ensures |r| == 1 <==> IsUnaryOp(n) && n.fields[0].op.unary != Not
  {
    if IsUnaryOp(n) then
      var o, x := n.fields[0].op.unary, n.fields[1].node;
      (if o == Invert then [FromNode(x, c)] else [])
      + (if Switch(o).Some? then [FromNode(UnaryOp(FreshAttrs, Switch(o).value, x), c)] else [])
    else []
  }

  /** On `op x`, operator by operator. */
  lemma SwitchUnaryOpsOf(a: Attrs, o: UnaryOperator, x: Node, c: Context)
    ensures SwitchUnaryOps(UnaryOp(a, o, x), c) ==
      match o
      case Invert => [Mutation(x, x, c)]
      case UAdd => [FromNode(UnaryOp(FreshAttrs, USub, x), c)]
      case USub => [FromNode(UnaryOp(FreshAttrs, UAdd, x), c)]
      case Not => []
  {
  }

  /** Switching a switched `+x` or `-x` again restores the operator over the same operand. */
  lemma SwitchUnaryOpsTwice(a: Attrs, o: UnaryOperator, x: Node, c: Context)
    requires o in {UAdd, USub}
    ensures |SwitchUnaryOps(UnaryOp(a, o, x), c)| == 1
    ensures SwitchUnaryOps(SwitchUnaryOps(UnaryOp(a, o, x), c)[0].node, c) == [FromNode(UnaryOp(FreshAttrs, o, x), c)]
  {
    SwitchUnaryOpsOf(a, o, x, c);
    SwitchUnaryOpsOf(FreshAttrs, Switch(o).value, x, c);
  }
}

=== FILE: wrappers.dfy ===
/** Option and Result, the two failure-carrying datatypes the rest of the model uses
    for Python's `None` and for raised exceptions. */
module Wrappers {

  /** Python's `Optional[T]`: `None` or a present value. */
  datatype Option<+T> = None | Some(value: T) {

    /** The value, or `default` when absent (Python's `x if x is not None else default`). */
    function GetOr(default: T): T {
      match this
      case Some(v) => v
      case None => default
    }
  }

  /** A computation that either returns a value or raises an error. */
  datatype Result<+R, +E> = Ok(value: R) | Err(error: E) {

    predicate IsFailure() {
      Err?
    }

    function PropagateFailure<U>(): Result<U, E>
      requires Err?
    {
      Err(error)
    }

    function Extract(): R
      requires Ok?
    {
      value
    }
  }
}
